=== FILE: README.md ===
# BibleLink core, modelled in Dafny

This project models the core of the BibleLink plugin for Obsidian. The plugin keeps Bible translations and their verses in a small store. It renders `bible` code blocks from a header such as `KJV John 3:16-18 [verse|link]`. It inserts references into a note as text, a link or a code block, and expands verse shortcuts. It filters and sorts verse records for Dataview queries, and links passages to Bible Gateway. A modal picks a book, chapters and verses. A settings tab edits shortcuts, removes translations, lists the installed ones and names a SQLite import.

The model is made of pure functions over immutable values:

| module | file | what it holds |
|---|---|---|
| `Wrappers` | wrappers.dfy | `Option` and `Result` |
| `Text` | text.dfy | JavaScript's `\s`, `\d` and `\w` character classes; ASCII case mapping; `trim`, `split` and `join`; decimal numerals (`parseInt` and `toString`) |
| `Arrays` | arrays.dfy | `find`, `filter`, an insertion sort, `new Set(...)` order, character-by-character string order |
| `Rules` | rules.dfy | `escapeHtml` and the processing rules. The replacement-template language of `String.prototype.replace` follows section 21.1.3.14.1 of ECMAScript 2015. |
| `Store` | store.dfy | the translation and verse store of src/database.ts |
| `Grammar` | grammar.dfy | explicit recognisers for the fixed regular expressions the plugin matches references with |
| `CodeBlock` | codeblock.dfy | `processCodeBlock`: header, lookup and the rendered pieces |
| `Insert` | insert.dfy | `insertBibleReference`, `insertShortcutReference` and `formatReference` |
| `Dataview` | dataview.dfy | `parseSortConditions`, `applyWhereConditions`, `applySort`, `getTestament` and `getBookCategory` |
| `Gateway` | gateway.dfy | `encodeURIComponent`, `decodeURIComponent` and `generateBibleGatewayUrl` |
| `Selector` | selector.dfy | the reference modal's state and its handlers |
| `SettingsTab` | settings.dfy | the shortcut, translation-table and SQLite-import rules of the settings tab |

Some things the model receives as parameters instead of computing them:

- The regular-expression engine behind a translation's processing rules is a parameter, `Rules.Engine`. It is assumed only to report matches that lie in the text, in order.
- `localeCompare` is a parameter `lc`, assumed to be a total preorder.
- A DOM element or a notice is represented by the text it shows.

Where the plugin's documented behaviour and its code disagree, the model follows the code:

- A same-chapter range that runs backwards, such as `John 5:10-5:2`, is reported as an invalid reference format, because neither reference grammar accepts it. The code has no separate range error.
- In a code block without option words, the first word is the translation.
- A leading `[options]` word, which the error message offers as one of the accepted forms, is read as the translation.
- `insertBibleReference` treats an end verse of 0 as absent.
- Red-letter mode shows the words without the trailing space that plain mode adds.

The one place where the model departs from the code is the link of a cross-chapter code block. The model links to the whole passage, where the code drops the end chapter; the finding below records this.

## Model

| member | source | states |
|---|---|---|
| Store.GetTranslations | src/database.ts:143-145 | The list returned is a permutation of the stored translations. |
| Store.GetTranslationsSorted | src/database.ts:143-145 | When `localeCompare` is a total preorder, the list is ordered by abbreviation. |
| Store.GetTranslationsStable | src/database.ts:143-145 | The sort is stable: translations whose abbreviations tie keep their stored order. |
| Store.BookOrderTotalPreorder | src/database.ts:155-170 | The `getBooks` comparator is a total preorder whenever `localeCompare` is one. |
| Store.GetBooks | src/database.ts:147-171 | Each book with at least one stored verse appears exactly once, and no other book appears. |
| Store.GetBooksOrder | src/database.ts:155-170 | Known books come first, in canonical order. Unknown books follow, in `localeCompare` order. |
| Store.GetChaptersForBook | src/database.ts:173-184 | An unknown translation gives no chapters. Otherwise the result is exactly the book's chapters that have a verse in that translation, strictly ascending. |
| Store.GetVersesForChapter | src/database.ts:186-199 | An unknown translation gives no verses. Otherwise the result is exactly the chapter's verse numbers in that translation, strictly ascending. |
| Store.GetVerse | src/database.ts:201-211 | The first stored verse at that place is returned, as `find` does; adding verses checks for nothing, so there may be several. The result is absent exactly when the translation is unknown or has no verse there. |
| Store.AddTranslation | src/database.ts:213-233 | The call fails, with its message, exactly when the abbreviation is taken. Otherwise the translation is appended under the next id, which is returned, and the verses are untouched. |
| Store.AddTranslationValid | src/database.ts:213-233 | Adding a translation keeps abbreviations and ids unique and every id below the counter. |
| Store.UpdateTranslation | src/database.ts:235-255 | An unknown id fails with "Translation not found". A change to a taken abbreviation fails. Otherwise the first translation with the id takes the new fields and every other translation stays. |
| Store.UpdateTranslationValid | src/database.ts:235-255 | Updating a translation keeps the store consistent. |
| Store.AddVerse | src/database.ts:257-269 | The verse is appended under the next verse id, and the counter moves on by one. |
| Store.AddVerseIsBatch | src/database.ts:257-293 | Adding one verse is the same as adding a batch of one. |
| Store.AddVersesBatch | src/database.ts:271-293 | The batch is appended in order under consecutive new ids, and the translations are untouched. |
| Store.AddVersesBatchAppend | src/database.ts:271-293 | Adding two batches one after the other is the same as adding them as one batch. |
| Store.AddVersesBatchValid | src/database.ts:271-293 | Adding a batch keeps verse ids unique and below the counter. |
| Store.RemoveTranslation | src/database.ts:295-311 | The answer is true exactly when some translation has the abbreviation. In that case the first such translation and exactly its verses are dropped. Otherwise nothing changes. |
| Store.RemoveTranslationValid | src/database.ts:295-311 | Removal keeps the store consistent, and the abbreviation is then gone. |
| Store.RemoveAfterAdd | src/database.ts:213-311 | Adding a translation and then removing it restores the translations and verses. |
| Store.GetTranslationStats | src/database.ts:359-371 | An unknown abbreviation gives nothing. Otherwise the result holds the name, the number of verses with the translation's id, and its books without duplicates in character order. |
| Store.ApplyProcessingRules | src/database.ts:373-404 | An unknown translation, or one without rules, leaves the text unchanged. Otherwise the rules of the first translation with the abbreviation are applied in order. |
| Rules.ApplyRule | src/database.ts:380-401 | A pattern that does not compile leaves the text unchanged. So does a pattern with no match, an escaping rule with a group that did not take part, and an escaping rule whose pattern has named groups. |
| Rules.ApplyRulesAppend | src/database.ts:380-403 | The rules apply in order, each to the output of the one before. |
| Rules.WholeMatchRuleIsIdentity | src/database.ts:397 | A plain rule whose formatting is `$&` leaves the text unchanged. |
| Rules.PlainFormattingIsLiteral | src/database.ts:397 | A plain rule whose formatting has no `$` replaces every match with that formatting. |
| Rules.SubstituteFirstCapture | src/database.ts:397 | In a plain rule, `$1` stands for the first capture, or for nothing when that group did not take part. |
| Rules.EscapedReplacements | src/database.ts:384-395 | Escape mode fails exactly when some match has a capture group that did not take part. |
| Rules.EscapedOutcome | src/database.ts:385-389 | With named groups, escape mode throws at the first match. |
| Rules.EscapedPlainFormatting | src/database.ts:385-394 | Escape mode never escapes the formatting's own characters: a formatting without `$` is the replacement. |
| Rules.EscapedFirstCapture | src/database.ts:387-391 | `$1` becomes the escaped first capture, and text around it stays literal. |
| Rules.EscapedTenReadsFirst | src/database.ts:387-391 | With one group, `$10` is the escaped first capture followed by `0`, because `$1` is replaced inside `$10`. |
| Rules.EscapedTwoCaptures | src/database.ts:387-391 | `$1` and `$2` become the first and second escaped captures. |
| Rules.EscapedWholeMatch | src/database.ts:393 | `$&` becomes the escaped match. |
| Rules.EscapedCaptureRule | src/database.ts:384-396 | An escaping rule `pre$1post` replaces every match with `pre`, the escaped capture and `post`. |
| Rules.EscapedFormattingIsLiteral | src/database.ts:384-396 | An escaping rule whose formatting has no `$` replaces every match with the formatting. |
| Rules.EscapeHtml | src/database.ts:406-417 | The output contains none of `<`, `>`, `[`, `]`. |
| Rules.UnescapeEscape | src/database.ts:406-417 | Decoding the five entities restores the original text, so escaping loses nothing. |
| Rules.EscapeHtmlUnchanged | src/database.ts:406-417 | The text is unchanged exactly when it has none of the five special characters. |
| CodeBlock.ParseHeader | src/main.ts:326-390 | The header has no words exactly when the block has none. Otherwise the translation is one of the first line's words. |
| CodeBlock.HeaderRoundTrip | src/main.ts:326-390 | Plain words joined by spaces read back with the first word as the translation. The following words, up to a trailing bracketed list, form the reference, and the list gives the options. |
| CodeBlock.BracketRoundTrip | src/main.ts:368-381 | A `[a\|b]` list of option names reads back as those names. |
| CodeBlock.LeadingBracketIsTranslation | src/main.ts:341-390 | A leading `[options]` word is taken as the translation, with no options. |
| CodeBlock.ResolveSingle | src/main.ts:488-511 | The passage holds exactly the stored verses of the asked range of one chapter, in order. The call fails, naming the range, exactly when the store has none of them. |
| CodeBlock.ResolveRange | src/main.ts:396-427 | The passage holds exactly the stored verses from `c1:v1` to `c2:v2`, in reading order. Middle chapters run to verse 999. The call fails exactly when there are none. |
| CodeBlock.ChapterRunsComplete | src/main.ts:411-420 | Every asked verse that the store has is collected. |
| CodeBlock.Resolve | src/main.ts:391-511 | The cross-chapter form is tried first, and two different books give the cross-book message. The single-chapter form comes next. Anything else is an invalid reference format. |
| CodeBlock.Process | src/main.ts:320-578 | A block with no words throws. A bad header or a failed lookup shows its message. A rendered block gets its classes and heading. Its link decodes back to the passage's link text and carries the translation's Bible Gateway version. |
| CodeBlock.ProcessRendered | src/main.ts:428-476 | A rendered block shows every found verse's processed text, in order. It numbers all verses or none. With the chapter option it marks each chapter of the passage exactly once, ascending. |
| CodeBlock.RedWords | src/main.ts:461-470 | There is one span per word, red exactly when the word contains one of the names. Each span but the last is followed by a space. |
| CodeBlock.RedLetterText | src/main.ts:461-470 | The red-letter spans together show exactly the processed text. |
| CodeBlock.CrossLinkText | src/main.ts:478-480 | The corrected cross-chapter link text is the passage's own heading, `Book c1:v1-c2:v2`. |
| CodeBlock.CrossLabelRoundTrip | src/main.ts:478-480 | A cross-chapter label's four numbers read back from it. |
| CodeBlock.CrossLabelInjective | src/main.ts:478-480 | Different cross-chapter passages of a book get different labels. |
| CodeBlock.CrossLinkAsWrittenCollides | src/main.ts:478-480 | As written, passages that differ only in their end chapter share one link. The corrected text tells them apart. |
| CodeBlock.CrossLinkAsWrittenExample | src/main.ts:478-480 | As written, the passage John 3:16 to 4:2, written `John 3:16-John 4:2`, links to verses 16 to 2 of chapter 3. |
| CodeBlock.CrossExampleParses | src/main.ts:393 | The cross-chapter grammar reads `John 3:16-John 4:2` as John, chapter 3 verse 16 to chapter 4 verse 2. |
| Grammar.ParseSingle | src/main.ts:490 | A match gives a non-empty one-line book and a tail of numerals. The text is the book, whitespace and the tail. |
| Grammar.ParseSingleRoundTrip | src/main.ts:490 | Any book without trailing whitespace, any whitespace and any tail read back as themselves. |
| Grammar.ParseCross | src/main.ts:393 | A match gives two books and four numerals, and the text is spelled from them. |
| Grammar.ParseCrossRoundTrip | src/main.ts:393 | A cross reference with plain books, the first without a hyphen, reads back as itself. |
| Grammar.ShortcutRoundTrip | src/main.ts:594 | A word, whitespace and `C:V` is read back by the shortcut grammar, and the settings accept it too. |
| Grammar.ShortcutRangeRejected | src/settings.ts:1097 | The settings accept `Word C:V-E`, which the shortcut command then refuses. |
| Grammar.ParseManualRoundTrip | src/selector.ts:648 | A book of letters and spaces, with an optional leading 1-3, reads back with any tail. |
| Insert.Lookup | src/main.ts:622-649 | An unparsable reference gives the format notice. Otherwise the hits are exactly the asked verses that the store has, in ascending verse order and so each once. The lookup fails exactly when there are none. |
| Insert.Gather | src/main.ts:635-644 | The hits are exactly the asked verses that the store has, each with its stored text. When the asked numbers ascend, so do the hits' verse numbers. |
| Insert.AskedVersesAgree | src/main.ts:631-637 | Unless the end verse is 0, the verses asked for are the code block's range. |
| Insert.ZeroEndVerse | src/main.ts:631-637 | An end verse of 0 asks for the start verse alone, where a code block asks for none. |
| Insert.InsertBibleReference | src/main.ts:614-670 | A failed lookup gives its notice and nothing else. Otherwise the found verses are inserted in the chosen shape: `ref (tr): ` and the texts, numbered when there are several; the link `[ref (tr)](url)`; or a code block holding the translation, the reference, the options and the texts. |
| Insert.CodeSourceRoundTrip | src/main.ts:659-662 | An inserted code block's header reads back as the translation, the reference and the options it was written with. |
| Insert.LinkMarkdown | src/main.ts:657-658 | The link text is the reference and translation, and the URL decodes back to the reference and its version code. |
| Insert.InsertShortcutReference | src/main.ts:592-612 | Only `Word C:V` is accepted. The verse must exist in the default translation. Then the reference is inserted like any other, without options. |
| Insert.ShortcutInserted | src/main.ts:592-612 | A shortcut whose verse exists is always inserted. |
| Insert.FormatReference | src/main.ts:672-683 | With the translation shown, the result ends in a space and the abbreviation. |
| Insert.FormatReferenceShowsTranslation | src/main.ts:672-683 | With the translation shown, the result is the reference without it, then a space and the abbreviation; that prefix reads back as the shown book, the chapter and the verse. |
| Insert.FormatReferenceRoundTrip | src/main.ts:672-683 | Without the translation, the result reads back as the shown book, the chapter and the verse. |
| Insert.ShownBook | src/main.ts:673-676 | A known book is abbreviated when asked. Otherwise the name is kept. |
| Dataview.ApplyWhereConditions | src/main.ts:1041-1061 | Exactly the records meeting every condition are kept, with their multiplicity and order. |
| Dataview.WhereConjunction | src/main.ts:1041-1061 | Filtering by joined condition lists is filtering by one list, then the other. |
| Dataview.WhereNothing | src/main.ts:1041-1061 | No conditions keep every record. |
| Dataview.Compare | src/main.ts:1064-1083 | Two records compare equal exactly when every key ties. |
| Dataview.KeyDecides | src/main.ts:1065-1081 | When earlier keys tie, the first key that differs decides, negated for `desc`. |
| Dataview.ApplySort | src/main.ts:1063-1084 | The result is a permutation of the records. |
| Dataview.ComparatorPreorder | src/main.ts:1064-1083 | Over verse records, the comparator is a total preorder. |
| Dataview.ApplySortSorted | src/main.ts:1063-1084 | The result is ordered by the comparator. |
| Dataview.ApplySortIdempotent | src/main.ts:1063-1084 | Sorting a second time changes nothing. |
| Dataview.ApplySortStable | src/main.ts:1063-1084 | The sort is stable: the records the keys tie with any record keep their relative order. |
| Dataview.ParseSortConditions | src/main.ts:970-998 | Every key's field is a lower-case word. |
| Dataview.SortClauseRoundTrip | src/main.ts:970-998 | A clause `f1 DESC, f2 ASC` reads back as its keys. |
| Dataview.GetTestament | src/main.ts:1086-1100 | A book is Old Testament exactly when it is on the list. Any other book is New Testament. |
| Dataview.GetBookCategory | src/main.ts:1102-1126 | The result is the category of the book's first entry, or "Unknown". |
| Dataview.TestamentByOrder | src/main.ts:1086-1100 | A book is Old Testament exactly when it is among the first 39 of the store's canonical order. |
| Dataview.TestamentMatchesCategory | src/main.ts:1086-1126 | An Old Testament book has an Old Testament category, and an unknown book counts as New Testament. |
| Gateway.GatewayUrlRoundTrip | src/main.ts:1163-1182 | A passage URL's search term decodes to exactly the reference, and its version is the translation's Bible Gateway code. |
| Gateway.DecodeEncode | src/main.ts:1180 | `decodeURIComponent` undoes `encodeURIComponent`. |
| Gateway.DecodeEscape | src/main.ts:1180 | An accepted run of escapes is exactly as long as the shortest UTF-8 form of the character it decodes to. Overlong forms throw, as do surrogates and code points above U+10FFFF. |
| Gateway.OverlongRejected | src/main.ts:1180 | `%C0%80`, an overlong U+0000, does not decode. |
| Gateway.EncodeUriComponent | src/main.ts:1180 | Only unreserved characters and `%` remain. |
| Selector.Opened | src/selector.ts:30-36 | The modal opens with a selection that does not span chapters. |
| Selector.InsertReference | src/selector.ts:604-637 | There is a warning without a book, and one without a translation. Otherwise the spelled reference is submitted with the chosen or default translation, the output type and the options. |
| Selector.OneChapterReads | src/selector.ts:604-637 | A one-chapter selection spells a reference that the code-block grammar reads back. |
| Selector.CrossChapterReads | src/selector.ts:619-622 | A cross-chapter selection spells a reference that the cross-chapter grammar reads back. |
| Selector.HandleReferenceInput | src/selector.ts:639-694 | Empty input clears the grid picks. Unparsable input and an unknown book give their warnings, and so does a found book whose name is empty, since an empty string is falsy. Otherwise the found book and the chapter are selected. The start verse is V or 1. The end verse is W, else V, else none. The translation falls back to the default. The book selected is the first listed book equal to the typed name ignoring case. |
| Selector.FindBook | src/selector.ts:660-661 | The result is the first listed book equal to the name ignoring case. There is none exactly when no listed book matches. |
| Selector.TypingKeepsCoherent | src/selector.ts:639-694 | Typing never leaves a selection that spans chapters. |
| Selector.TypedReferenceRoundTrip | src/selector.ts:604-694 | Typing back the reference a selection spells gives a selection that inserts exactly the same thing. |
| Selector.UpdateOption | src/selector.ts:594-602 | Switching on appends the option once. Switching off removes every copy. Other options are untouched, and a list without duplicates keeps none. |
| Selector.UpdateOptionIdempotent | src/selector.ts:594-602 | Setting an option twice to the same value is the same as setting it once. |
| Selector.OnThenOff | src/selector.ts:594-602 | Switching an option on and then off is the same as switching it off. |
| Selector.Pick | src/selector.ts:275-289 | Ctrl toggles the number. Shift adds the range from the anchor. A plain click selects the number alone. |
| Selector.CtrlClickTwice | src/selector.ts:275-280 | Two Ctrl-clicks on the same number cancel out. |
| Selector.ShiftClickGrows | src/selector.ts:281-286 | A Shift-click keeps the earlier picks and adds both ends. |
| Selector.ClickBook | src/selector.ts:235-240 | A book click selects the book from chapter 1 verse 1 with no end chapter or end verse, keeps the translation, options and grid picks, and does not span chapters. |
| Selector.ClickChapter | src/selector.ts:274-293 | A chapter click updates the chapter picks and makes the clicked chapter both start and end, from verse 1 with no end verse. It leaves the book, translation and verse picks alone, and does not span chapters. |
| Selector.ClickVerse | src/selector.ts:328-345 | A verse click updates the verse picks and makes the clicked verse both start and end, within the start chapter. |
| Selector.ChapterClickInserts | src/selector.ts:274-293 | After a chapter click, insertion gives verse 1 of that chapter. |
| Selector.VerseClickInserts | src/selector.ts:328-345 | After a verse click, insertion gives that single verse. |
| Selector.SelectAll | src/selector.ts:260-261 | "Select All" picks exactly the listed numbers. |
| Selector.SelectAllKeepsInsertion | src/selector.ts:260-265 | "Select All Chapters" does not change what is inserted. |
| SettingsTab.AddShortcut | src/settings.ts:1155-1179 | Both inputs are trimmed, and an empty one is refused. |
| SettingsTab.AddEntry | src/settings.ts:1155-1179 | The shortcut is added exactly when the key and reference are non-empty, the key is free and the reference has the accepted form. Nothing else changes. |
| SettingsTab.EditShortcut | src/settings.ts:1083-1104 | Both inputs are trimmed, and an empty one is refused. |
| SettingsTab.EditEntry | src/settings.ts:1083-1104 | Only a changed key that is taken counts as a duplicate. On success the old key goes, the new key maps to the reference, and other entries stay. |
| SettingsTab.ChangesKeepWellFormed | src/settings.ts:1097-1101 | Adding and editing keep every stored reference in the accepted form. |
| SettingsTab.RenameRoundTrip | src/settings.ts:1083-1104 | Renaming a key to a free one and back restores the table. |
| SettingsTab.SaveUnchangedRow | src/settings.ts:1083-1104 | Saving an unchanged row leaves the table as it was. |
| SettingsTab.StoredShortcutExpands | src/settings.ts:1097 | A stored reference expands exactly when it has no verse range. |
| SettingsTab.RowActions | src/settings.ts:511-553 | A row offers Edit and Remove exactly when it is not ASV. |
| SettingsTab.RemoveTranslation | src/settings.ts:967-988 | ASV is refused and an unknown abbreviation fails. Otherwise one translation goes, and the default falls back to ASV exactly when it was the one removed. |
| SettingsTab.RemovedGone | src/settings.ts:967-988 | A removed abbreviation is no longer installed, and the store stays consistent. |
| SettingsTab.BuiltInKept | src/settings.ts:967-971 | No removal touches ASV. |
| SettingsTab.DefaultStaysInstalled | src/settings.ts:977-981 | While ASV is installed, the default translation always names an installed one. |
| SettingsTab.Row | src/settings.ts:406-411 | A catalogued abbreviation's name, language and category come from the catalogue. Other translations show their stored labels. |
| SettingsTab.BuiltInLabel | src/settings.ts:54-55 | ASV is always labelled by its catalogue entry. |
| SettingsTab.FilterRows | src/settings.ts:413-422 | The rows kept are exactly those whose name, abbreviation, language or category contains the filter text, ignoring case, in their order. |
| SettingsTab.TypingNarrows | src/settings.ts:413-422 | Typing more into the filter box only hides rows. |
| SettingsTab.AbbreviationShown | src/settings.ts:413-422 | Typing an installed abbreviation, in any case, keeps its row. |
| SettingsTab.ClickHeader | src/settings.ts:385-393 | A click on the sorted column flips its direction. A click on another column selects it, ascending. |
| SettingsTab.ClickHeaderTwice | src/settings.ts:385-393 | Two clicks on the sorted column restore its direction. |
| SettingsTab.Arrow | src/settings.ts:381-383 | Only the sorted column shows an arrow. |
| SettingsTab.SortRowsOrdered | src/settings.ts:424-429 | The rows read in the column's `localeCompare` order, reversed when descending. |
| SettingsTab.SortRowsStable | src/settings.ts:424-429 | The sort is stable: rows that tie in the sorted column keep the order they had before sorting. |
| SettingsTab.TableLists | src/settings.ts:405-429 | The table lists exactly the installed translations' rows that show the filter text. |
| SettingsTab.SqliteName | src/settings.ts:741 | The name is the file name without a trailing `.sqlite` or `.db` in any case. It equals the file name exactly when there is no such ending. |
| SettingsTab.SqliteNameRoundTrip | src/settings.ts:741 | A stem followed by either ending, in any case, gives back the stem. |
| SettingsTab.SqliteAbbreviation | src/settings.ts:742 | The abbreviation equals the name ignoring case and has no lower-case letter. |
| SettingsTab.ImportSqlite | src/settings.ts:752-776 | An existing abbreviation fails with its message. Otherwise one translation and two sample verses are appended. |
| SettingsTab.ImportedSampleFound | src/settings.ts:763-776 | After an import, the new translation has John 3:16. |
| Text.Trim | src/main.ts:329 | The result is a slice between runs of whitespace, with no whitespace at its ends. |
| Text.JoinSplit | src/main.ts:326 | Joining the pieces of a split with the separator restores the text. |
| Text.NumeralRoundTrip | src/main.ts:398-402 | `parseInt` reads back what `toString` wrote. |
| Arrays.SortBySorted | src/main.ts:1064 | The insertion sort orders by any total preorder. |
| Arrays.SortByStable | src/main.ts:1064 | Under any total preorder the sort is stable: the elements tied with any element come out in the order they went in. |

## Left out

- Reading and writing the data and settings files, the DOM, notices, modals and rendering to HTML are left out. A notice is its text, and a rendered block is a list of pieces.
- Creating the Dataview note after an insertion (`createVerseNote`) and the XML import are left out; they are file I/O.
- `parseWhereConditions`, `parseDataviewQuery` and `LIMIT` are left out. The conditions and sort keys reach the model already parsed, apart from the sort clause.
- The regular-expression engine of processing rules is a parameter. Only what the plugin does with its matches is modelled.
- `localeCompare` is an abstract total preorder. `toLowerCase` and `toUpperCase` change ASCII letters only.
- Dataview.GetBookCategory: does not model the names every object inherits, such as `toString`, for which `categories[book]` is a function rather than a string.
- Dataview records have a fixed schema with one type per field. Records that mix numbers and strings in one field would make the comparator inconsistent, and the plugin never builds them.
- `updateReferenceInputFromSelection`, the dropdowns and the preview only display the selection, so they are left out.
- The inline rename branch of the translations table is left out, because `editingAbbr` is never set.
- The translation-edit modal is left out. The SQLite import takes the details the user confirms as parameters.
- The shortcut table's own filter, sort and delete button are left out. Its filter and sort work like the translations table's, and the delete is a plain map removal.
- CodeBlock.ResolveCross: states only the error message, the book and that every verse comes from the store. The full range contract is on CodeBlock.ResolveRange, which it calls.
- CodeBlock.Process: a cross-chapter block links to the corrected text `Book c1:v1-c2:v2`. The code builds `Book c1:v1-v2`, which CodeBlock.CrossLinkTextAsWritten models.
- CodeBlock.ResolveRange: the passage carries the corrected link text, for the reason given for CodeBlock.Process.
- Rules.ApplyRule: plain rules read `$<name>` literally. Later editions of ECMAScript substitute the named group there when the pattern has named groups.
- Rules.EscapedCaptureRule: like Rules.EscapedFirstCapture, Rules.EscapedTwoCaptures and Rules.EscapedWholeMatch, it is stated only for captures and matches without `$`. The escaped text is itself read as a replacement template. The model's definition covers a `$` in it, but no lemma states that case.
- Gateway.GatewayUrlRoundTrip: does not model names every object inherits, such as `constructor`, for which `translationMap[translation]` is a function and the version is its source text.
- Insert.ShownBook: does not model names every object inherits, such as `toString`, which `BOOK_ABBREVIATIONS[book]` finds when book abbreviations are shown.
- CodeBlock.ParseHeader: states only word-level facts for every block. The exact reading of plain-word headers is on CodeBlock.HeaderRoundTrip.
- Gateway.EncodeUriComponent: states only the output alphabet. The exact meaning is given by Gateway.DecodeEncode.
- Strings are sequences of Unicode scalar values. UTF-16 code units, lone surrogates (on which `encodeURIComponent` throws) and the code-unit order that puts a character above U+FFFF before one from U+E000 to U+FFFF are not modelled; string comparisons use character order.
- Numbers are unbounded integers. `parseInt` of very long numerals and floating-point verse counts are not modelled.

## Findings

| source | as written | input that shows it | evidently intended | confidence | as-written member | corrected member |
|---|---|---|---|---|---|---|
| src/main.ts:478-480 | The cross-chapter link text is built as `Book c1:v1-v2`, which leaves out the end chapter. | `KJV John 3:16-John 4:2 [link]` links to `John 3:16-2`. | The link names the passage, `John 3:16-4:2`. | not executed | CodeBlock.CrossLinkTextAsWritten (CodeBlock.CrossLinkAsWrittenExample, CodeBlock.CrossLinkAsWrittenCollides) | CodeBlock.CrossLinkText (CodeBlock.CrossLabelRoundTrip, CodeBlock.CrossLabelInjective) |

=== FILE: arrays.dfy ===
/**
 * The `Array.prototype` methods the plugin relies on: `find`/`findIndex`,
 * `filter`, `new Set` for distinct elements, and `sort` with and without a
 * comparator.
 *
 * JavaScript's sort is stable. The model sorts by insertion and proves that
 * the result is a sorted permutation that keeps tied elements in their order.
 */
module Arrays {
  import opened Wrappers

  /** `s.findIndex(p)`, with `None` for -1. */
  function FindIndex<T>(s: seq<T>, p: T -> bool): (r: Option<nat>)
    ensures r.Some? ==> r.value < |s| && p(s[r.value])
    ensures r.Some? ==> forall j :: 0 <= j < r.value ==> !p(s[j])
    ensures r.None? <==> forall j :: 0 <= j < |s| ==> !p(s[j])
  {
    if |s| == 0 then None
    else if p(s[0]) then Some(0)
    else match FindIndex(s[1..], p)
      case None => None
      case Some(i) => Some(i + 1)
  }


  /**
   * A comparator that orders consistently: its sign flips when the arguments
   * are swapped and "not after" is transitive.
   */
  ghost predicate TotalPreorder<T(!new)>(cmp: (T, T) -> int) {
    && (forall a, b :: cmp(a, b) < 0 <==> cmp(b, a) > 0)
    && (forall a, b, c :: cmp(a, b) <= 0 && cmp(b, c) <= 0 ==> cmp(a, c) <= 0)
  }

  /** Every element comes no later than every element after it. */
  ghost predicate Sorted<T>(s: seq<T>, cmp: (T, T) -> int) {
    forall i, j :: 0 <= i < j < |s| ==> cmp(s[i], s[j]) <= 0
  }

  /** `r` keeps some of the elements of `s`, in their original order. */
  ghost predicate Subsequence<T>(r: seq<T>, s: seq<T>) {
    if |r| == 0 then true
    else if |s| == 0 then false
    else if r[0] == s[0] then Subsequence(r[1..], s[1..])
    else Subsequence(r, s[1..])
  }

  lemma {:induction false} SubsequenceSelf<T>(s: seq<T>)
    ensures Subsequence(s, s)
  {
    if |s| > 0 {
      SubsequenceSelf(s[1..]);
    }
  }

  /** `s.filter(keep)` */
  function Filter<T(!new)>(s: seq<T>, keep: T -> bool): (r: seq<T>)
    ensures forall x :: multiset(r)[x] == if keep(x) then multiset(s)[x] else 0
    ensures forall i :: 0 <= i < |r| ==> keep(r[i])
    ensures Subsequence(r, s)
  {
    if |s| == 0 then []
    else
      var rest := Filter(s[1..], keep);
      assert s == [s[0]] + s[1..];
      if keep(s[0]) then [s[0]] + rest else SubsequenceSkip(rest, s); rest
  }

  lemma SubsequenceSkip<T>(r: seq<T>, s: seq<T>)
    requires |s| > 0
    requires Subsequence(r, s[1..])
    ensures Subsequence(r, s)
  {
    if |r| > 0 && r[0] == s[0] {
      SubsequenceSelfTail(r, s[1..]);
    }
  }

  lemma SubsequenceSelfTail<T>(r: seq<T>, s: seq<T>)
    requires |r| > 0
    requires Subsequence(r, s)
    ensures Subsequence(r[1..], s)
  {
    if |s| > 0 && r[0] != s[0] {
      SubsequenceSelfTail(r, s[1..]);
      SubsequenceSkip(r[1..], s);
    } else if |s| > 0 {
      SubsequenceSkip(r[1..], s);
    }
  }

  lemma {:induction false} FilterAll<T(!new)>(s: seq<T>, keep: T -> bool)
    requires forall i :: 0 <= i < |s| ==> keep(s[i])
    ensures Filter(s, keep) == s
  {
    if |s| > 0 {
      FilterAll(s[1..], keep);
      assert s == [s[0]] + s[1..];
    }
  }

  /** Membership in a filter: the elements of `s` that `keep` accepts. */
  lemma FilterMembers<T(!new)>(s: seq<T>, keep: T -> bool, x: T)
    ensures x in Filter(s, keep) <==> x in s && keep(x)
  {
    var r := Filter(s, keep);
    assert x in r <==> multiset(r)[x] > 0;
    assert x in s <==> multiset(s)[x] > 0;
  }

  /** Places `x` after the last element of `sorted` that does not come after it. */
  function Insert<T>(sorted: seq<T>, x: T, cmp: (T, T) -> int): (r: seq<T>)
    ensures multiset(r) == multiset(sorted) + multiset{x}
    ensures |r| == |sorted| + 1
  {
    if |sorted| == 0 then [x]
    else
      var last := sorted[|sorted| - 1];
      var init := sorted[..|sorted| - 1];
      assert sorted == init + [last];
      if cmp(last, x) > 0 then Insert(init, x, cmp) + [last] else sorted + [x]
  }

  /** `[...s].sort(cmp)`, by insertion. */
  function SortBy<T>(s: seq<T>, cmp: (T, T) -> int): (r: seq<T>)
    ensures multiset(r) == multiset(s)
    ensures |r| == |s|
  {
    if |s| == 0 then []
    else
      assert s == s[..|s| - 1] + [s[|s| - 1]];
      Insert(SortBy(s[..|s| - 1], cmp), s[|s| - 1], cmp)
  }

  /** Every element of an insertion result is `x` or came from the sorted input. */
  lemma InsertElements<T>(sorted: seq<T>, x: T, cmp: (T, T) -> int, y: T)
    ensures y in Insert(sorted, x, cmp) <==> y == x || y in sorted
  {
    var r := Insert(sorted, x, cmp);
    assert y in r <==> multiset(r)[y] > 0;
    assert y in sorted <==> multiset(sorted)[y] > 0;
  }

  /** Inserting into a sorted sequence keeps it sorted. */
  lemma {:induction false} InsertSorted<T(!new)>(sorted: seq<T>, x: T, cmp: (T, T) -> int)
    requires TotalPreorder(cmp)
    requires Sorted(sorted, cmp)
    ensures Sorted(Insert(sorted, x, cmp), cmp)
  {
    if |sorted| == 0 {
      return;
    }
    var last := sorted[|sorted| - 1];
    var init := sorted[..|sorted| - 1];
    assert Sorted(init, cmp);
    if cmp(last, x) > 0 {
      InsertSorted(init, x, cmp);
      assert cmp(x, last) < 0;
      InsertBeforeLast(init, x, last, cmp);
      assert sorted == init + [last];
    } else {
      AppendSorted(sorted, x, cmp);
    }
  }

  /** Appending an element that comes no earlier than the last one keeps a sequence sorted. */
  lemma AppendSorted<T(!new)>(sorted: seq<T>, x: T, cmp: (T, T) -> int)
    requires TotalPreorder(cmp)
    requires Sorted(sorted, cmp)
    requires |sorted| > 0 && cmp(sorted[|sorted| - 1], x) <= 0
    ensures Sorted(sorted + [x], cmp)
  {
    var r := sorted + [x];
    var last := sorted[|sorted| - 1];
    forall i | 0 <= i < |sorted| ensures cmp(sorted[i], x) <= 0 {
      if i < |sorted| - 1 {
        assert cmp(sorted[i], last) <= 0;
      }
    }
  }

  /** The recursive case of `Insert`: `last` goes after everything else. */
  lemma InsertBeforeLast<T(!new)>(init: seq<T>, x: T, last: T, cmp: (T, T) -> int)
    requires Sorted(init, cmp)
    requires Sorted(Insert(init, x, cmp), cmp)
    requires forall i :: 0 <= i < |init| ==> cmp(init[i], last) <= 0
    requires cmp(x, last) <= 0
    ensures Sorted(Insert(init, x, cmp) + [last], cmp)
  {
    var ri := Insert(init, x, cmp);
    var r := ri + [last];
    forall y | y in ri ensures cmp(y, last) <= 0 {
      InsertElements(init, x, cmp, y);
    }
    forall i, j | 0 <= i < j < |r| ensures cmp(r[i], r[j]) <= 0 {
      assert r[i] == ri[i];
      if j < |r| - 1 {
        assert r[j] == ri[j];
      } else {
        assert r[i] in ri;
      }
    }
  }

  /** The sort returns its input's elements in order. */
  lemma {:induction false} SortBySorted<T(!new)>(s: seq<T>, cmp: (T, T) -> int)
    requires TotalPreorder(cmp)
    ensures Sorted(SortBy(s, cmp), cmp)
  {
    if |s| > 0 {
      SortBySorted(s[..|s| - 1], cmp);
      InsertSorted(SortBy(s[..|s| - 1], cmp), s[|s| - 1], cmp);
    }
  }

  /** `e` alone when `cmp` ties it with `x`, else nothing. */
  function Tie<T>(e: T, x: T, cmp: (T, T) -> int): seq<T> {
    if cmp(e, x) == 0 then [e] else []
  }

  /** The elements of `s` that `cmp` ties with `x`, in their order in `s`. */
  function Ties<T>(s: seq<T>, x: T, cmp: (T, T) -> int): seq<T>
  {
    if |s| == 0 then [] else Ties(s[..|s| - 1], x, cmp) + Tie(s[|s| - 1], x, cmp)
  }

  lemma TiesSnoc<T>(s: seq<T>, y: T, x: T, cmp: (T, T) -> int)
    ensures Ties(s + [y], x, cmp) == Ties(s, x, cmp) + Tie(y, x, cmp)
  {
    assert (s + [y])[..|s|] == s;
  }

  /** Of two elements one of which comes strictly after the other, at most one ties with `x`. */
  lemma TieSwap<T(!new)>(a: T, b: T, x: T, cmp: (T, T) -> int)
    requires TotalPreorder(cmp) && cmp(a, b) > 0
    ensures Tie(a, x, cmp) == [] || Tie(b, x, cmp) == []
  {
    if cmp(a, x) == 0 && cmp(b, x) == 0 {
      assert false;
    }
  }

  lemma InsertUnfold<T>(sorted: seq<T>, y: T, cmp: (T, T) -> int)
    requires |sorted| > 0
    ensures var init, last := sorted[..|sorted| - 1], sorted[|sorted| - 1];
            Insert(sorted, y, cmp) == if cmp(last, y) > 0 then Insert(init, y, cmp) + [last] else sorted + [y]
  {
  }

  /** Moving `y` in front of a `last` it does not share ties with keeps the ties in order. */
  lemma InsertTiesPast<T>(init: seq<T>, last: T, y: T, x: T, cmp: (T, T) -> int)
    requires Tie(last, x, cmp) == [] || Tie(y, x, cmp) == []
    requires Ties(Insert(init, y, cmp), x, cmp) == Ties(init, x, cmp) + Tie(y, x, cmp)
    ensures Ties(Insert(init, y, cmp) + [last], x, cmp) == Ties(init + [last], x, cmp) + Tie(y, x, cmp)
  {
    var before, ty, tl := Ties(init, x, cmp), Tie(y, x, cmp), Tie(last, x, cmp);
    TiesSnoc(Insert(init, y, cmp), last, x, cmp);
    TiesSnoc(init, last, x, cmp);
    if ty == [] {
      assert before + ty == before && before + tl + ty == before + tl;
    } else {
      assert before + ty + tl == before + ty && before + tl == before;
    }
  }

  /** Insertion puts `y` after everything that ties with it. */
  lemma {:induction false} InsertTies<T(!new)>(sorted: seq<T>, y: T, x: T, cmp: (T, T) -> int)
    requires TotalPreorder(cmp)
    ensures Ties(Insert(sorted, y, cmp), x, cmp) == Ties(sorted, x, cmp) + Tie(y, x, cmp)
  {
    if |sorted| == 0 {
      TiesSnoc([], y, x, cmp);
      assert [] + [y] == [y];
    } else {
      var last := sorted[|sorted| - 1];
      var init := sorted[..|sorted| - 1];
      assert sorted == init + [last];
      InsertUnfold(sorted, y, cmp);
      if cmp(last, y) > 0 {
        InsertTies(init, y, x, cmp);
        TieSwap(last, y, x, cmp);
        InsertTiesPast(init, last, y, x, cmp);
      } else {
        TiesSnoc(sorted, y, x, cmp);
      }
    }
  }

  /**
   * The sort is stable: the elements that tie with any `x` come out in the
   * order they went in.
   */
  lemma {:induction false} SortByStable<T(!new)>(s: seq<T>, x: T, cmp: (T, T) -> int)
    requires TotalPreorder(cmp)
    ensures Ties(SortBy(s, cmp), x, cmp) == Ties(s, x, cmp)
  {
    if |s| > 0 {
      var init := s[..|s| - 1];
      assert s == init + [s[|s| - 1]];
      SortByStable(init, x, cmp);
      InsertTies(SortBy(init, cmp), s[|s| - 1], x, cmp);
      TiesSnoc(init, s[|s| - 1], x, cmp);
    }
  }

  /** Each element compares no greater than the next. */
  predicate NeighboursInOrder<T>(s: seq<T>, cmp: (T, T) -> int) {
    forall i :: 0 <= i < |s| - 1 ==> cmp(s[i], s[i + 1]) <= 0
  }

  lemma NeighboursInit<T>(s: seq<T>, cmp: (T, T) -> int)
    requires |s| > 0 && NeighboursInOrder(s, cmp)
    ensures NeighboursInOrder(s[..|s| - 1], cmp)
    ensures |s| > 1 ==> cmp(s[..|s| - 1][|s| - 2], s[|s| - 1]) <= 0
  {
    var init := s[..|s| - 1];
    forall i | 0 <= i < |init| - 1 ensures cmp(init[i], init[i + 1]) <= 0 {
      assert init[i] == s[i] && init[i + 1] == s[i + 1];
    }
    if |s| > 1 {
      assert cmp(s[|s| - 2], s[|s| - 1]) <= 0;
    }
  }

  /** Sorting a non-empty sequence inserts its last element into the sorted rest. */
  lemma SortByLast<T>(s: seq<T>, cmp: (T, T) -> int)
    requires |s| > 0
    ensures SortBy(s, cmp) == Insert(SortBy(s[..|s| - 1], cmp), s[|s| - 1], cmp)
  {
  }

  /** A sequence whose neighbours are in order is left as it is. */
  lemma {:induction false} SortByOfSorted<T>(s: seq<T>, cmp: (T, T) -> int)
    requires forall i :: 0 <= i < |s| - 1 ==> cmp(s[i], s[i + 1]) <= 0
    ensures SortBy(s, cmp) == s
  {
    SortByOfOrdered(s, cmp);
  }

  lemma {:induction false} SortByOfOrdered<T>(s: seq<T>, cmp: (T, T) -> int)
    requires NeighboursInOrder(s, cmp)
    ensures SortBy(s, cmp) == s
  {
    if |s| > 0 {
      var init, x := s[..|s| - 1], s[|s| - 1];
      NeighboursInit(s, cmp);
      SortByOfOrdered(init, cmp);
      SortByLast(s, cmp);
      assert SortBy(s, cmp) == Insert(init, x, cmp);
      InsertAtEnd(init, x, cmp);
      SplitLast(s);
    }
  }

  lemma SplitLast<T>(s: seq<T>)
    requires |s| > 0
    ensures s == s[..|s| - 1] + [s[|s| - 1]]
  {
  }

  /** An element no smaller than the last goes at the end. */
  lemma InsertAtEnd<T>(sorted: seq<T>, x: T, cmp: (T, T) -> int)
    requires |sorted| > 0 ==> cmp(sorted[|sorted| - 1], x) <= 0
    ensures Insert(sorted, x, cmp) == sorted + [x]
  {
  }

  /** Sorting twice is sorting once. */
  lemma SortByIdempotent<T(!new)>(s: seq<T>, cmp: (T, T) -> int)
    requires TotalPreorder(cmp)
    ensures SortBy(SortBy(s, cmp), cmp) == SortBy(s, cmp)
  {
    SortBySorted(s, cmp);
    SortByOfSorted(SortBy(s, cmp), cmp);
  }

  // ---------------------------------------------------------------------------
  // Distinct elements (`Array.from(new Set(s))`)
  // ---------------------------------------------------------------------------

  predicate NoDuplicates<T(==)>(s: seq<T>) {
    forall i, j :: 0 <= i < j < |s| ==> s[i] != s[j]
  }

  /** The distinct elements of `s` in the order of their first occurrence. */
  function Distinct<T(==,!new)>(s: seq<T>): (r: seq<T>)
    ensures forall x :: x in r <==> x in s
    ensures NoDuplicates(r)
    ensures |r| <= |s|
  {
    if |s| == 0 then []
    else
      var d := Distinct(s[..|s| - 1]);
      assert forall x :: x in s <==> x in s[..|s| - 1] || x == s[|s| - 1];
      if s[|s| - 1] in d then d else d + [s[|s| - 1]]
  }

  /** An element occurs at most once in a sequence without duplicates. */
  lemma {:induction false} NoDuplicatesCount<T>(s: seq<T>, x: T)
    requires NoDuplicates(s)
    ensures multiset(s)[x] <= 1
  {
    if |s| > 0 {
      var init := s[..|s| - 1];
      assert NoDuplicates(init);
      NoDuplicatesCount(init, x);
      assert s == init + [s[|s| - 1]];
      if s[|s| - 1] == x {
        assert x !in init;
      }
    }
  }

  /** Two orderings of the same elements have the same members. */
  lemma PermutationMembers<T>(s: seq<T>, r: seq<T>)
    requires multiset(r) == multiset(s)
    ensures forall x :: x in r <==> x in s
  {
    forall x ensures x in r <==> x in s {
      assert x in r <==> multiset(r)[x] > 0;
      assert x in s <==> multiset(s)[x] > 0;
    }
  }

  lemma PermutationNoDuplicates<T>(s: seq<T>, r: seq<T>)
    requires NoDuplicates(s) && multiset(r) == multiset(s)
    ensures NoDuplicates(r)
  {
    forall i, j | 0 <= i < j < |r| ensures r[i] != r[j] {
      if r[i] == r[j] {
        var x := r[i];
        assert r == r[..j] + r[j..];
        assert x in r[..j] && x in r[j..];
        assert multiset(r)[x] == multiset(r[..j])[x] + multiset(r[j..])[x];
        NoDuplicatesCount(s, x);
        assert false;
      }
    }
  }

  // ---------------------------------------------------------------------------
  // Two concrete comparators
  // ---------------------------------------------------------------------------

  /** `(a, b) => a - b`: ascending numbers. */
  function Ascending(a: int, b: int): int {
    a - b
  }

  lemma AscendingTotalPreorder()
    ensures TotalPreorder(Ascending)
  {
  }

  /** A sequence of distinct numbers sorted with `Ascending` is strictly increasing. */
  lemma SortedDistinctIncreasing(s: seq<int>)
    requires Sorted(s, Ascending) && NoDuplicates(s)
    ensures forall i, j :: 0 <= i < j < |s| ==> s[i] < s[j]
  {
    forall i, j | 0 <= i < j < |s| ensures s[i] < s[j] {
      assert Ascending(s[i], s[j]) <= 0;
    }
  }

  /**
   * The order `Array.prototype.sort` uses without a comparator on strings,
   * read here character by character, a proper prefix first. JavaScript
   * compares UTF-16 code units; the two orders differ only between a
   * character above U+FFFF and one from U+E000 to U+FFFF.
   */
  function CompareChars(a: string, b: string): (r: int)
    ensures -1 <= r <= 1
    ensures r == 0 <==> a == b
  {
    if |a| == 0 && |b| == 0 then 0
    else if |a| == 0 then -1
    else if |b| == 0 then 1
    else if a[0] < b[0] then -1
    else if a[0] > b[0] then 1
    else
      var r := CompareChars(a[1..], b[1..]);
      assert r == 0 ==> a == [a[0]] + a[1..] == [b[0]] + b[1..] == b;
      r
  }

  lemma {:induction false} CompareCharsFlip(a: string, b: string)
    ensures CompareChars(a, b) == -CompareChars(b, a)
  {
    if |a| > 0 && |b| > 0 && a[0] == b[0] {
      CompareCharsFlip(a[1..], b[1..]);
    }
  }

  lemma {:induction false} CompareCharsTransitive(a: string, b: string, c: string)
    requires CompareChars(a, b) <= 0 && CompareChars(b, c) <= 0
    ensures CompareChars(a, c) <= 0
  {
    if |a| > 0 && |b| > 0 && |c| > 0 && a[0] == b[0] && b[0] == c[0] {
      CompareCharsTransitive(a[1..], b[1..], c[1..]);
    }
  }

  /** The character order is a total order, so sorting with it is well defined. */
  lemma CompareCharsTotalPreorder()
    ensures TotalPreorder(CompareChars)
  {
    forall a, b ensures CompareChars(a, b) < 0 <==> CompareChars(b, a) > 0 {
      CompareCharsFlip(a, b);
    }
    forall a, b, c | CompareChars(a, b) <= 0 && CompareChars(b, c) <= 0
      ensures CompareChars(a, c) <= 0
    {
      CompareCharsTransitive(a, b, c);
    }
  }
}

=== FILE: codeblock.dfy ===
/**
 * The `bible` code block (src/main.ts, `processCodeBlock`): the first line
 * names a translation and a reference, with options either right after the
 * first word or in a bracketed list at the end; the verses are looked up
 * and rendered, or a message takes their place.
 *
 * The rendered element is modelled as the container's class list, the
 * heading text, the sequence of pieces inside the verse container and the
 * link URL. Styles (colours, margins) are left out.
 */
module CodeBlock {
  import opened Wrappers
  import opened Text
  import opened Grammar
  import Store
  import Rules
  import Gateway

  // ---------------------------------------------------------------------------
  // Options
  // ---------------------------------------------------------------------------

  datatype Options = Options(verse: bool, chapter: bool, redText: bool, link: bool)

  const OptionNames: seq<string> := ["verse", "chapter", "red-text", "link"]

  /** The options that the names in a list switch on. */
  function Flags(names: seq<string>): Options {
    Options("verse" in names, "chapter" in names, "red-text" in names, "link" in names)
  }

  function Union(a: Options, b: Options): Options {
    Options(a.verse || b.verse, a.chapter || b.chapter, a.redText || b.redText, a.link || b.link)
  }

  function Lowered(parts: seq<string>): (r: seq<string>)
    ensures |r| == |parts| && forall k :: 0 <= k < |parts| ==> r[k] == Lower(parts[k])
  {
    seq(|parts|, k requires 0 <= k < |parts| => Lower(parts[k]))
  }

  function TrimAll(parts: seq<string>): (r: seq<string>)
    ensures |r| == |parts| && forall k :: 0 <= k < |parts| ==> r[k] == Trim(parts[k])
  {
    seq(|parts|, k requires 0 <= k < |parts| => Trim(parts[k]))
  }

  // ---------------------------------------------------------------------------
  // The first line
  // ---------------------------------------------------------------------------

  /** The words of the first line of the trimmed block. */
  function FirstLineParts(source: string): (r: seq<string>)
    ensures forall x :: x in r ==> |x| > 0 && Avoids(x, {' '})
  {
    var lines := Split(Trim(source), {'\n'});
    var words := Split(Trim(lines[0]), {' '});
    assert forall x :: x in words ==> Avoids(x, {' '});
    NonEmpty(words)
  }

  /**
   * Where the run of option words starting at `i` ends. The scan starts at
   * the second word, and compares case-insensitively.
   */
  function OptionRunEnd(parts: seq<string>, i: nat): (e: nat)
    ensures i <= e && (i <= |parts| ==> e <= |parts|)
    ensures forall k :: i <= k < e ==> k < |parts| && Lower(parts[k]) in OptionNames
    ensures e < |parts| ==> Lower(parts[e]) !in OptionNames
    decreases |parts| - i
  {
    if i < |parts| && Lower(parts[i]) in OptionNames then OptionRunEnd(parts, i + 1) else i
  }

  /**
   * The bracketed option list of a last word `[a,b|c]`: split on `,` and
   * `|`, trimmed, empty entries dropped.
   */
  function BracketOptions(last: string): (r: Option<seq<string>>)
    ensures r.Some? <==> StartsWith(last, "[") && EndsWith(last, "]")
  {
    if StartsWith(last, "[") && EndsWith(last, "]") then
      assert last[0] == '[' && last[|last| - 1] == ']';
      Some(NonEmpty(TrimAll(Split(last[1..|last| - 1], {',', '|'}))))
    else None
  }

  datatype Header = Header(options: Options, translation: string, referenceText: string)

  datatype HeaderError =
    | NoWords        // `parts[parts.length - 1]` is undefined and `startsWith` throws
    | InvalidFormat

  const InvalidFormatMessage :=
    "Invalid format. Use: ```bible [option1,option2] TRANSLATION REFERENCE``` or ```bible TRANSLATION REFERENCE [option1,option2]```"

  /**
   * The translation is the first word when no option follows it, and the word
   * after the option run otherwise; the reference is the words after it, up
   * to a bracketed option list, joined by single spaces.
   */
  function ParseHeader(source: string): (r: Result<Header, HeaderError>)
    ensures r == Err(NoWords) <==> FirstLineParts(source) == []
    ensures r.Ok? ==> r.value.translation in FirstLineParts(source)
    ensures r.Ok? ==> |r.value.translation| > 0 && Avoids(r.value.translation, {' '})
  {
    ReadHeader(FirstLineParts(source))
  }

  /** The header the words of the first line give. */
  function ReadHeader(parts: seq<string>): (r: Result<Header, HeaderError>)
    ensures r == Err(NoWords) <==> parts == []
    ensures r.Ok? ==> r.value.translation in parts
  {
    if |parts| == 0 then Err(NoWords)
    else
      var e := OptionRunEnd(parts, 1);
      var ti := if e == 1 then 0 else e;
      var leading := Flags(Lowered(parts[1..e]));
      var bracket := BracketOptions(parts[|parts| - 1]);
      var refEnd := if bracket.Some? then |parts| - 1 else |parts|;
      var options := if bracket.Some? then Union(leading, Flags(bracket.value)) else leading;
      if ti >= refEnd then Err(InvalidFormat)
      else Ok(Header(options, parts[ti], Join(parts[ti + 1..refEnd], " ")))
  }

  const NoOptions := Options(false, false, false, false)

  /** Words that a split on spaces gives back one by one. */
  predicate PlainWords(parts: seq<string>) {
    forall k :: 0 <= k < |parts| ==> |parts[k]| > 0 && NoWhitespace(parts[k])
  }

  /** A block whose first line is `line` reads that line, whatever lines follow. */
  lemma FirstLineOf(line: string, rest: string)
    requires |line| > 0 && !IsWhitespace(line[0]) && !IsWhitespace(line[|line| - 1])
    requires Avoids(line, {'\n'})
    requires rest == "" || rest[0] == '\n'
    ensures Split(Trim(line + rest), {'\n'})[0] == line
  {
    assert TrimStart(line + rest) == line + rest;
    TrimEndAfter(line, rest);
    var t := TrimEnd(rest);
    assert Trim(line + rest) == line + t;
    if |t| == 0 {
      assert line + t == line;
      SplitAvoiding(line, {'\n'});
    } else {
      assert line + t == line + ['\n'] + t[1..];
      SplitPrefix(line, t[1..], '\n', {'\n'});
    }
  }

  /** Words without whitespace, joined by spaces, are the words of the first line. */
  lemma FirstLineWords(parts: seq<string>, rest: string)
    requires |parts| > 0 && PlainWords(parts)
    requires rest == "" || rest[0] == '\n'
    ensures FirstLineParts(Join(parts, " ") + rest) == parts
  {
    var line := Join(parts, " ");
    JoinPlainWords(parts);
    FirstLineOf(line, rest);
    TrimOfTrimmed(line);
    forall k | 0 <= k < |parts| ensures Avoids(parts[k], {' '}) {
      assert forall i :: 0 <= i < |parts[k]| ==> !IsWhitespace(parts[k][i]);
    }
    SplitJoin(parts, ' ', {' '});
    NonEmptyKeeps(parts);
  }

  /** The join of plain words is non-empty, has no line break and no whitespace at its ends. */
  lemma {:induction false} JoinPlainWords(parts: seq<string>)
    requires |parts| > 0 && PlainWords(parts)
    ensures var line := Join(parts, " ");
            |line| > 0 && !IsWhitespace(line[0]) && !IsWhitespace(line[|line| - 1]) && Avoids(line, {'\n'})
            && line[..|parts[0]|] == parts[0]
    decreases |parts|
  {
    var line := Join(parts, " ");
    assert !IsWhitespace(parts[0][0]);
    if |parts| == 1 {
      assert forall i :: 0 <= i < |line| ==> !IsWhitespace(line[i]);
    } else {
      JoinPlainWords(parts[1..]);
      var tail := Join(parts[1..], " ");
      assert line == parts[0] + " " + tail;
      assert line[|line| - 1] == tail[|tail| - 1];
      forall i | 0 <= i < |line| ensures line[i] != '\n' {
        if i < |parts[0]| {
          assert line[i] == parts[0][i];
        } else if i > |parts[0]| {
          assert line[i] == tail[i - |parts[0]| - 1];
        }
      }
    }
  }

  /**
   * A first line of plain words whose second word is no option name reads
   * as: the first word is the translation; the rest, up to a bracketed
   * option list, is the reference.
   */
  lemma HeaderRoundTrip(parts: seq<string>, rest: string)
    requires |parts| >= 2 && PlainWords(parts)
    requires Lower(parts[1]) !in OptionNames
    requires rest == "" || rest[0] == '\n'
    ensures var bracket := BracketOptions(parts[|parts| - 1]);
            var refEnd := if bracket.Some? then |parts| - 1 else |parts|;
            var options := if bracket.Some? then Flags(bracket.value) else NoOptions;
            ParseHeader(Join(parts, " ") + rest) == Ok(Header(options, parts[0], Join(parts[1..refEnd], " ")))
  {
    HeaderIsRead(parts, rest);
    ReadPlainHeader(parts);
  }

  /** The header of a first line of plain words is read from those words. */
  lemma HeaderIsRead(parts: seq<string>, rest: string)
    requires |parts| > 0 && PlainWords(parts)
    requires rest == "" || rest[0] == '\n'
    ensures ParseHeader(Join(parts, " ") + rest) == ReadHeader(parts)
  {
    FirstLineWords(parts, rest);
  }

  /** The case of `HeaderRoundTrip` without a bracketed list: every word after the first is reference. */
  lemma HeaderRoundTripPlain(parts: seq<string>, rest: string)
    requires |parts| >= 2 && PlainWords(parts)
    requires Lower(parts[1]) !in OptionNames
    requires BracketOptions(parts[|parts| - 1]).None?
    requires rest == "" || rest[0] == '\n'
    ensures ParseHeader(Join(parts, " ") + rest) == Ok(Header(NoOptions, parts[0], Join(parts[1..], " ")))
  {
    HeaderIsRead(parts, rest);
    ReadHeaderNoBracket(parts);
  }

  /** The case of `HeaderRoundTrip` with a bracketed list of `names` last. */
  lemma HeaderRoundTripBracket(parts: seq<string>, names: seq<string>, rest: string)
    requires |parts| >= 2 && PlainWords(parts)
    requires Lower(parts[1]) !in OptionNames
    requires |names| > 0 && ListableNames(names) && parts[|parts| - 1] == BracketList(names)
    requires rest == "" || rest[0] == '\n'
    ensures ParseHeader(Join(parts, " ") + rest) == Ok(Header(Flags(names), parts[0], Join(parts[1..|parts| - 1], " ")))
  {
    HeaderIsRead(parts, rest);
    ReadHeaderBracket(parts, names);
  }

  lemma ReadHeaderNoBracket(parts: seq<string>)
    requires |parts| >= 2
    requires Lower(parts[1]) !in OptionNames
    requires BracketOptions(parts[|parts| - 1]).None?
    ensures ReadHeader(parts) == Ok(Header(NoOptions, parts[0], Join(parts[1..], " ")))
  {
    ReadPlainHeader(parts);
    assert parts[1..|parts|] == parts[1..];
  }

  lemma ReadHeaderBracket(parts: seq<string>, names: seq<string>)
    requires |parts| >= 2
    requires Lower(parts[1]) !in OptionNames
    requires |names| > 0 && ListableNames(names) && parts[|parts| - 1] == BracketList(names)
    ensures ReadHeader(parts) == Ok(Header(Flags(names), parts[0], Join(parts[1..|parts| - 1], " ")))
  {
    BracketRoundTrip(names);
    ReadPlainHeader(parts);
  }

  lemma ReadPlainHeader(parts: seq<string>)
    requires |parts| >= 2
    requires Lower(parts[1]) !in OptionNames
    ensures var bracket := BracketOptions(parts[|parts| - 1]);
            var refEnd := if bracket.Some? then |parts| - 1 else |parts|;
            var options := if bracket.Some? then Flags(bracket.value) else NoOptions;
            ReadHeader(parts) == Ok(Header(options, parts[0], Join(parts[1..refEnd], " ")))
  {
    assert OptionRunEnd(parts, 1) == 1;
    assert Lowered(parts[1..1]) == [];
    assert Flags([]) == NoOptions;
  }

  /** Option names that a bracketed list can carry: no whitespace, comma or bar. */
  predicate ListableNames(names: seq<string>) {
    forall k :: 0 <= k < |names| ==> |names[k]| > 0 && NoWhitespace(names[k]) && Avoids(names[k], {',', '|'})
  }

  /** `[a|b|c]` */
  function BracketList(names: seq<string>): string {
    "[" + Join(names, "|") + "]"
  }

  /** A bracketed list of names joined by `|` reads back as those names. */
  lemma BracketRoundTrip(names: seq<string>)
    requires |names| > 0 && ListableNames(names)
    ensures BracketOptions(BracketList(names)) == Some(names)
  {
    BracketInner(names);
    ListedNamesRead(names);
  }

  /** Inside the brackets is the `|`-joined list. */
  lemma BracketInner(names: seq<string>)
    ensures BracketOptions(BracketList(names)) == Some(NonEmpty(TrimAll(Split(Join(names, "|"), {',', '|'}))))
  {
    var last := BracketList(names);
    assert last[1..|last| - 1] == Join(names, "|");
    assert StartsWith(last, "[") && EndsWith(last, "]");
  }

  /** A `|`-joined list of listable names splits, trims and filters back to the names. */
  lemma ListedNamesRead(names: seq<string>)
    requires |names| > 0 && ListableNames(names)
    ensures NonEmpty(TrimAll(Split(Join(names, "|"), {',', '|'}))) == names
  {
    SplitJoin(names, '|', {',', '|'});
    TrimAllListable(names);
    NonEmptyKeeps(names);
  }

  lemma TrimAllListable(names: seq<string>)
    requires ListableNames(names)
    ensures TrimAll(names) == names
  {
    forall k | 0 <= k < |names| ensures Trim(names[k]) == names[k] {
      TrimOfTrimmed(names[k]);
    }
  }

  /**
   * The bracketed form the message offers first, `[options] TRANSLATION
   * REFERENCE`, is not read as options: the bracket becomes the translation.
   */
  lemma LeadingBracketIsTranslation(parts: seq<string>)
    requires |parts| >= 2
    requires Lower(parts[1]) !in OptionNames
    requires StartsWith(parts[0], "[") && EndsWith(parts[0], "]")
    requires !(StartsWith(parts[|parts| - 1], "[") && EndsWith(parts[|parts| - 1], "]"))
    ensures ReadHeader(parts) == Ok(Header(NoOptions, parts[0], Join(parts[1..], " ")))
  {
    ReadPlainHeader(parts);
    assert parts[1..|parts|] == parts[1..];
  }

  // ---------------------------------------------------------------------------
  // Looking the verses up
  // ---------------------------------------------------------------------------

  /** A verse found in the store: where it is and its stored text. */
  datatype Found = Found(chapter: nat, verse: nat, text: string)

  /** What the loops ask the store: the text at a chapter and verse, if any. */
  type Lookup = (nat, nat) -> Option<string>

  /** `getVerse(book, chapter, verse, translation)`, keeping only the text. */
  function StoreLookup(db: Store.Db, book: string, translation: string): Lookup {
    (c: nat, v: nat) =>
      var found := Store.GetVerse(db, book, c, v, translation);
      if found.Some? then Some(found.value.text) else None
  }

  /** The verses `lo..hi` of one chapter that the store has, in order. */
  function VerseRun(lookup: Lookup, chapter: nat, lo: nat, hi: nat): (r: seq<Found>)
    ensures forall k :: 0 <= k < |r| ==>
              r[k].chapter == chapter && lo <= r[k].verse <= hi && lookup(chapter, r[k].verse) == Some(r[k].text)
    ensures forall v: nat :: lo <= v <= hi && lookup(chapter, v).Some? ==>
              Found(chapter, v, lookup(chapter, v).value) in r
    ensures forall i, j :: 0 <= i < j < |r| ==> r[i].verse < r[j].verse
    decreases hi - lo
  {
    if lo > hi then []
    else
      var rest := VerseRun(lookup, chapter, lo + 1, hi);
      match lookup(chapter, lo)
      case Some(text) => [Found(chapter, lo, text)] + rest
      case None => rest
  }

  /** The highest verse the cross-chapter loop asks for in a chapter it passes through. */
  const MaxVerse: nat := 999

  /** The first verse asked for in `chapter`. */
  function FirstAsked(chapter: nat, c1: nat, v1: nat): nat {
    if chapter == c1 then v1 else 1
  }

  /** The last verse asked for in `chapter`. */
  function LastAsked(chapter: nat, c2: nat, v2: nat): nat {
    if chapter == c2 then v2 else MaxVerse
  }

  /** Reading order: by chapter, then by verse. */
  predicate Before(a: Found, b: Found) {
    a.chapter < b.chapter || (a.chapter == b.chapter && a.verse < b.verse)
  }

  /**
   * The verses of chapters `from..c2` of a cross-chapter passage
   * `c1:v1-c2:v2` that the store has, in reading order.
   */
  function ChapterRuns(lookup: Lookup, c1: nat, v1: nat, c2: nat, v2: nat, from: nat): (r: seq<Found>)
    ensures forall k :: 0 <= k < |r| ==>
              && from <= r[k].chapter <= c2
              && FirstAsked(r[k].chapter, c1, v1) <= r[k].verse <= LastAsked(r[k].chapter, c2, v2)
              && lookup(r[k].chapter, r[k].verse) == Some(r[k].text)
    ensures forall i, j :: 0 <= i < j < |r| ==> Before(r[i], r[j])
    decreases c2 - from
  {
    if from > c2 then []
    else
      var run := VerseRun(lookup, from, FirstAsked(from, c1, v1), LastAsked(from, c2, v2));
      var rest := ChapterRuns(lookup, c1, v1, c2, v2, from + 1);
      RunsJoin(lookup, c1, v1, c2, v2, from, run, rest);
      run + rest
  }

  /** One chapter's run in front of the later chapters' keeps the chapter-run facts. */
  lemma RunsJoin(lookup: Lookup, c1: nat, v1: nat, c2: nat, v2: nat, from: nat, run: seq<Found>, rest: seq<Found>)
    requires from <= c2
    requires forall k :: 0 <= k < |run| ==>
               run[k].chapter == from && FirstAsked(from, c1, v1) <= run[k].verse <= LastAsked(from, c2, v2)
               && lookup(from, run[k].verse) == Some(run[k].text)
    requires forall i, j :: 0 <= i < j < |run| ==> run[i].verse < run[j].verse
    requires forall k :: 0 <= k < |rest| ==>
               && from + 1 <= rest[k].chapter <= c2
               && FirstAsked(rest[k].chapter, c1, v1) <= rest[k].verse <= LastAsked(rest[k].chapter, c2, v2)
               && lookup(rest[k].chapter, rest[k].verse) == Some(rest[k].text)
    requires forall i, j :: 0 <= i < j < |rest| ==> Before(rest[i], rest[j])
    ensures var r := run + rest;
            && (forall k :: 0 <= k < |r| ==>
                  && from <= r[k].chapter <= c2
                  && FirstAsked(r[k].chapter, c1, v1) <= r[k].verse <= LastAsked(r[k].chapter, c2, v2)
                  && lookup(r[k].chapter, r[k].verse) == Some(r[k].text))
            && (forall i, j :: 0 <= i < j < |r| ==> Before(r[i], r[j]))
  {
    var r := run + rest;
    assert forall k :: 0 <= k < |run| ==> r[k] == run[k];
    assert forall k :: |run| <= k < |r| ==> r[k] == rest[k - |run|];
  }

  /** Every verse the loop asks for and the store has is listed. */
  lemma {:induction false} ChapterRunsComplete(lookup: Lookup, c1: nat, v1: nat, c2: nat, v2: nat, from: nat, c: nat, v: nat)
    requires from <= c <= c2 && FirstAsked(c, c1, v1) <= v <= LastAsked(c, c2, v2) && lookup(c, v).Some?
    ensures Found(c, v, lookup(c, v).value) in ChapterRuns(lookup, c1, v1, c2, v2, from)
    decreases c2 - from
  {
    var f := Found(c, v, lookup(c, v).value);
    var run := VerseRun(lookup, from, FirstAsked(from, c1, v1), LastAsked(from, c2, v2));
    var rest := ChapterRuns(lookup, c1, v1, c2, v2, from + 1);
    ChapterRunsUnfold(lookup, c1, v1, c2, v2, from);
    if c > from {
      ChapterRunsComplete(lookup, c1, v1, c2, v2, from + 1, c, v);
      InRight(f, run, rest);
    } else {
      InLeft(f, run, rest);
    }
  }

  lemma ChapterRunsUnfold(lookup: Lookup, c1: nat, v1: nat, c2: nat, v2: nat, from: nat)
    requires from <= c2
    ensures ChapterRuns(lookup, c1, v1, c2, v2, from)
            == VerseRun(lookup, from, FirstAsked(from, c1, v1), LastAsked(from, c2, v2)) + ChapterRuns(lookup, c1, v1, c2, v2, from + 1)
  {
  }

  lemma InLeft<T>(x: T, a: seq<T>, b: seq<T>)
    requires x in a
    ensures x in a + b
  {
  }

  lemma InRight<T>(x: T, a: seq<T>, b: seq<T>)
    requires x in b
    ensures x in a + b
  {
  }

  /** Every stored verse of the range is among the chapter runs. */
  lemma ChapterRunsCover(lookup: Lookup, c1: nat, v1: nat, c2: nat, v2: nat)
    ensures forall c: nat, v: nat :: InCross(Found(c, v, ""), c1, v1, c2, v2) && lookup(c, v).Some? ==>
              Found(c, v, lookup(c, v).value) in ChapterRuns(lookup, c1, v1, c2, v2, c1)
  {
    forall c: nat, v: nat | InCross(Found(c, v, ""), c1, v1, c2, v2) && lookup(c, v).Some?
      ensures Found(c, v, lookup(c, v).value) in ChapterRuns(lookup, c1, v1, c2, v2, c1)
    {
      ChapterRunsComplete(lookup, c1, v1, c2, v2, c1, c, v);
    }
  }

  // ---------------------------------------------------------------------------
  // Resolving the reference
  // ---------------------------------------------------------------------------

  const CrossBookMessage := "Cross-book references are not supported yet."

  /** `Book c:sv` or `Book c:sv-ev`: the heading of a single-chapter passage. */
  function RangeLabel(book: string, c: nat, sv: nat, ev: nat): string {
    book + " " + TailBody(RangeTail(c, sv, ev))
  }

  /** The numbers of a single-chapter label; the end verse is left out when it equals the start. */
  function RangeTail(c: nat, sv: nat, ev: nat): Tail {
    Tail(ShowNat(c), Some(ShowNat(sv)), if ev != sv then Some(ShowNat(ev)) else None)
  }

  /** `Book c1:v1-c2:v2`: the heading of a cross-chapter passage. */
  function CrossLabel(book: string, c1: nat, v1: nat, c2: nat, v2: nat): string {
    CrossLabelText(book, ShowNat(c1), ShowNat(v1), ShowNat(c2), ShowNat(v2))
  }

  /** `book c1:v1-c2:v2` with the numerals spelled out. */
  function CrossLabelText(book: string, c1: string, v1: string, c2: string, v2: string): string {
    book + [' '] + CrossNumbers(c1, v1, c2, v2)
  }

  function CrossNumbers(c1: string, v1: string, c2: string, v2: string): string {
    c1 + [':'] + (v1 + ['-'] + (c2 + [':'] + v2))
  }

  /** The verses to show, what the heading names them, and the text of the link. */
  datatype Passage = Passage(book: string, heading: string, verses: seq<Found>, cross: bool, linkText: string)

  /** The chapter, first verse and last verse a single-chapter tail asks for. */
  function TailChapter(t: Tail): nat
    requires TailShape(t)
  { NumeralValue(t.chapter) }

  function TailStart(t: Tail): nat
    requires TailShape(t)
  {
    if t.verse.Some? then NumeralValue(t.verse.value) else 1
  }

  function TailEnd(t: Tail): nat
    requires TailShape(t)
  {
    if t.endVerse.Some? then NumeralValue(t.endVerse.value) else TailStart(t)
  }

  /**
   * A single-chapter reference: every stored verse of the asked range, in
   * order, and an error naming the range when the store has none of them.
   */
  function ResolveSingle(db: Store.Db, translation: string, book: string, t: Tail): (r: Result<Passage, string>)
    requires TailShape(t)
    ensures var lookup, c, sv, ev := StoreLookup(db, book, translation), TailChapter(t), TailStart(t), TailEnd(t);
            && (r.Err? <==> forall v: nat :: sv <= v <= ev ==> lookup(c, v).None?)
            && (r.Err? ==> r.error == "Invalid reference: " + RangeLabel(book, c, sv, ev) + " in " + translation)
            && (r.Ok? ==> r.value.book == book && r.value.heading == RangeLabel(book, c, sv, ev) && !r.value.cross)
            && (r.Ok? ==> forall k :: 0 <= k < |r.value.verses| ==>
                  r.value.verses[k].chapter == c && sv <= r.value.verses[k].verse <= ev
                  && Holds(db, book, translation, r.value.verses[k]))
            && (r.Ok? ==> forall v: nat :: sv <= v <= ev && lookup(c, v).Some? ==>
                  Found(c, v, lookup(c, v).value) in r.value.verses)
            && (r.Ok? ==> forall i, j :: 0 <= i < j < |r.value.verses| ==> Before(r.value.verses[i], r.value.verses[j]))
  {
    var lookup, c, sv, ev := StoreLookup(db, book, translation), TailChapter(t), TailStart(t), TailEnd(t);
    var verses := VerseRun(lookup, c, sv, ev);
    if |verses| == 0 then
      Err("Invalid reference: " + RangeLabel(book, c, sv, ev) + " in " + translation)
    else
      assert lookup(c, verses[0].verse).Some?;
      Ok(Passage(book, RangeLabel(book, c, sv, ev), verses, false, RangeLabel(book, c, sv, ev)))
  }

  /** `f` lies within the cross-chapter passage `c1:v1-c2:v2`. */
  predicate InCross(f: Found, c1: nat, v1: nat, c2: nat, v2: nat) {
    c1 <= f.chapter <= c2 && FirstAsked(f.chapter, c1, v1) <= f.verse <= LastAsked(f.chapter, c2, v2)
  }

  /**
   * Every verse that `lookup` has from `c1:v1` to `c2:v2` (at most 999
   * verses a chapter), in reading order; none at all is the given error.
   */
  function ResolveRange(lookup: Lookup, book: string, c1: nat, v1: nat, c2: nat, v2: nat, error: string): (r: Result<Passage, string>)
    ensures r.Err? <==> forall c: nat, v: nat :: InCross(Found(c, v, ""), c1, v1, c2, v2) ==> lookup(c, v).None?
    ensures r.Err? ==> r.error == error
    ensures r.Ok? ==> r.value.book == book && r.value.heading == CrossLabel(book, c1, v1, c2, v2) && r.value.cross
    ensures r.Ok? ==> forall k :: 0 <= k < |r.value.verses| ==>
              InCross(r.value.verses[k], c1, v1, c2, v2)
              && lookup(r.value.verses[k].chapter, r.value.verses[k].verse) == Some(r.value.verses[k].text)
    ensures r.Ok? ==> forall c: nat, v: nat :: InCross(Found(c, v, ""), c1, v1, c2, v2) && lookup(c, v).Some? ==>
              Found(c, v, lookup(c, v).value) in r.value.verses
    ensures r.Ok? ==> forall i, j :: 0 <= i < j < |r.value.verses| ==> Before(r.value.verses[i], r.value.verses[j])
  {
    var verses := ChapterRuns(lookup, c1, v1, c2, v2, c1);
    ChapterRunsCover(lookup, c1, v1, c2, v2);
    if |verses| == 0 then
      Err(error)
    else
      assert InCross(Found(verses[0].chapter, verses[0].verse, ""), c1, v1, c2, v2);
      Ok(Passage(book, CrossLabel(book, c1, v1, c2, v2), verses, true, CrossLinkText(book, c1, v1, c2, v2)))
  }

  /** A cross-chapter reference within one book reads its range from the store. */
  function ResolveCross(db: Store.Db, translation: string, ref: string, x: CrossReference): (r: Result<Passage, string>)
    requires CrossShape(x) && x.startBook == x.endBook
    ensures r.Err? ==> r.error == "Invalid reference: " + ref + " in " + translation
    ensures r.Ok? ==> r.value.book == x.startBook && r.value.cross
    ensures r.Ok? ==> forall k :: 0 <= k < |r.value.verses| ==> Holds(db, x.startBook, translation, r.value.verses[k])
  {
    ResolveRange(StoreLookup(db, x.startBook, translation), x.startBook,
                 NumeralValue(x.startChapter), NumeralValue(x.startVerse),
                 NumeralValue(x.endChapter), NumeralValue(x.endVerse),
                 "Invalid reference: " + ref + " in " + translation)
  }

  /**
   * The cross-chapter form is tried first and refuses two different books;
   * otherwise the single-chapter form; text matching neither is an error.
   */
  function Resolve(db: Store.Db, translation: string, ref: string): (r: Result<Passage, string>)
    ensures ParseCross(ref).Some? ==>
              if ParseCross(ref).value.startBook != ParseCross(ref).value.endBook then r == Err(CrossBookMessage)
              else r == ResolveCross(db, translation, ref, ParseCross(ref).value)
    ensures ParseCross(ref).None? && ParseSingle(ref).None? ==> r == Err("Invalid reference format: " + ref)
    ensures ParseCross(ref).None? && ParseSingle(ref).Some? ==>
              r == ResolveSingle(db, translation, ParseSingle(ref).value.book, ParseSingle(ref).value.tail)
  {
    match ParseCross(ref)
    case Some(x) =>
      if x.startBook != x.endBook then Err(CrossBookMessage)
      else ResolveCross(db, translation, ref, x)
    case None =>
      match ParseSingle(ref)
      case None => Err("Invalid reference format: " + ref)
      case Some(Reference(book, t)) => ResolveSingle(db, translation, book, t)
  }

  /** `f` is what the store holds at its place. */
  predicate Holds(db: Store.Db, book: string, translation: string, f: Found) {
    StoreLookup(db, book, translation)(f.chapter, f.verse) == Some(f.text)
  }

  /**
   * The link text of a cross-chapter passage as the source builds it: the
   * single-chapter shape, which leaves the end chapter out.
   */
  function CrossLinkTextAsWritten(book: string, c1: nat, v1: nat, c2: nat, v2: nat): string {
    RangeLabel(book, c1, v1, v2)
  }

  /** The link text of a cross-chapter passage: the passage its heading names. */
  function CrossLinkText(book: string, c1: nat, v1: nat, c2: nat, v2: nat): (r: string)
    ensures r == CrossLabel(book, c1, v1, c2, v2)
  {
    CrossLabel(book, c1, v1, c2, v2)
  }

  /** Reads back the numerals of a cross-chapter label of `book`. */
  function ReadCrossLabel(book: string, s: string): (r: Option<(string, string, string, string)>)
    ensures r.Some? ==> IsNumeral(r.value.0) && IsNumeral(r.value.1) && IsNumeral(r.value.2) && IsNumeral(r.value.3)
    ensures r.Some? ==> s == CrossLabelText(book, r.value.0, r.value.1, r.value.2, r.value.3)
  {
    var prefix := book + [' '];
    if !StartsWith(s, prefix) then None
    else
      match ReadCrossNumbers(s[|prefix|..])
      case None => None
      case Some(n) =>
        assert s == prefix + s[|prefix|..];
        Some(n)
  }

  function ReadCrossNumbers(body: string): (r: Option<(string, string, string, string)>)
    ensures r.Some? ==> IsNumeral(r.value.0) && IsNumeral(r.value.1) && IsNumeral(r.value.2) && IsNumeral(r.value.3)
    ensures r.Some? ==> body == CrossNumbers(r.value.0, r.value.1, r.value.2, r.value.3)
  {
    match NumeralThen(body, ':')
    case None => None
    case Some((c1, r1)) =>
      match NumeralThen(r1, '-')
      case None => None
      case Some((v1, r2)) =>
        match NumeralThen(r2, ':')
        case None => None
        case Some((c2, v2)) =>
          if IsNumeral(v2) then Some((c1, v1, c2, v2)) else None
  }

  /** Every cross-chapter label names its numbers so that they can be read back. */
  lemma CrossLabelRoundTrip(book: string, c1: nat, v1: nat, c2: nat, v2: nat)
    ensures ReadCrossLabel(book, CrossLabel(book, c1, v1, c2, v2))
            == Some((ShowNat(c1), ShowNat(v1), ShowNat(c2), ShowNat(v2)))
  {
    var prefix := book + [' '];
    var body := CrossNumbers(ShowNat(c1), ShowNat(v1), ShowNat(c2), ShowNat(v2));
    var s := CrossLabel(book, c1, v1, c2, v2);
    assert s[|prefix|..] == body;
    NumeralThenComplete(ShowNat(c1), ':', ShowNat(v1) + ['-'] + (ShowNat(c2) + [':'] + ShowNat(v2)));
    NumeralThenComplete(ShowNat(v1), '-', ShowNat(c2) + [':'] + ShowNat(v2));
    NumeralThenComplete(ShowNat(c2), ':', ShowNat(v2));
  }

  /** Different cross-chapter passages of a book get different labels. */
  lemma CrossLabelInjective(book: string, c1: nat, v1: nat, c2: nat, v2: nat, d1: nat, u1: nat, d2: nat, u2: nat)
    requires CrossLabel(book, c1, v1, c2, v2) == CrossLabel(book, d1, u1, d2, u2)
    ensures c1 == d1 && v1 == u1 && c2 == d2 && v2 == u2
  {
    CrossLabelRoundTrip(book, c1, v1, c2, v2);
    CrossLabelRoundTrip(book, d1, u1, d2, u2);
    ShowNatInjective(c1, d1);
    ShowNatInjective(v1, u1);
    ShowNatInjective(c2, d2);
    ShowNatInjective(v2, u2);
  }

  /**
   * As written, the link text of a cross-chapter passage does not depend on
   * its end chapter: passages that differ only there share one link.
   */
  lemma CrossLinkAsWrittenCollides(book: string, c1: nat, v1: nat, c2: nat, d2: nat, v2: nat)
    requires c2 != d2
    ensures CrossLinkTextAsWritten(book, c1, v1, c2, v2) == CrossLinkTextAsWritten(book, c1, v1, d2, v2)
    ensures CrossLinkText(book, c1, v1, c2, v2) != CrossLinkText(book, c1, v1, d2, v2)
  {
    if CrossLinkText(book, c1, v1, c2, v2) == CrossLinkText(book, c1, v1, d2, v2) {
      CrossLabelInjective(book, c1, v1, c2, v2, c1, v1, d2, v2);
    }
  }

  /**
   * As written, the link text of a cross-chapter passage reads, by the
   * plugin's own single-chapter grammar, as verses `v1` to `v2` of chapter
   * `c1`: when the end chapter lies beyond the start, that is not the passage.
   */
  lemma CrossLinkAsWrittenReads(book: string, c1: nat, v1: nat, c2: nat, v2: nat)
    requires PlainBook(book)
    ensures ParseSingle(CrossLinkTextAsWritten(book, c1, v1, c2, v2)) == Some(Reference(book, RangeTail(c1, v1, v2)))
  {
    ParseSingleRoundTrip(book, " ", RangeTail(c1, v1, v2));
  }

  /** The cross-chapter grammar reads `John 3:16-John 4:2` as John, 3:16 to 4:2. */
  lemma CrossExampleParses(s: string)
    requires s == "John 3:16-John 4:2"
    ensures ParseCross(s) == Some(CrossReference("John", "3", "16", "John", "4", "2"))
  {
    var x := CrossReference("John", "3", "16", "John", "4", "2");
    CrossExampleText(x);
    assert PlainBook("John") && NoHyphen("John");
    assert IsNumeral("3") && IsNumeral("16") && IsNumeral("4") && IsNumeral("2");
    ParseCrossRoundTrip(x, " ", " ");
  }

  lemma CrossExampleText(x: CrossReference)
    requires x == CrossReference("John", "3", "16", "John", "4", "2")
    ensures CrossText(x, " ", " ") == "John 3:16-John 4:2"
  {
    assert MiddleText("3", "16") == "3:16-";
    assert TailBody(Tail("4", Some("2"), None)) == "4:2";
  }

  /**
   * `John 3:16-John 4:2`, which the cross-chapter grammar reads as John 3:16
   * to 4:2 (CrossExampleParses), gets the link text of verses 16 to 2 of chapter 3, a range with no
   * verse in it.
   */
  lemma CrossLinkAsWrittenExample()
    ensures ParseSingle(CrossLinkTextAsWritten("John", 3, 16, 4, 2)) == Some(Reference("John", RangeTail(3, 16, 2)))
    ensures TailStart(RangeTail(3, 16, 2)) == 16 && TailEnd(RangeTail(3, 16, 2)) == 2
  {
    assert PlainBook("John");
    CrossLinkAsWrittenReads("John", 3, 16, 4, 2);
    NumeralRoundTrip(16);
    NumeralRoundTrip(2);
  }

  // ---------------------------------------------------------------------------
  // Rendering
  // ---------------------------------------------------------------------------

  /** What the block puts inside its verse container, in order. */
  datatype Piece =
    | ChapterMark(chapter: nat, text: string)
    | VerseMark(verse: nat, text: string)
    | Words(text: string, red: bool)
    | Markup(html: string)

  /** The rendered block: container classes, reference heading, verse pieces and the link's address. */
  datatype Block = Block(classes: string, reference: string, pieces: seq<Piece>, link: Option<string>)

  /** What `processCodeBlock` leaves behind: an exception, a one-line message, or a block. */
  datatype Outcome = Thrown | Message(text: string) | Rendered(block: Block)

  const JesusWords: seq<string> := ["Jesus", "Christ", "Lord", "Master", "Rabbi", "Teacher"]

  /** A word containing one of the names is shown in red. */
  predicate IsJesusWord(word: string) {
    exists k :: 0 <= k < |JesusWords| && Includes(word, JesusWords[k])
  }

  /** One span per word, each but the last followed by the space the split removed. */
  function RedWords(words: seq<string>): (r: seq<Piece>)
    ensures |r| == |words|
    ensures forall k :: 0 <= k < |r| ==> r[k].Words? && r[k].red == IsJesusWord(words[k])
    ensures forall k :: 0 <= k < |r| - 1 ==> r[k].text == words[k] + " "
    ensures |r| > 0 ==> r[|r| - 1].text == words[|words| - 1]
  {
    RedSpansFacts(words);
    RedSpans(words)
  }

  function RedSpans(words: seq<string>): seq<Piece> {
    if |words| == 0 then []
    else if |words| == 1 then [Words(words[0], IsJesusWord(words[0]))]
    else [Words(words[0] + " ", IsJesusWord(words[0]))] + RedSpans(words[1..])
  }

  lemma {:induction false} RedSpansFacts(words: seq<string>)
    ensures var r := RedSpans(words);
            && |r| == |words|
            && (forall k :: 0 <= k < |r| ==> r[k].Words? && r[k].red == IsJesusWord(words[k]))
            && (forall k :: 0 <= k < |r| - 1 ==> r[k].text == words[k] + " ")
            && (|r| > 0 ==> r[|r| - 1].text == words[|words| - 1])
  {
    if |words| > 1 {
      RedSpansFacts(words[1..]);
      RedWordsCons(words, RedSpans(words[1..]), RedSpans(words));
    }
  }

  /** The span facts of the words after the first carry over to all of them. */
  lemma RedWordsCons(words: seq<string>, rest: seq<Piece>, r: seq<Piece>)
    requires |words| > 1 && |rest| == |words| - 1
    requires forall k :: 0 <= k < |rest| ==> rest[k].Words? && rest[k].red == IsJesusWord(words[1..][k])
    requires forall k :: 0 <= k < |rest| - 1 ==> rest[k].text == words[1..][k] + " "
    requires rest[|rest| - 1].text == words[1..][|words| - 2]
    requires r == [Words(words[0] + " ", IsJesusWord(words[0]))] + rest
    ensures forall k :: 0 <= k < |r| ==> r[k].Words? && r[k].red == IsJesusWord(words[k])
    ensures forall k :: 0 <= k < |r| - 1 ==> r[k].text == words[k] + " "
    ensures r[|r| - 1].text == words[|words| - 1]
  {
    forall k | 1 <= k < |r| ensures r[k] == rest[k - 1] && words[k] == words[1..][k - 1] {
    }
    assert r[|r| - 1] == rest[|rest| - 1];
  }

  /** The red-letter spans of a processed verse text. */
  function RedLetter(text: string): seq<Piece> {
    RedWords(Split(text, {' '}))
  }

  /** The text a reader sees: words and markup, without the chapter and verse marks. */
  function TextOf(ps: seq<Piece>): string {
    if |ps| == 0 then ""
    else
      var head := match ps[0]
        case Words(t, _) => t
        case Markup(h) => h
        case _ => "";
      head + TextOf(ps[1..])
  }

  lemma {:induction false} TextOfAppend(a: seq<Piece>, b: seq<Piece>)
    ensures TextOf(a + b) == TextOf(a) + TextOf(b)
    decreases |a|
  {
    if |a| == 0 {
      assert a + b == b;
    } else {
      assert (a + b)[0] == a[0];
      assert (a + b)[1..] == a[1..] + b;
      TextOfAppend(a[1..], b);
    }
  }

  lemma {:induction false} RedWordsText(words: seq<string>)
    ensures TextOf(RedWords(words)) == Join(words, " ")
    decreases |words|
  {
    if |words| > 1 {
      RedWordsText(words[1..]);
      TextOfAppend([Words(words[0] + " ", IsJesusWord(words[0]))], RedWords(words[1..]));
    }
  }

  /** Red-letter mode shows exactly the processed text, split into words. */
  lemma RedLetterText(text: string)
    ensures TextOf(RedLetter(text)) == text
  {
    RedWordsText(Split(text, {' '}));
    JoinSplit(text, ' ');
  }

  /** The spans of one verse's processed text. */
  function VerseBody(o: Options, processed: string): seq<Piece> {
    if o.redText then RedLetter(processed) else [Markup(processed + " ")]
  }

  /** An `h4` "Chapter N" in a cross-chapter block, a bare `strong` number otherwise. */
  function ChapterMarkText(cross: bool, c: nat): string {
    if cross then "Chapter " + ShowNat(c) else ShowNat(c)
  }

  /** The chapter marked, in order. */
  function MarkedChapters(ps: seq<Piece>): seq<nat> {
    if |ps| == 0 then []
    else (if ps[0].ChapterMark? then [ps[0].chapter] else []) + MarkedChapters(ps[1..])
  }

  /** The verse numbers shown, in order. */
  function MarkedVerses(ps: seq<Piece>): seq<nat> {
    if |ps| == 0 then []
    else (if ps[0].VerseMark? then [ps[0].verse] else []) + MarkedVerses(ps[1..])
  }

  /** Pieces that mark neither a chapter nor a verse. */
  predicate Unmarked(ps: seq<Piece>) {
    MarkedChapters(ps) == [] && MarkedVerses(ps) == []
  }

  /** What precedes a verse's text: its chapter mark when `marked`, its number when `numbered`. */
  function VerseHead(cross: bool, marked: bool, numbered: bool, f: Found): (r: seq<Piece>)
    ensures TextOf(r) == ""
    ensures MarkedChapters(r) == if marked then [f.chapter] else []
    ensures MarkedVerses(r) == if numbered then [f.verse] else []
  {
    var m := if marked then [ChapterMark(f.chapter, ChapterMarkText(cross, f.chapter))] else [];
    var n := if numbered then [VerseMark(f.verse, ShowNat(f.verse))] else [];
    MarkedChaptersAppend(m, n);
    MarkedVersesAppend(m, n);
    TextOfAppend(m, n);
    m + n
  }

  /**
   * The pieces of the verses in order, each verse's body given. `last` is
   * the chapter last marked (-1 before the first verse); `chapters` is the
   * chapter option; `numbered` says whether each verse carries its number.
   */
  function RenderVerses(cross: bool, chapters: bool, numbered: bool, verses: seq<Found>, bodies: seq<seq<Piece>>, last: int): seq<Piece>
    requires |bodies| == |verses|
    decreases |verses|
  {
    if |verses| == 0 then []
    else
      var f := verses[0];
      var marked := chapters && f.chapter != last;
      VerseHead(cross, marked, numbered, f) + bodies[0]
        + RenderVerses(cross, chapters, numbered, verses[1..], bodies[1..], if marked then f.chapter else last)
  }

  /** The texts of the pieces one after another. */
  function TextsOf(bodies: seq<seq<Piece>>): string {
    if |bodies| == 0 then "" else TextOf(bodies[0]) + TextsOf(bodies[1..])
  }

  /** The chapter of each verse. */
  function ChaptersOf(verses: seq<Found>): seq<nat> {
    if |verses| == 0 then [] else [verses[0].chapter] + ChaptersOf(verses[1..])
  }

  /** The verse number of each verse. */
  function VersesOf(verses: seq<Found>): seq<nat> {
    if |verses| == 0 then [] else [verses[0].verse] + VersesOf(verses[1..])
  }

  predicate StrictlyIncreasing(s: seq<nat>) {
    forall i, j :: 0 <= i < j < |s| ==> s[i] < s[j]
  }

  /** Chapters never go back. */
  predicate ChaptersAscend(verses: seq<Found>) {
    forall i, j :: 0 <= i < j < |verses| ==> verses[i].chapter <= verses[j].chapter
  }

  lemma {:induction false} MarkedChaptersAppend(a: seq<Piece>, b: seq<Piece>)
    ensures MarkedChapters(a + b) == MarkedChapters(a) + MarkedChapters(b)
    decreases |a|
  {
    if |a| == 0 {
      assert a + b == b;
    } else {
      assert (a + b)[0] == a[0];
      assert (a + b)[1..] == a[1..] + b;
      MarkedChaptersAppend(a[1..], b);
    }
  }

  lemma {:induction false} MarkedVersesAppend(a: seq<Piece>, b: seq<Piece>)
    ensures MarkedVerses(a + b) == MarkedVerses(a) + MarkedVerses(b)
    decreases |a|
  {
    if |a| == 0 {
      assert a + b == b;
    } else {
      assert (a + b)[0] == a[0];
      assert (a + b)[1..] == a[1..] + b;
      MarkedVersesAppend(a[1..], b);
    }
  }

  lemma {:induction false} RedWordsUnmarked(words: seq<string>)
    ensures Unmarked(RedWords(words))
    decreases |words|
  {
    if |words| > 1 {
      RedWordsUnmarked(words[1..]);
      MarkedChaptersAppend([Words(words[0] + " ", IsJesusWord(words[0]))], RedWords(words[1..]));
      MarkedVersesAppend([Words(words[0] + " ", IsJesusWord(words[0]))], RedWords(words[1..]));
    }
  }

  /** A verse's body shows its processed text, followed by a space unless in red-letter mode, and marks nothing. */
  lemma VerseBodyShows(o: Options, text: string)
    ensures TextOf(VerseBody(o, text)) == text + (if o.redText then "" else " ")
    ensures Unmarked(VerseBody(o, text))
  {
    if o.redText {
      RedLetterText(text);
      RedWordsUnmarked(Split(text, {' '}));
    } else {
      assert TextOf([Markup(text + " ")]) == text + " " + TextOf([]);
    }
  }

  /** One step of the rendering: the verse's head, its body, then the rest. */
  lemma RenderUnfold(cross: bool, chapters: bool, numbered: bool, verses: seq<Found>, bodies: seq<seq<Piece>>, last: int)
    requires |bodies| == |verses| > 0
    ensures var marked := chapters && verses[0].chapter != last;
            RenderVerses(cross, chapters, numbered, verses, bodies, last)
            == VerseHead(cross, marked, numbered, verses[0]) + bodies[0]
               + RenderVerses(cross, chapters, numbered, verses[1..], bodies[1..], if marked then verses[0].chapter else last)
  {
  }

  /** The text one verse contributes. */
  lemma RenderStepText(cross: bool, chapters: bool, numbered: bool, verses: seq<Found>, bodies: seq<seq<Piece>>, last: int)
    requires |bodies| == |verses| > 0
    ensures var marked := chapters && verses[0].chapter != last;
            TextOf(RenderVerses(cross, chapters, numbered, verses, bodies, last))
            == TextOf(bodies[0]) + TextOf(RenderVerses(cross, chapters, numbered, verses[1..], bodies[1..], if marked then verses[0].chapter else last))
  {
    var marked := chapters && verses[0].chapter != last;
    var h := VerseHead(cross, marked, numbered, verses[0]);
    var rest := RenderVerses(cross, chapters, numbered, verses[1..], bodies[1..], if marked then verses[0].chapter else last);
    RenderUnfold(cross, chapters, numbered, verses, bodies, last);
    TextOfAppend(h + bodies[0], rest);
    TextOfAppend(h, bodies[0]);
    assert TextOf(h + bodies[0]) == TextOf(bodies[0]) by {
      assert TextOf(h) == "";
      assert "" + TextOf(bodies[0]) == TextOf(bodies[0]);
    }
  }

  /** The chapter marks one verse contributes. */
  lemma RenderStepChapters(cross: bool, chapters: bool, numbered: bool, verses: seq<Found>, bodies: seq<seq<Piece>>, last: int)
    requires |bodies| == |verses| > 0 && Unmarked(bodies[0])
    ensures var marked := chapters && verses[0].chapter != last;
            MarkedChapters(RenderVerses(cross, chapters, numbered, verses, bodies, last))
            == (if marked then [verses[0].chapter] else [])
               + MarkedChapters(RenderVerses(cross, chapters, numbered, verses[1..], bodies[1..], if marked then verses[0].chapter else last))
  {
    var marked := chapters && verses[0].chapter != last;
    var h := VerseHead(cross, marked, numbered, verses[0]);
    var rest := RenderVerses(cross, chapters, numbered, verses[1..], bodies[1..], if marked then verses[0].chapter else last);
    RenderUnfold(cross, chapters, numbered, verses, bodies, last);
    MarkedChaptersAppend(h + bodies[0], rest);
    MarkedChaptersAppend(h, bodies[0]);
    assert MarkedChapters(h) + [] == MarkedChapters(h);
  }

  /** The verse numbers one verse contributes. */
  lemma RenderStepVerses(cross: bool, chapters: bool, numbered: bool, verses: seq<Found>, bodies: seq<seq<Piece>>, last: int)
    requires |bodies| == |verses| > 0 && Unmarked(bodies[0])
    ensures var marked := chapters && verses[0].chapter != last;
            MarkedVerses(RenderVerses(cross, chapters, numbered, verses, bodies, last))
            == (if numbered then [verses[0].verse] else [])
               + MarkedVerses(RenderVerses(cross, chapters, numbered, verses[1..], bodies[1..], if marked then verses[0].chapter else last))
  {
    var marked := chapters && verses[0].chapter != last;
    var h := VerseHead(cross, marked, numbered, verses[0]);
    var rest := RenderVerses(cross, chapters, numbered, verses[1..], bodies[1..], if marked then verses[0].chapter else last);
    RenderUnfold(cross, chapters, numbered, verses, bodies, last);
    MarkedVersesAppend(h + bodies[0], rest);
    MarkedVersesAppend(h, bodies[0]);
    assert MarkedVerses(h) + [] == MarkedVerses(h);
  }

  /** The text shown is the text of every verse body, in order. */
  lemma {:induction false} RenderText(cross: bool, chapters: bool, numbered: bool, verses: seq<Found>, bodies: seq<seq<Piece>>, last: int)
    requires |bodies| == |verses|
    ensures TextOf(RenderVerses(cross, chapters, numbered, verses, bodies, last)) == TextsOf(bodies)
    decreases |verses|
  {
    if |verses| > 0 {
      RenderStepText(cross, chapters, numbered, verses, bodies, last);
      var marked := chapters && verses[0].chapter != last;
      RenderText(cross, chapters, numbered, verses[1..], bodies[1..], if marked then verses[0].chapter else last);
    }
  }

  /** Every verse shows its number, in order, when numbering is on; none does otherwise. */
  lemma {:induction false} RenderVerseNumbers(cross: bool, chapters: bool, numbered: bool, verses: seq<Found>, bodies: seq<seq<Piece>>, last: int)
    requires |bodies| == |verses|
    requires forall k :: 0 <= k < |bodies| ==> Unmarked(bodies[k])
    ensures MarkedVerses(RenderVerses(cross, chapters, numbered, verses, bodies, last)) == if numbered then VersesOf(verses) else []
    decreases |verses|
  {
    if |verses| > 0 {
      RenderStepVerses(cross, chapters, numbered, verses, bodies, last);
      var marked := chapters && verses[0].chapter != last;
      RenderVerseNumbers(cross, chapters, numbered, verses[1..], bodies[1..], if marked then verses[0].chapter else last);
    }
  }

  /** Every chapter of verses bounded below stays bounded below. */
  lemma {:induction false} ChaptersOfBounds(verses: seq<Found>, low: nat)
    requires forall k :: 0 <= k < |verses| ==> low <= verses[k].chapter
    ensures forall c :: c in ChaptersOf(verses) ==> low <= c
    decreases |verses|
  {
    if |verses| > 0 {
      ChaptersOfBounds(verses[1..], low);
    }
  }

  /** What the rendering of the verses after the first may assume, and how their chapters extend. */
  lemma RenderChaptersRest(verses: seq<Found>, bodies: seq<seq<Piece>>, last: int, last': int)
    requires |bodies| == |verses| > 0
    requires forall k :: 0 <= k < |bodies| ==> Unmarked(bodies[k])
    requires ChaptersAscend(verses)
    requires last' == last || last' == verses[0].chapter
    requires forall k :: 0 <= k < |verses| ==> last <= verses[k].chapter
    ensures forall k :: 0 <= k < |bodies[1..]| ==> Unmarked(bodies[1..][k])
    ensures ChaptersAscend(verses[1..])
    ensures forall k :: 0 <= k < |verses[1..]| ==> last' <= verses[1..][k].chapter
    ensures last <= verses[0].chapter
    ensures ChaptersOf(verses) == [verses[0].chapter] + ChaptersOf(verses[1..])
    ensures forall c :: c in ChaptersOf(verses[1..]) ==> verses[0].chapter <= c
  {
    var rest := verses[1..];
    assert forall k :: 0 <= k < |rest| ==> rest[k] == verses[k + 1];
    ChaptersOfBounds(rest, verses[0].chapter);
  }

  /** The chapter-mark facts carried from the rest of the verses to the whole. */
  lemma MarksCons(chapters: bool, marked: bool, x: nat, last: int, rm: seq<nat>, restChapters: seq<nat>)
    requires marked == (chapters && x != last)
    requires last <= x && forall c :: c in restChapters ==> x <= c
    requires var last' := if marked then x else last;
             && (!chapters ==> rm == [])
             && StrictlyIncreasing(rm)
             && (forall k :: 0 <= k < |rm| ==> last' < rm[k])
             && (chapters ==> forall c: nat :: c in rm <==> c != last' && c in restChapters)
    ensures var marks := (if marked then [x] else []) + rm;
            && (!chapters ==> marks == [])
            && StrictlyIncreasing(marks)
            && (forall k :: 0 <= k < |marks| ==> last < marks[k])
            && (chapters ==> forall c: nat :: c in marks <==> c != last && c in [x] + restChapters)
  {
    var marks := (if marked then [x] else []) + rm;
    if marked {
      assert forall k :: 1 <= k < |marks| ==> marks[k] == rm[k - 1];
    } else {
      assert marks == rm;
    }
  }

  /**
   * With the chapter option and chapters that never go back, each chapter
   * other than `last` is marked exactly once, in ascending order; without
   * the option no chapter is marked.
   */
  lemma {:induction false} RenderChapters(cross: bool, chapters: bool, numbered: bool, verses: seq<Found>, bodies: seq<seq<Piece>>, last: int)
    requires |bodies| == |verses|
    requires forall k :: 0 <= k < |bodies| ==> Unmarked(bodies[k])
    requires ChaptersAscend(verses)
    requires forall k :: 0 <= k < |verses| ==> last <= verses[k].chapter
    ensures var marks := MarkedChapters(RenderVerses(cross, chapters, numbered, verses, bodies, last));
            && (!chapters ==> marks == [])
            && StrictlyIncreasing(marks)
            && (forall k :: 0 <= k < |marks| ==> last < marks[k])
            && (chapters ==> forall c: nat :: c in marks <==> c != last && c in ChaptersOf(verses))
    decreases |verses|
  {
    if |verses| > 0 {
      RenderStepChapters(cross, chapters, numbered, verses, bodies, last);
      var f := verses[0];
      var marked := chapters && f.chapter != last;
      var last' := if marked then f.chapter else last;
      var rest := verses[1..];
      RenderChaptersRest(verses, bodies, last, last');
      RenderChapters(cross, chapters, numbered, rest, bodies[1..], last');
      MarksCons(chapters, marked, f.chapter, last,
                MarkedChapters(RenderVerses(cross, chapters, numbered, rest, bodies[1..], last')), ChaptersOf(rest));
    }
  }

  // ---------------------------------------------------------------------------
  // The whole block
  // ---------------------------------------------------------------------------

  /** `bible-verse-container` and one class per display option that is on. */
  function ContainerClasses(o: Options): string {
    "bible-verse-container" + (if o.redText then " red-letter" else "")
      + (if o.chapter then " show-chapter" else "") + (if o.verse then " show-verse" else "")
  }

  /** Each verse's text after the translation's processing rules. */
  function ProcessedTexts(db: Store.Db, verses: seq<Found>, translation: string, exec: Rules.Engine): (r: seq<string>)
    requires Rules.SoundEngine(exec)
    ensures |r| == |verses|
    ensures forall k :: 0 <= k < |r| ==> r[k] == Store.ApplyProcessingRules(db, verses[k].text, translation, exec)
  {
    if |verses| == 0 then []
    else [Store.ApplyProcessingRules(db, verses[0].text, translation, exec)] + ProcessedTexts(db, verses[1..], translation, exec)
  }

  /** The body pieces of each processed text. */
  function Bodies(o: Options, texts: seq<string>): (r: seq<seq<Piece>>)
    ensures |r| == |texts|
    ensures forall k :: 0 <= k < |r| ==> r[k] == VerseBody(o, texts[k])
  {
    if |texts| == 0 then [] else [VerseBody(o, texts[0])] + Bodies(o, texts[1..])
  }

  /** Each verse text followed by `sep`, all run together. */
  function RunTogether(texts: seq<string>, sep: string): string {
    if |texts| == 0 then "" else texts[0] + sep + RunTogether(texts[1..], sep)
  }

  /** The bodies show the texts in order, a space after each unless in red-letter mode. */
  lemma {:induction false} BodiesShow(o: Options, texts: seq<string>)
    ensures TextsOf(Bodies(o, texts)) == RunTogether(texts, if o.redText then "" else " ")
    ensures forall k :: 0 <= k < |texts| ==> Unmarked(Bodies(o, texts)[k])
    decreases |texts|
  {
    if |texts| > 0 {
      BodiesShow(o, texts[1..]);
      VerseBodyShows(o, texts[0]);
      assert Bodies(o, texts)[1..] == Bodies(o, texts[1..]);
      forall k | 0 <= k < |texts| ensures Unmarked(Bodies(o, texts)[k]) {
        VerseBodyShows(o, texts[k]);
      }
    }
  }

  /** Whether each verse carries its number: always with the option, and for several verses of one chapter. */
  function Numbered(o: Options, p: Passage): bool {
    o.verse || (!p.cross && |p.verses| > 1)
  }

  /**
   * `processCodeBlock`: the header picks the options, the translation and
   * the reference; the reference is resolved against the store; the verses
   * are rendered with the translation's processing rules applied.
   */
  function Process(db: Store.Db, source: string, exec: Rules.Engine): (r: Outcome)
    requires Rules.SoundEngine(exec)
    ensures r.Thrown? <==> FirstLineParts(source) == []
    ensures ParseHeader(source) == Err(InvalidFormat) ==> r == Message(InvalidFormatMessage)
    ensures ParseHeader(source).Ok? ==>
              var h := ParseHeader(source).value;
              && (Resolve(db, h.translation, h.referenceText).Err? ==> r == Message(Resolve(db, h.translation, h.referenceText).error))
              && (Resolve(db, h.translation, h.referenceText).Ok? ==> r.Rendered?)
    ensures r.Rendered? ==>
              var h := ParseHeader(source).value;
              var p := Resolve(db, h.translation, h.referenceText).value;
              && r.block.classes == ContainerClasses(h.options)
              && r.block.reference == p.heading + " (" + h.translation + "): "
              && (r.block.link.Some? <==> h.options.link)
              && (r.block.link.Some? ==> Gateway.DecodeUriComponent(Gateway.SearchTerm(r.block.link.value)) == Some(p.linkText))
              && (r.block.link.Some? ==> Gateway.VersionOf(r.block.link.value) == Gateway.GatewayVersion(h.translation))
  {
    match ParseHeader(source)
    case Err(NoWords) => Thrown
    case Err(InvalidFormat) => Message(InvalidFormatMessage)
    case Ok(h) =>
      match Resolve(db, h.translation, h.referenceText)
      case Err(m) => Message(m)
      case Ok(p) =>
        var texts := ProcessedTexts(db, p.verses, h.translation, exec);
        var pieces := RenderVerses(p.cross, h.options.chapter, Numbered(h.options, p), p.verses, Bodies(h.options, texts), -1);
        var link := if h.options.link then Some(Gateway.GatewayUrl(p.linkText, h.translation)) else None;
        Gateway.GatewayUrlRoundTrip(p.linkText, h.translation);
        Rendered(Block(ContainerClasses(h.options), p.heading + " (" + h.translation + "): ", pieces, link))
  }

  /** A resolved passage lists its verses in reading order. */
  lemma ResolveOrdered(db: Store.Db, translation: string, ref: string)
    ensures var r := Resolve(db, translation, ref);
            r.Ok? ==> |r.value.verses| > 0 && forall i, j :: 0 <= i < j < |r.value.verses| ==> Before(r.value.verses[i], r.value.verses[j])
  {
  }

  /** The pieces of a rendered block come from the resolved passage. */
  lemma ProcessPieces(db: Store.Db, source: string, exec: Rules.Engine)
    requires Rules.SoundEngine(exec)
    requires Process(db, source, exec).Rendered?
    ensures ParseHeader(source).Ok?
    ensures var h := ParseHeader(source).value;
            && Resolve(db, h.translation, h.referenceText).Ok?
            && var p := Resolve(db, h.translation, h.referenceText).value;
               Process(db, source, exec).block.pieces
               == RenderVerses(p.cross, h.options.chapter, Numbered(h.options, p), p.verses,
                               Bodies(h.options, ProcessedTexts(db, p.verses, h.translation, exec)), -1)
  {
  }

  /** The facts about the pieces of verses in reading order, rendered from their texts. */
  lemma RenderPassage(o: Options, p: Passage, texts: seq<string>)
    requires |texts| == |p.verses|
    requires forall i, j :: 0 <= i < j < |p.verses| ==> Before(p.verses[i], p.verses[j])
    ensures var pieces := RenderVerses(p.cross, o.chapter, Numbered(o, p), p.verses, Bodies(o, texts), -1);
            && TextOf(pieces) == RunTogether(texts, if o.redText then "" else " ")
            && MarkedVerses(pieces) == (if Numbered(o, p) then VersesOf(p.verses) else [])
            && StrictlyIncreasing(MarkedChapters(pieces))
            && (!o.chapter ==> MarkedChapters(pieces) == [])
            && (o.chapter ==> forall c: nat :: c in MarkedChapters(pieces) <==> c in ChaptersOf(p.verses))
  {
    var bodies := Bodies(o, texts);
    BodiesShow(o, texts);
    OrderedAscend(p.verses);
    RenderAll(p.cross, o.chapter, Numbered(o, p), p.verses, bodies);
  }

  lemma OrderedAscend(verses: seq<Found>)
    requires forall i, j :: 0 <= i < j < |verses| ==> Before(verses[i], verses[j])
    ensures ChaptersAscend(verses)
  {
  }

  /** The text, verse-number and chapter-mark facts of one rendering from the start. */
  lemma RenderAll(cross: bool, chapters: bool, numbered: bool, verses: seq<Found>, bodies: seq<seq<Piece>>)
    requires |bodies| == |verses|
    requires forall k :: 0 <= k < |bodies| ==> Unmarked(bodies[k])
    requires ChaptersAscend(verses)
    ensures var pieces := RenderVerses(cross, chapters, numbered, verses, bodies, -1);
            && TextOf(pieces) == TextsOf(bodies)
            && MarkedVerses(pieces) == (if numbered then VersesOf(verses) else [])
            && StrictlyIncreasing(MarkedChapters(pieces))
            && (!chapters ==> MarkedChapters(pieces) == [])
            && (chapters ==> forall c: nat :: c in MarkedChapters(pieces) <==> c in ChaptersOf(verses))
  {
    RenderText(cross, chapters, numbered, verses, bodies, -1);
    RenderVerseNumbers(cross, chapters, numbered, verses, bodies, -1);
    RenderChapters(cross, chapters, numbered, verses, bodies, -1);
  }

  /**
   * A rendered block shows every found verse's processed text in order;
   * numbers them all or none; and, with the chapter option, marks each
   * chapter of the passage exactly once, in ascending order.
   */
  lemma ProcessRendered(db: Store.Db, source: string, exec: Rules.Engine)
    requires Rules.SoundEngine(exec)
    requires Process(db, source, exec).Rendered?
    ensures ParseHeader(source).Ok?
    ensures var h := ParseHeader(source).value; Resolve(db, h.translation, h.referenceText).Ok?
    ensures var h := ParseHeader(source).value;
            var p := Resolve(db, h.translation, h.referenceText).value;
            var pieces := Process(db, source, exec).block.pieces;
            && TextOf(pieces) == RunTogether(ProcessedTexts(db, p.verses, h.translation, exec), if h.options.redText then "" else " ")
            && MarkedVerses(pieces) == (if Numbered(h.options, p) then VersesOf(p.verses) else [])
            && StrictlyIncreasing(MarkedChapters(pieces))
            && (!h.options.chapter ==> MarkedChapters(pieces) == [])
            && (h.options.chapter ==> forall c: nat :: c in MarkedChapters(pieces) <==> c in ChaptersOf(p.verses))
  {
    ProcessPieces(db, source, exec);
    var h := ParseHeader(source).value;
    var p := Resolve(db, h.translation, h.referenceText).value;
    ResolveOrdered(db, h.translation, h.referenceText);
    RenderPassage(h.options, p, ProcessedTexts(db, p.verses, h.translation, exec));
  }
}

=== FILE: dataview.dfy ===
/**
 * The query layer the plugin offers to Dataview scripts (src/main.ts): the
 * verse records it builds, the `WHERE` filter, the `SORT` comparator, the
 * reading of a `SORT` clause, and the testament and category of a book.
 *
 * A record is a JavaScript object with a fixed set of fields, each of one
 * type. Looking up any other field gives `undefined`; the two lower-case
 * names an object inherits (`constructor`, `__proto__`) give a function or
 * an object, which every condition and every comparison below treats
 * exactly as it treats `undefined`, so they are folded into it.
 */
module Dataview {
  import opened Wrappers
  import opened Text
  import Arrays
  import Store

  // ---------------------------------------------------------------------------
  // Records
  // ---------------------------------------------------------------------------

  /** A JavaScript value as it appears in a verse record. */
  datatype Value = Str(s: string) | Num(n: int) | Bool(b: bool) | Undefined

  datatype Kind = StrKind | NumKind | BoolKind

  function KindOf(v: Value): Option<Kind> {
    match v
    case Str(_) => Some(StrKind)
    case Num(_) => Some(NumKind)
    case Bool(_) => Some(BoolKind)
    case Undefined => None
  }

  /** The fields of the record built for each stored verse, and their types. */
  const Schema: map<string, Kind> := map[
    "book" := StrKind, "chapter" := NumKind, "verse" := NumKind, "text" := StrKind,
    "translation" := StrKind, "translation_name" := StrKind, "reference" := StrKind,
    "word_count" := NumKind, "char_count" := NumKind,
    "is_jesus_word" := BoolKind, "has_red_letter" := BoolKind,
    "testament" := StrKind, "book_category" := StrKind
  ]

  predicate Conforms(r: map<string, Value>) {
    r.Keys == Schema.Keys && forall f :: f in r ==> KindOf(r[f]) == Some(Schema[f])
  }

  type Row = r: map<string, Value> | Conforms(r)
    witness map[
      "book" := Str(""), "chapter" := Num(0), "verse" := Num(0), "text" := Str(""),
      "translation" := Str(""), "translation_name" := Str(""), "reference" := Str(""),
      "word_count" := Num(0), "char_count" := Num(0),
      "is_jesus_word" := Bool(false), "has_red_letter" := Bool(false),
      "testament" := Str(""), "book_category" := Str("")
    ]

  /** `record[field]` */
  function Field(r: Row, field: string): Value {
    if field in r then r[field] else Undefined
  }

  /** The same field of two records holds values of the same type. */
  lemma FieldSameKind(a: Row, b: Row, field: string)
    ensures KindOf(Field(a, field)) == KindOf(Field(b, field))
  {
    assert field in a <==> field in Schema;
    assert field in b <==> field in Schema;
  }

  // ---------------------------------------------------------------------------
  // WHERE
  // ---------------------------------------------------------------------------

  datatype Condition =
    | Equals(field: string, value: Value)
    | Contains(field: string, text: string)
    | GreaterThan(field: string, bound: int)
    | LessThan(field: string, bound: int)

  /** One condition: strict equality, case-insensitive substring of a string, or a bound on a number. */
  predicate Satisfies(r: Row, c: Condition) {
    var v := Field(r, c.field);
    match c
    case Equals(_, x) => v == x
    case Contains(_, t) => v.Str? && Includes(Lower(v.s), Lower(t))
    case GreaterThan(_, n) => v.Num? && v.n > n
    case LessThan(_, n) => v.Num? && v.n < n
  }

  /** `conditions.every(...)` */
  predicate SatisfiesAll(r: Row, conditions: seq<Condition>) {
    forall i :: 0 <= i < |conditions| ==> Satisfies(r, conditions[i])
  }

  /** The records that meet every condition, in their original order. */
  function ApplyWhereConditions(rows: seq<Row>, conditions: seq<Condition>): (r: seq<Row>)
    ensures forall x :: x in r <==> x in rows && SatisfiesAll(x, conditions)
    ensures forall x :: multiset(r)[x] == if SatisfiesAll(x, conditions) then multiset(rows)[x] else 0
    ensures Arrays.Subsequence(r, rows)
  {
    var r := Arrays.Filter(rows, x => SatisfiesAll(x, conditions));
    forall x ensures x in r <==> x in rows && SatisfiesAll(x, conditions) {
      Arrays.FilterMembers(rows, x => SatisfiesAll(x, conditions), x);
    }
    r
  }

  /** No conditions keep every record. */
  lemma WhereNothing(rows: seq<Row>)
    ensures ApplyWhereConditions(rows, []) == rows
  {
    Arrays.FilterAll(rows, x => SatisfiesAll(x, []));
  }

  /** Filtering by a list of conditions is filtering by its parts one after the other. */
  lemma {:induction false} WhereConjunction(rows: seq<Row>, a: seq<Condition>, b: seq<Condition>)
    ensures ApplyWhereConditions(rows, a + b) == ApplyWhereConditions(ApplyWhereConditions(rows, a), b)
  {
    if |rows| > 0 {
      WhereConjunction(rows[1..], a, b);
      var x := rows[0];
      SatisfiesAllAppend(x, a, b);
      FilterUnfold(rows, a + b);
      FilterUnfold(rows, a);
      if SatisfiesAll(x, a) {
        var first := ApplyWhereConditions(rows, a);
        assert first == [x] + ApplyWhereConditions(rows[1..], a);
        assert first[1..] == ApplyWhereConditions(rows[1..], a);
        FilterUnfold(first, b);
      }
    }
  }

  /** A row meets a joined list of conditions exactly when it meets both lists. */
  lemma SatisfiesAllAppend(x: Row, a: seq<Condition>, b: seq<Condition>)
    ensures SatisfiesAll(x, a + b) <==> SatisfiesAll(x, a) && SatisfiesAll(x, b)
  {
    if SatisfiesAll(x, a) && SatisfiesAll(x, b) {
      forall i | 0 <= i < |a + b| ensures Satisfies(x, (a + b)[i]) {
        if i >= |a| {
          assert (a + b)[i] == b[i - |a|];
        }
      }
    }
    if SatisfiesAll(x, a + b) {
      forall i | 0 <= i < |b| ensures Satisfies(x, b[i]) {
        assert (a + b)[|a| + i] == b[i];
      }
      forall i | 0 <= i < |a| ensures Satisfies(x, a[i]) {
        assert (a + b)[i] == a[i];
      }
    }
  }

  /** One step of the filter. */
  lemma FilterUnfold(rows: seq<Row>, conditions: seq<Condition>)
    requires |rows| > 0
    ensures ApplyWhereConditions(rows, conditions)
            == (if SatisfiesAll(rows[0], conditions) then [rows[0]] else []) + ApplyWhereConditions(rows[1..], conditions)
  {
  }

  // ---------------------------------------------------------------------------
  // SORT
  // ---------------------------------------------------------------------------

  datatype Direction = Asc | Desc

  datatype SortKey = SortKey(field: string, direction: Direction)

  /** `String(value)` */
  function Show(v: Value): string {
    match v
    case Str(s) => s
    case Num(n) => ShowInt(n)
    case Bool(b) => if b then "true" else "false"
    case Undefined => "undefined"
  }

  /**
   * One key's comparison before its direction: `localeCompare` for two
   * strings, the difference for two numbers, and `localeCompare` of the
   * string forms otherwise.
   */
  function CompareValues(lc: (string, string) -> int, a: Value, b: Value): int {
    if a.Str? && b.Str? then lc(a.s, b.s)
    else if a.Num? && b.Num? then a.n - b.n
    else lc(Show(a), Show(b))
  }

  /** One key's comparison, negated for a descending key. */
  function CompareKey(lc: (string, string) -> int, key: SortKey, a: Row, b: Row): int {
    var c := CompareValues(lc, Field(a, key.field), Field(b, key.field));
    if key.direction == Desc then -c else c
  }

  /** The comparator handed to `sort`: the first key that tells the records apart decides. */
  function Compare(lc: (string, string) -> int, keys: seq<SortKey>, a: Row, b: Row): (r: int)
    ensures r == 0 <==> forall i :: 0 <= i < |keys| ==> CompareKey(lc, keys[i], a, b) == 0
  {
    if |keys| == 0 then 0
    else
      var c := CompareKey(lc, keys[0], a, b);
      if c != 0 then c
      else
        var r := Compare(lc, keys[1..], a, b);
        assert forall i :: 1 <= i < |keys| ==> keys[i] == keys[1..][i - 1];
        r
  }

  function Comparator(lc: (string, string) -> int, keys: seq<SortKey>): (Row, Row) -> int {
    (a: Row, b: Row) => Compare(lc, keys, a, b)
  }

  /** A copy of the records in the order the keys give. */
  function ApplySort(lc: (string, string) -> int, rows: seq<Row>, keys: seq<SortKey>): (r: seq<Row>)
    ensures multiset(r) == multiset(rows)
    ensures |r| == |rows|
  {
    Arrays.SortBy(rows, Comparator(lc, keys))
  }

  /** The order is lexicographic: when the keys before `i` tie, key `i` decides. */
  lemma {:induction false} KeyDecides(lc: (string, string) -> int, keys: seq<SortKey>, i: nat, a: Row, b: Row)
    requires i < |keys|
    requires forall j :: 0 <= j < i ==> CompareKey(lc, keys[j], a, b) == 0
    requires CompareKey(lc, keys[i], a, b) != 0
    ensures Compare(lc, keys, a, b) == CompareKey(lc, keys[i], a, b)
  {
    if i > 0 {
      assert CompareKey(lc, keys[0], a, b) == 0;
      assert forall j :: 0 <= j < i - 1 ==> keys[1..][j] == keys[j + 1];
      KeyDecides(lc, keys[1..], i - 1, a, b);
    }
  }

  /** No keys leave the records as they are. */
  lemma SortNothing(lc: (string, string) -> int, rows: seq<Row>)
    ensures ApplySort(lc, rows, []) == rows
  {
    Arrays.SortByOfSorted(rows, Comparator(lc, []));
  }

  /** With a consistent `localeCompare`, the result is ordered by the keys. */
  lemma ApplySortSorted(lc: (string, string) -> int, rows: seq<Row>, keys: seq<SortKey>)
    requires Arrays.TotalPreorder(lc)
    ensures Arrays.Sorted(ApplySort(lc, rows, keys), Comparator(lc, keys))
  {
    ComparatorPreorder(lc, keys);
    Arrays.SortBySorted(rows, Comparator(lc, keys));
  }

  /**
   * The sort is stable: the records the keys tie with any record `x` come
   * out in the order they went in.
   */
  lemma ApplySortStable(lc: (string, string) -> int, rows: seq<Row>, keys: seq<SortKey>, x: Row)
    requires Arrays.TotalPreorder(lc)
    ensures Arrays.Ties(ApplySort(lc, rows, keys), x, Comparator(lc, keys)) == Arrays.Ties(rows, x, Comparator(lc, keys))
  {
    ComparatorPreorder(lc, keys);
    Arrays.SortByStable(rows, x, Comparator(lc, keys));
  }

  /** Sorting sorted records again changes nothing. */
  lemma ApplySortIdempotent(lc: (string, string) -> int, rows: seq<Row>, keys: seq<SortKey>)
    requires Arrays.TotalPreorder(lc)
    ensures ApplySort(lc, ApplySort(lc, rows, keys), keys) == ApplySort(lc, rows, keys)
  {
    ComparatorPreorder(lc, keys);
    Arrays.SortByIdempotent(rows, Comparator(lc, keys));
  }

  /**
   * The comparator is consistent over verse records. It would not be over
   * records whose field mixes numbers and strings: 10 < "5" and "5" < 9 as
   * strings, but 9 < 10 as numbers.
   */
  lemma ComparatorPreorder(lc: (string, string) -> int, keys: seq<SortKey>)
    requires Arrays.TotalPreorder(lc)
    ensures Arrays.TotalPreorder(Comparator(lc, keys))
  {
    var cmp := Comparator(lc, keys);
    forall a: Row, b: Row ensures cmp(a, b) < 0 <==> cmp(b, a) > 0 {
      CompareFlip(lc, keys, a, b);
    }
    forall a: Row, b: Row, c: Row | cmp(a, b) <= 0 && cmp(b, c) <= 0 ensures cmp(a, c) <= 0 {
      CompareTransitive(lc, keys, a, b, c);
    }
  }

  /** Values of one type compare either as numbers or as their string forms. */
  lemma SameKindCompare(lc: (string, string) -> int, a: Value, b: Value)
    requires KindOf(a) == KindOf(b)
    ensures CompareValues(lc, a, b) == if a.Num? then a.n - b.n else lc(Show(a), Show(b))
  {
  }

  lemma KeyFlip(lc: (string, string) -> int, key: SortKey, a: Row, b: Row)
    requires Arrays.TotalPreorder(lc)
    ensures CompareKey(lc, key, a, b) < 0 <==> CompareKey(lc, key, b, a) > 0
    ensures CompareKey(lc, key, a, b) == 0 <==> CompareKey(lc, key, b, a) == 0
  {
    var x, y := Field(a, key.field), Field(b, key.field);
    FieldSameKind(a, b, key.field);
    SameKindCompare(lc, x, y);
    SameKindCompare(lc, y, x);
    if !x.Num? {
      assert lc(Show(x), Show(y)) < 0 <==> lc(Show(y), Show(x)) > 0;
      assert lc(Show(y), Show(x)) < 0 <==> lc(Show(x), Show(y)) > 0;
    }
  }

  lemma KeyTransitive(lc: (string, string) -> int, key: SortKey, a: Row, b: Row, c: Row)
    requires Arrays.TotalPreorder(lc)
    requires CompareKey(lc, key, a, b) <= 0 && CompareKey(lc, key, b, c) <= 0
    ensures CompareKey(lc, key, a, c) <= 0
  {
    var x, y, z := Field(a, key.field), Field(b, key.field), Field(c, key.field);
    FieldSameKind(a, b, key.field);
    FieldSameKind(b, c, key.field);
    SameKindCompare(lc, x, y);
    SameKindCompare(lc, y, z);
    SameKindCompare(lc, x, z);
    SameKindCompare(lc, y, x);
    SameKindCompare(lc, z, y);
    SameKindCompare(lc, z, x);
    if !x.Num? {
      var sx, sy, sz := Show(x), Show(y), Show(z);
      if key.direction == Asc {
        assert lc(sx, sz) <= 0;
      } else {
        // descending: z before y before x in ascending terms
        assert lc(sx, sy) >= 0 && lc(sy, sz) >= 0;
        assert lc(sy, sx) <= 0 by { assert lc(sy, sx) > 0 <==> lc(sx, sy) < 0; }
        assert lc(sz, sy) <= 0 by { assert lc(sz, sy) > 0 <==> lc(sy, sz) < 0; }
        assert lc(sz, sx) <= 0;
        assert lc(sx, sz) >= 0 by { assert lc(sx, sz) < 0 <==> lc(sz, sx) > 0; }
      }
    }
  }

  /** Swapping the records flips the sign of the comparison. */
  lemma {:induction false} CompareFlip(lc: (string, string) -> int, keys: seq<SortKey>, a: Row, b: Row)
    requires Arrays.TotalPreorder(lc)
    ensures Compare(lc, keys, a, b) < 0 <==> Compare(lc, keys, b, a) > 0
    ensures Compare(lc, keys, a, b) == 0 <==> Compare(lc, keys, b, a) == 0
  {
    if |keys| > 0 {
      KeyFlip(lc, keys[0], a, b);
      KeyFlip(lc, keys[0], b, a);
      CompareFlip(lc, keys[1..], a, b);
    }
  }

  /** "Not after" is transitive. */
  lemma {:induction false} CompareTransitive(lc: (string, string) -> int, keys: seq<SortKey>, a: Row, b: Row, c: Row)
    requires Arrays.TotalPreorder(lc)
    requires Compare(lc, keys, a, b) <= 0 && Compare(lc, keys, b, c) <= 0
    ensures Compare(lc, keys, a, c) <= 0
  {
    if |keys| > 0 {
      var k := keys[0];
      KeyFlip(lc, k, a, b);
      KeyFlip(lc, k, b, c);
      KeyFlip(lc, k, a, c);
      var ab, bc, ac := CompareKey(lc, k, a, b), CompareKey(lc, k, b, c), CompareKey(lc, k, a, c);
      KeyTransitive(lc, k, a, b, c);
      if ab == 0 && bc == 0 {
        if ac < 0 {
          KeyTransitive(lc, k, c, b, a);
        }
        CompareTransitive(lc, keys[1..], a, b, c);
      } else if ac >= 0 {
        if ab != 0 {
          KeyTransitive(lc, k, b, c, a);
        } else {
          KeyTransitive(lc, k, c, a, b);
        }
      }
    }
  }

  // ---------------------------------------------------------------------------
  // Reading a SORT clause
  // ---------------------------------------------------------------------------

  /** Where the run of word characters starting at `i` ends. */
  function WordEnd(s: string, i: nat): (j: nat)
    requires i <= |s|
    ensures i <= j <= |s|
    ensures forall k :: i <= k < j ==> IsWordChar(s[k])
    ensures j == |s| || !IsWordChar(s[j])
    decreases |s| - i
  {
    if i < |s| && IsWordChar(s[i]) then WordEnd(s, i + 1) else i
  }

  /** Where the run of whitespace starting at `i` ends. */
  function SpaceEnd(s: string, i: nat): (j: nat)
    requires i <= |s|
    ensures i <= j <= |s|
    ensures forall k :: i <= k < j ==> IsWhitespace(s[k])
    ensures j == |s| || !IsWhitespace(s[j])
    decreases |s| - i
  {
    if i < |s| && IsWhitespace(s[i]) then SpaceEnd(s, i + 1) else i
  }

  /**
   * `(\w+)\s+KEYWORD`, case-insensitive, tried at index `i`. Backtracking
   * cannot help: a shorter word would be followed by a word character and a
   * shorter gap by whitespace, so the runs are taken whole.
   */
  function WordBeforeAt(s: string, i: nat, keyword: string): (r: Option<string>)
    requires i <= |s|
    ensures r.Some? ==> |r.value| > 0 && forall k :: 0 <= k < |r.value| ==> IsWordChar(r.value[k])
    ensures r.Some? ==> i < |s| && IsWordChar(s[i])
  {
    var j := WordEnd(s, i);
    var k := SpaceEnd(s, j);
    if j > i && k > j && k + |keyword| <= |s| && Lower(s[k..k + |keyword|]) == keyword then Some(s[i..j])
    else None
  }

  /** The leftmost match of `(\w+)\s+KEYWORD` at or after `i`: its captured word. */
  function WordBefore(s: string, keyword: string, i: nat): (r: Option<string>)
    requires i <= |s|
    ensures r.Some? ==> |r.value| > 0 && forall k :: 0 <= k < |r.value| ==> IsWordChar(r.value[k])
    ensures r.Some? ==> exists k :: i <= k < |s| && IsWordChar(s[k])
    decreases |s| - i
  {
    if i == |s| then None
    else match WordBeforeAt(s, i, keyword)
      case Some(w) => Some(w)
      case None => WordBefore(s, keyword, i + 1)
  }

  /** The leftmost match of `(\w+)` at or after `i`. */
  function FirstWord(s: string, i: nat): (r: Option<string>)
    requires i <= |s|
    ensures r.Some? ==> |r.value| > 0 && forall k :: 0 <= k < |r.value| ==> IsWordChar(r.value[k])
    ensures r.None? <==> forall k :: i <= k < |s| ==> !IsWordChar(s[k])
    decreases |s| - i
  {
    if i == |s| then None
    else if IsWordChar(s[i]) then Some(s[i..WordEnd(s, i)])
    else FirstWord(s, i + 1)
  }

  /** A field name as a clause yields it: word characters, none an upper-case letter. */
  predicate FieldName(f: string) {
    |f| > 0 && forall k :: 0 <= k < |f| ==> IsWordChar(f[k]) && !('A' <= f[k] <= 'Z')
  }

  lemma LowerWordIsFieldName(w: string)
    requires |w| > 0 && forall k :: 0 <= k < |w| ==> IsWordChar(w[k])
    ensures FieldName(Lower(w))
  {
  }

  /** One comma-separated part: `field DESC`, else `field ASC`, else the first word ascending. */
  function ParseSortPart(part: string): (r: Option<SortKey>)
    ensures r.Some? ==> FieldName(r.value.field)
    ensures r.None? <==> forall k :: 0 <= k < |part| ==> !IsWordChar(part[k])
  {
    match WordBefore(part, "desc", 0)
    case Some(w) => LowerWordIsFieldName(w); Some(SortKey(Lower(w), Desc))
    case None =>
      match WordBefore(part, "asc", 0)
      case Some(w) => LowerWordIsFieldName(w); Some(SortKey(Lower(w), Asc))
      case None =>
        match FirstWord(part, 0)
        case Some(w) => LowerWordIsFieldName(w); Some(SortKey(Lower(w), Asc))
        case None => None
  }

  /** The keys of the parts that have a word, in order. */
  function SortKeysOf(parts: seq<string>): (r: seq<SortKey>)
    ensures |r| <= |parts|
    ensures forall k :: 0 <= k < |r| ==> FieldName(r[k].field)
  {
    if |parts| == 0 then []
    else
      var rest := SortKeysOf(parts[1..]);
      var key := ParseSortPart(Trim(parts[0]));
      if key.Some? then KeysCons(key.value, rest); [key.value] + rest
      else rest
  }

  lemma KeysCons(key: SortKey, rest: seq<SortKey>)
    requires FieldName(key.field)
    requires forall k :: 0 <= k < |rest| ==> FieldName(rest[k].field)
    ensures forall k :: 0 <= k < |rest| + 1 ==> FieldName(([key] + rest)[k].field)
  {
    forall k | 0 <= k < |rest| + 1 ensures FieldName(([key] + rest)[k].field) {
      if k > 0 {
        assert ([key] + rest)[k] == rest[k - 1];
      }
    }
  }

  /** `parseSortConditions`: split on commas, trim, read each part. */
  function ParseSortConditions(clause: string): (r: seq<SortKey>)
    ensures forall k :: 0 <= k < |r| ==> FieldName(r[k].field)
  {
    SortKeysOf(Split(clause, {','}))
  }

  /** `field ASC` or `field DESC` */
  function ShowSortKey(key: SortKey): string {
    key.field + (if key.direction == Desc then " DESC" else " ASC")
  }

  function ShowSortKeys(keys: seq<SortKey>): (r: seq<string>)
    ensures |r| == |keys|
    ensures forall k :: 0 <= k < |keys| ==> r[k] == ShowSortKey(keys[k])
  {
    if |keys| == 0 then [] else [ShowSortKey(keys[0])] + ShowSortKeys(keys[1..])
  }

  /** A clause as a user writes it: `f1 DESC, f2 ASC, …` */
  function ShowSortClause(keys: seq<SortKey>): string {
    Join(ShowSortKeys(keys), ", ")
  }

  /** A clause written from keys with field names reads back as those keys. */
  lemma SortClauseRoundTrip(keys: seq<SortKey>)
    requires |keys| > 0
    requires forall k :: 0 <= k < |keys| ==> FieldName(keys[k].field)
    ensures ParseSortConditions(ShowSortClause(keys)) == keys
  {
    ClauseIsJoin(keys);
    SplitClause(keys);
    ReadClauseParts(keys, ShowSortClause(keys));
  }

  lemma ReadClauseParts(keys: seq<SortKey>, clause: string)
    requires |keys| > 0
    requires forall k :: 0 <= k < |keys| ==> FieldName(keys[k].field)
    requires Split(clause, {','}) == ClauseParts(keys)
    ensures ParseSortConditions(clause) == keys
  {
    PartsRead(keys);
  }

  /** The pieces between the commas of a shown clause read back as the keys. */
  lemma PartsRead(keys: seq<SortKey>)
    requires |keys| > 0
    requires forall k :: 0 <= k < |keys| ==> FieldName(keys[k].field)
    ensures SortKeysOf(ClauseParts(keys)) == keys
  {
    ClausePartsTrim(keys);
    SortKeysOfParts(keys, ClauseParts(keys));
  }

  lemma SplitClause(keys: seq<SortKey>)
    requires |keys| > 0
    requires forall k :: 0 <= k < |keys| ==> FieldName(keys[k].field)
    ensures Split(Join(ClauseParts(keys), ","), {','}) == ClauseParts(keys)
  {
    ClausePartsAvoid(keys);
    SplitJoin(ClauseParts(keys), ',', {','});
  }

  /** The pieces between the commas of a shown clause. */
  function ClauseParts(keys: seq<SortKey>): (r: seq<string>)
    requires |keys| > 0
    ensures |r| == |keys|
  {
    var shown := ShowSortKeys(keys);
    [shown[0]] + SpacedParts(shown[1..])
  }

  lemma ClauseIsJoin(keys: seq<SortKey>)
    requires |keys| > 0
    ensures ShowSortClause(keys) == Join(ClauseParts(keys), ",")
  {
    var shown := ShowSortKeys(keys);
    JoinSpaced(shown, "");
    assert "" + shown[0] == shown[0];
    assert "" + Join(shown, ", ") == Join(shown, ", ");
  }

  lemma ClausePartsAvoid(keys: seq<SortKey>)
    requires |keys| > 0
    requires forall k :: 0 <= k < |keys| ==> FieldName(keys[k].field)
    ensures forall k :: 0 <= k < |keys| ==> Avoids(ClauseParts(keys)[k], {','})
  {
    var parts := ClauseParts(keys);
    forall k | 0 <= k < |parts| ensures Avoids(parts[k], {','}) {
      ShownAvoids(keys[k], ClausePad(keys, k));
    }
  }

  lemma ClausePartsTrim(keys: seq<SortKey>)
    requires |keys| > 0
    requires forall k :: 0 <= k < |keys| ==> FieldName(keys[k].field)
    ensures TrimsTo(ClauseParts(keys), keys)
  {
    var parts := ClauseParts(keys);
    forall k | 0 <= k < |parts| ensures Trim(parts[k]) == ShowSortKey(keys[k]) {
      ShownTrims(keys[k], ClausePad(keys, k));
    }
  }

  /** What precedes the `k`-th shown key between the commas: nothing for the first, a space after. */
  function ClausePad(keys: seq<SortKey>, k: nat): (pad: string)
    requires k < |keys|
    ensures pad == "" || pad == " "
    ensures ClauseParts(keys)[k] == pad + ShowSortKey(keys[k])
  {
    var shown := ShowSortKeys(keys);
    if k == 0 then
      assert ClauseParts(keys)[0] == "" + shown[0];
      ""
    else
      assert ClauseParts(keys)[k] == SpacedParts(shown[1..])[k - 1];
      " "
  }

  /** Each shown key after the first, with the space that follows its comma. */
  function SpacedParts(shown: seq<string>): (r: seq<string>)
    ensures |r| == |shown|
    ensures forall k :: 0 <= k < |r| ==> r[k] == " " + shown[k]
  {
    if |shown| == 0 then [] else [" " + shown[0]] + SpacedParts(shown[1..])
  }

  /** Splitting `a, b, c` on commas leaves the space in front of every part after the first. */
  lemma {:induction false} JoinSpaced(shown: seq<string>, pad: string)
    requires |shown| > 0
    ensures Join([pad + shown[0]] + SpacedParts(shown[1..]), ",") == pad + Join(shown, ", ")
    decreases |shown|
  {
    var l := [pad + shown[0]] + SpacedParts(shown[1..]);
    if |shown| > 1 {
      JoinSpaced(shown[1..], " ");
      assert shown[1..][1..] == shown[2..];
      assert l[1..] == SpacedParts(shown[1..]) == [" " + shown[1]] + SpacedParts(shown[2..]);
      var tail := Join(shown[1..], ", ");
      assert Join(l, ",") == (pad + shown[0]) + "," + (" " + tail);
      assert Join(shown, ", ") == shown[0] + ", " + tail;
    }
  }

  /** A shown key, with or without a space before it, has no comma. */
  lemma ShownAvoids(key: SortKey, pad: string)
    requires FieldName(key.field)
    requires pad == "" || pad == " "
    ensures Avoids(pad + ShowSortKey(key), {','})
  {
    var t := pad + ShowSortKey(key);
    var tail := if key.direction == Desc then " DESC" else " ASC";
    assert t == pad + key.field + tail;
    forall i | 0 <= i < |t| ensures t[i] != ',' {
      if i < |pad| {
        assert t[i] == pad[i];
      } else if i < |pad| + |key.field| {
        assert t[i] == key.field[i - |pad|];
      } else {
        assert t[i] == tail[i - |pad| - |key.field|];
      }
    }
  }

  lemma ShownTrims(key: SortKey, pad: string)
    requires FieldName(key.field)
    requires pad == "" || pad == " "
    ensures Trim(pad + ShowSortKey(key)) == ShowSortKey(key)
  {
    var s := ShowSortKey(key);
    assert s[0] == key.field[0];
    assert s[|s| - 1] == 'C';
    assert pad + s + "" == pad + s;
    TrimAround(pad, s, "");
  }

  /** Each part trims to the shown key at its position. */
  predicate TrimsTo(parts: seq<string>, keys: seq<SortKey>) {
    |parts| == |keys| && forall k :: 0 <= k < |parts| ==> Trim(parts[k]) == ShowSortKey(keys[k])
  }

  lemma {:induction false} SortKeysOfParts(keys: seq<SortKey>, parts: seq<string>)
    requires forall k :: 0 <= k < |keys| ==> FieldName(keys[k].field)
    requires TrimsTo(parts, keys)
    ensures SortKeysOf(parts) == keys
  {
    if |keys| > 0 {
      assert TrimsTo(parts[1..], keys[1..]);
      SortKeysOfParts(keys[1..], parts[1..]);
      SortPartRoundTrip(keys[0]);
    }
  }

  /** `field DESC` reads as a descending key and `field ASC` as an ascending one. */
  lemma SortPartRoundTrip(key: SortKey)
    requires FieldName(key.field)
    ensures ParseSortPart(ShowSortKey(key)) == Some(key)
  {
    if key.direction == Desc {
      SortPartDesc(key.field);
    } else {
      SortPartAsc(key.field);
    }
  }

  lemma SortPartDesc(f: string)
    requires FieldName(f)
    ensures ParseSortPart(f + " DESC") == Some(SortKey(f, Desc))
  {
    var s := f + " DESC";
    assert Lower(f) == f;
    WordRun(s, f);
    assert s[|f| + 1..|f| + 5] == "DESC";
    assert Lower("DESC") == "desc";
    assert WordBeforeAt(s, 0, "desc") == Some(f);
  }

  lemma SortPartAsc(f: string)
    requires FieldName(f)
    ensures ParseSortPart(f + " ASC") == Some(SortKey(f, Asc))
  {
    var s := f + " ASC";
    assert Lower(f) == f;
    WordRun(s, f);
    assert s[|f| + 1..|f| + 4] == "ASC";
    assert Lower("ASC") == "asc";
    assert WordBeforeAt(s, 0, "asc") == Some(f);
    NoDescAfter(s, f, 0);
  }

  /** In `f KEYWORD`, every word run inside `f` ends at the space. */
  lemma WordRun(s: string, f: string)
    requires FieldName(f) && |s| > |f| + 1 && s[..|f|] == f && s[|f|] == ' ' && !IsWhitespace(s[|f| + 1])
    ensures forall i :: 0 <= i < |f| ==> WordEnd(s, i) == |f|
    ensures SpaceEnd(s, |f|) == |f| + 1
  {
    forall i | 0 <= i < |f| ensures WordEnd(s, i) == |f| {
      WordEndInside(s, f, i);
    }
    assert SpaceEnd(s, |f| + 1) == |f| + 1;
  }

  lemma {:induction false} WordEndInside(s: string, f: string, i: nat)
    requires FieldName(f) && |s| > |f| && s[..|f|] == f && s[|f|] == ' '
    requires i <= |f|
    ensures WordEnd(s, i) == |f|
    decreases |f| - i
  {
    if i < |f| {
      assert s[i] == f[i];
      WordEndInside(s, f, i + 1);
    }
  }

  /** `f ASC` holds no `\w+\s+desc`: too short where a word precedes the space, no space after. */
  lemma {:induction false} NoDescAfter(s: string, f: string, i: nat)
    requires FieldName(f) && s == f + " ASC"
    requires i <= |s|
    requires forall j :: 0 <= j < |f| ==> WordEnd(s, j) == |f|
    requires SpaceEnd(s, |f|) == |f| + 1
    ensures WordBefore(s, "desc", i).None?
    decreases |s| - i
  {
    if i < |s| {
      if i > |f| {
        var j := WordEnd(s, i);
        assert forall m :: |f| < m < |s| ==> !IsWhitespace(s[m]) by {
          assert s[|f| + 1..] == "ASC";
        }
      }
      assert WordBeforeAt(s, i, "desc").None?;
      NoDescAfter(s, f, i + 1);
    }
  }

  // ---------------------------------------------------------------------------
  // Testament and category
  // ---------------------------------------------------------------------------

  const OldTestamentBooks: seq<string> := [
    "Genesis", "Exodus", "Leviticus", "Numbers", "Deuteronomy",
    "Joshua", "Judges", "Ruth", "1 Samuel", "2 Samuel",
    "1 Kings", "2 Kings", "1 Chronicles", "2 Chronicles",
    "Ezra", "Nehemiah", "Esther", "Job", "Psalms",
    "Proverbs", "Ecclesiastes", "Song of Solomon", "Isaiah",
    "Jeremiah", "Lamentations", "Ezekiel", "Daniel",
    "Hosea", "Joel", "Amos", "Obadiah", "Jonah",
    "Micah", "Nahum", "Habakkuk", "Zephaniah", "Haggai",
    "Zechariah", "Malachi"
  ]

  /** The category object's Old Testament entries, in the order they are written. */
  const OldTestamentEntries: seq<(string, string)> := [
    ("Genesis", "Law"), ("Exodus", "Law"), ("Leviticus", "Law"), ("Numbers", "Law"), ("Deuteronomy", "Law"),
    ("Joshua", "Historical"), ("Judges", "Historical"), ("Ruth", "Historical"), ("1 Samuel", "Historical"),
    ("2 Samuel", "Historical"), ("1 Kings", "Historical"), ("2 Kings", "Historical"),
    ("1 Chronicles", "Historical"), ("2 Chronicles", "Historical"), ("Ezra", "Historical"),
    ("Nehemiah", "Historical"), ("Esther", "Historical"), ("Job", "Wisdom"), ("Psalms", "Wisdom"),
    ("Proverbs", "Wisdom"), ("Ecclesiastes", "Wisdom"), ("Song of Solomon", "Wisdom"),
    ("Isaiah", "Prophetic"), ("Jeremiah", "Prophetic"), ("Lamentations", "Prophetic"),
    ("Ezekiel", "Prophetic"), ("Daniel", "Prophetic"), ("Hosea", "Prophetic"), ("Joel", "Prophetic"),
    ("Amos", "Prophetic"), ("Obadiah", "Prophetic"), ("Jonah", "Prophetic"), ("Micah", "Prophetic"),
    ("Nahum", "Prophetic"), ("Habakkuk", "Prophetic"), ("Zephaniah", "Prophetic"), ("Haggai", "Prophetic"),
    ("Zechariah", "Prophetic"), ("Malachi", "Prophetic")
  ]

  /** The category object's New Testament entries, in the order they are written. */
  const NewTestamentEntries: seq<(string, string)> := [
    ("Matthew", "Gospel"), ("Mark", "Gospel"), ("Luke", "Gospel"), ("John", "Gospel"), ("Acts", "Historical"),
    ("Romans", "Epistle"), ("1 Corinthians", "Epistle"), ("2 Corinthians", "Epistle"),
    ("Galatians", "Epistle"), ("Ephesians", "Epistle"), ("Philippians", "Epistle"), ("Colossians", "Epistle"),
    ("1 Thessalonians", "Epistle"), ("2 Thessalonians", "Epistle"), ("1 Timothy", "Epistle"),
    ("2 Timothy", "Epistle"), ("Titus", "Epistle"), ("Philemon", "Epistle"), ("Hebrews", "Epistle"),
    ("James", "Epistle"), ("1 Peter", "Epistle"), ("2 Peter", "Epistle"), ("1 John", "Epistle"),
    ("2 John", "Epistle"), ("3 John", "Epistle"), ("Jude", "Epistle"), ("Revelation", "Apocalyptic")
  ]

  const BookCategories: seq<(string, string)> := OldTestamentEntries + NewTestamentEntries

  const OldTestamentCategories: set<string> := {"Law", "Historical", "Wisdom", "Prophetic"}

  /** Any book outside the Old Testament list, known or not, counts as New Testament. */
  function GetTestament(book: string): (r: string)
    ensures r == "Old Testament" <==> book in OldTestamentBooks
    ensures r == "Old Testament" || r == "New Testament"
  {
    if book in OldTestamentBooks then "Old Testament" else "New Testament"
  }

  /** The category an entry of `table` gives `book`: `table[book]` on the object. */
  function CategoryIn(table: seq<(string, string)>, book: string): (r: Option<string>)
    ensures r.None? <==> forall i :: 0 <= i < |table| ==> table[i].0 != book
    ensures r.Some? ==> exists i :: 0 <= i < |table| && table[i] == (book, r.value)
                                    && forall j :: 0 <= j < i ==> table[j].0 != book
  {
    if |table| == 0 then None
    else if table[0].0 == book then Some(table[0].1)
    else
      var r := CategoryIn(table[1..], book);
      assert forall i :: 1 <= i < |table| ==> table[i] == table[1..][i - 1];
      FirstEntryShift(table, book, r);
      r
  }

  lemma FirstEntryShift(table: seq<(string, string)>, book: string, r: Option<string>)
    requires |table| > 0 && table[0].0 != book
    requires r.Some? ==> exists i :: 0 <= i < |table[1..]| && table[1..][i] == (book, r.value)
                                     && forall j :: 0 <= j < i ==> table[1..][j].0 != book
    ensures r.Some? ==> exists i :: 0 <= i < |table| && table[i] == (book, r.value)
                                    && forall j :: 0 <= j < i ==> table[j].0 != book
  {
    if r.Some? {
      var i :| 0 <= i < |table[1..]| && table[1..][i] == (book, r.value)
               && forall j :: 0 <= j < i ==> table[1..][j].0 != book;
      assert table[i + 1] == (book, r.value);
      assert forall j :: 1 <= j < i + 1 ==> table[j] == table[1..][j - 1];
    }
  }

  /** The category of a known book, `Unknown` otherwise. */
  function GetBookCategory(book: string): (r: string)
    ensures CategoryIn(BookCategories, book).Some? ==> r == CategoryIn(BookCategories, book).value
    ensures CategoryIn(BookCategories, book).None? ==> r == "Unknown"
  {
    match CategoryIn(BookCategories, book)
    case Some(c) => c
    case None => "Unknown"
  }

  function BookNames(table: seq<(string, string)>): (r: seq<string>)
    ensures |r| == |table| && forall i :: 0 <= i < |table| ==> r[i] == table[i].0
  {
    seq(|table|, i requires 0 <= i < |table| => table[i].0)
  }

  /**
   * The tables agree with the canonical book order: the Old Testament list
   * is its first 39 books, the category object lists the 66 in that order,
   * and each Old Testament entry carries an Old Testament category.
   */
  lemma TablesAgree()
    ensures OldTestamentBooks == Store.ChronologicalBookOrder[..39]
    ensures BookNames(BookCategories) == Store.ChronologicalBookOrder
    ensures forall i :: 0 <= i < 39 ==> BookCategories[i].0 == OldTestamentBooks[i]
    ensures forall i :: 0 <= i < 39 ==> BookCategories[i].1 in OldTestamentCategories
  {
    OldEntriesAgree();
    NamesAgree();
  }

  lemma OldEntriesAgree()
    ensures OldTestamentBooks == Store.ChronologicalBookOrder[..39]
    ensures forall i :: 0 <= i < 39 ==> BookCategories[i].0 == OldTestamentBooks[i]
    ensures forall i :: 0 <= i < 39 ==> BookCategories[i].1 in OldTestamentCategories
  {
    OldHalf();
    OldNames();
    OldCategories();
    assert forall i :: 0 <= i < 39 ==> BookCategories[i] == OldTestamentEntries[i];
  }

  /** The Old Testament list is the first half of the canonical order. */
  lemma OldHalf()
    ensures OldTestamentBooks == Store.ChronologicalBookOrder[..39]
  {
    assert OldTestamentBooks == Store.OldTestamentOrder;
  }

  lemma OldCategories()
    ensures forall i :: 0 <= i < 39 ==> OldTestamentEntries[i].1 in OldTestamentCategories
  {
  }

  lemma NamesAgree()
    ensures BookNames(BookCategories) == Store.ChronologicalBookOrder
  {
    OldNames();
    OldHalf();
    NewNames();
    BookNamesAppend(OldTestamentEntries, NewTestamentEntries);
  }

  lemma OldNames()
    ensures BookNames(OldTestamentEntries) == OldTestamentBooks
  {
    OldNamesLow();
    OldNamesHigh();
  }

  lemma OldNamesLow()
    ensures |OldTestamentEntries| == |OldTestamentBooks| == 39
    ensures forall i :: 0 <= i < 20 ==> OldTestamentEntries[i].0 == OldTestamentBooks[i]
  {
  }

  lemma OldNamesHigh()
    ensures forall i :: 20 <= i < 39 ==> OldTestamentEntries[i].0 == OldTestamentBooks[i]
  {
  }

  lemma NewNames()
    ensures BookNames(NewTestamentEntries) == Store.NewTestamentOrder
  {
    assert forall i :: 0 <= i < 27 ==> NewTestamentEntries[i].0 == Store.NewTestamentOrder[i];
  }

  lemma BookNamesAppend(a: seq<(string, string)>, b: seq<(string, string)>)
    ensures BookNames(a + b) == BookNames(a) + BookNames(b)
  {
  }

  /** A book counts as Old Testament exactly when it is among the first 39 of the canonical order. */
  lemma TestamentByOrder(book: string)
    ensures GetTestament(book) == "Old Testament" <==> book in Store.ChronologicalBookOrder[..39]
  {
    TablesAgree();
  }

  /**
   * Testament and category agree: an Old Testament book has an Old
   * Testament category, and a book the category object does not know is
   * New Testament.
   */
  lemma TestamentMatchesCategory(book: string)
    ensures GetTestament(book) == "Old Testament" ==> GetBookCategory(book) in OldTestamentCategories
    ensures GetBookCategory(book) == "Unknown" ==> GetTestament(book) == "New Testament"
  {
    if book in OldTestamentBooks {
      OldBookCategory(book);
      UnknownNotOld(GetBookCategory(book));
    }
  }

  lemma OldBookCategory(book: string)
    requires book in OldTestamentBooks
    ensures CategoryIn(BookCategories, book).Some? && CategoryIn(BookCategories, book).value in OldTestamentCategories
  {
    OldEntriesAgree();
    OldPrefixCategory(BookCategories, OldTestamentBooks, book);
  }

  lemma UnknownNotOld(c: string)
    requires c in OldTestamentCategories
    ensures c != "Unknown"
  {
  }

  /** A table whose first entries are the Old Testament books, with Old Testament categories. */
  lemma OldPrefixCategory(table: seq<(string, string)>, oldBooks: seq<string>, book: string)
    requires |oldBooks| <= |table|
    requires forall i :: 0 <= i < |oldBooks| ==> table[i].0 == oldBooks[i]
    requires forall i :: 0 <= i < |oldBooks| ==> table[i].1 in OldTestamentCategories
    ensures book in oldBooks ==> CategoryIn(table, book).Some? && CategoryIn(table, book).value in OldTestamentCategories
  {
    if book in oldBooks {
      var i :| 0 <= i < |oldBooks| && oldBooks[i] == book;
      CategoryWithin(table, book, i);
      var k :| 0 <= k <= i && table[k] == (book, CategoryIn(table, book).value);
      assert table[k].1 in OldTestamentCategories;
    }
  }

  /** A book listed at `i` gets the category of its first entry, which is at `i` or before. */
  lemma CategoryWithin(table: seq<(string, string)>, book: string, i: nat)
    requires i < |table| && table[i].0 == book
    ensures CategoryIn(table, book).Some?
    ensures exists k :: 0 <= k <= i && table[k] == (book, CategoryIn(table, book).value)
  {
    var r := CategoryIn(table, book);
    var k :| 0 <= k < |table| && table[k] == (book, r.value) && forall j :: 0 <= j < k ==> table[j].0 != book;
    assert k <= i;
  }
}

=== FILE: gateway.dfy ===
/**
 * Links to Bible Gateway: the translation code the site expects, and the
 * passage URL, whose search term is the reference escaped by
 * `encodeURIComponent` (section 19.2.6.5 of ECMA-262: UTF-8, every byte
 * outside the unreserved set written as `%` and two upper-case hex digits).
 *
 * `DecodeUriComponent` is the inverse the site applies to the search term;
 * it is what says that the link searches for exactly the reference. Like
 * the Decode operation of section 19.2.6.1.2 of ECMA-262, it throws on a
 * byte run that is not the shortest UTF-8 form of a scalar value.
 */
module Gateway {
  import opened Wrappers
  import opened Text

  // ---------------------------------------------------------------------------
  // encodeURIComponent
  // ---------------------------------------------------------------------------

  /** The characters `encodeURIComponent` leaves alone. */
  predicate IsUnreserved(c: char) {
    IsAsciiLetter(c) || IsDigit(c) || c in "-_.!~*'()"
  }

  /** The UTF-8 bytes of a Unicode scalar value. */
  function Utf8(c: char): (r: seq<nat>)
    ensures 1 <= |r| <= 4 && forall i :: 0 <= i < |r| ==> r[i] < 256
  {
    var cp := c as int;
    if cp < 0x80 then [cp]
    else if cp < 0x800 then [0xC0 + cp / 64, 0x80 + cp % 64]
    else if cp < 0x1_0000 then [0xE0 + cp / 4096, 0x80 + (cp / 64) % 64, 0x80 + cp % 64]
    else [0xF0 + cp / 262144, 0x80 + (cp / 4096) % 64, 0x80 + (cp / 64) % 64, 0x80 + cp % 64]
  }

  function HexChar(n: nat): (c: char)
    requires n < 16
  {
    if n < 10 then ('0' as int + n) as char else ('A' as int + n - 10) as char
  }

  /** `%XX` for one byte. */
  function PercentByte(b: nat): string
    requires b < 256
  {
    ['%', HexChar(b / 16), HexChar(b % 16)]
  }

  function PercentBytes(bs: seq<nat>): (r: string)
    requires forall i :: 0 <= i < |bs| ==> bs[i] < 256
    ensures |r| == 3 * |bs|
  {
    if |bs| == 0 then "" else PercentByte(bs[0]) + PercentBytes(bs[1..])
  }

  function EncodeChar(c: char): string {
    if IsUnreserved(c) then [c] else PercentBytes(Utf8(c))
  }

  /** `encodeURIComponent(s)`: only unreserved characters and `%` remain. */
  function EncodeUriComponent(s: string): (r: string)
    ensures forall i :: 0 <= i < |r| ==> IsUnreserved(r[i]) || r[i] == '%'
  {
    if |s| == 0 then ""
    else
      var e := EncodeChar(s[0]);
      assert forall i :: 0 <= i < |e| ==> IsUnreserved(e[i]) || e[i] == '%' by {
        if !IsUnreserved(s[0]) {
          PercentBytesSafe(Utf8(s[0]));
        }
      }
      e + EncodeUriComponent(s[1..])
  }

  lemma {:induction false} PercentBytesSafe(bs: seq<nat>)
    requires forall i :: 0 <= i < |bs| ==> bs[i] < 256
    ensures forall i :: 0 <= i < |PercentBytes(bs)| ==> IsUnreserved(PercentBytes(bs)[i]) || PercentBytes(bs)[i] == '%'
  {
    if |bs| > 0 {
      PercentBytesSafe(bs[1..]);
      var p := PercentByte(bs[0]);
      assert PercentBytes(bs) == p + PercentBytes(bs[1..]);
      assert IsUnreserved(p[1]) && IsUnreserved(p[2]);
    }
  }

  // ---------------------------------------------------------------------------
  // decodeURIComponent
  // ---------------------------------------------------------------------------

  /** The value of a hex digit in either case. */
  function HexValue(c: char): Option<nat> {
    if IsDigit(c) then Some(c as int - '0' as int)
    else if 'A' <= c <= 'F' then Some(c as int - 'A' as int + 10)
    else if 'a' <= c <= 'f' then Some(c as int - 'a' as int + 10)
    else None
  }

  /** The byte written as `%XX` at position `i`. */
  function ByteAt(s: string, i: nat): (r: Option<nat>)
    ensures r.Some? ==> i + 3 <= |s| && r.value < 256
  {
    if i + 3 <= |s| && s[i] == '%' && HexValue(s[i + 1]).Some? && HexValue(s[i + 2]).Some? then
      var hi := HexValue(s[i + 1]).value;
      var lo := HexValue(s[i + 2]).value;
      assert hi < 16 && lo < 16;
      Some(16 * hi + lo)
    else None
  }

  /** A continuation byte `10xxxxxx` at position `i`: its six payload bits. */
  function ContinuationAt(s: string, i: nat): (r: Option<nat>)
    ensures r.Some? ==> i + 3 <= |s| && r.value < 64
  {
    match ByteAt(s, i)
    case Some(b) => if 0x80 <= b < 0xC0 then Some(b - 0x80) else None
    case None => None
  }

  /** A code point becomes a character only if it is a Unicode scalar value. */
  function ScalarChar(cp: int): Option<char> {
    if 0 <= cp < 0xD800 || 0xE000 <= cp < 0x11_0000 then Some(cp as char) else None
  }

  /**
   * A code point read from `n` bytes becomes a character only if it needs
   * them: an overlong form, below `least`, throws like a non-scalar value.
   */
  function Shortest(cp: int, least: int): (r: Option<char>)
    ensures r.Some? <==> least <= cp && ScalarChar(cp).Some?
  {
    if cp < least then None else ScalarChar(cp)
  }

  function Width(c: Option<char>, n: nat): Option<(char, nat)> {
    if c.Some? then Some((c.value, n)) else None
  }

  function Prefixed(c: char, t: Option<string>): Option<string> {
    if t.Some? then Some([c] + t.value) else None
  }

  /**
   * One escaped character at the start of `s`, and how many characters of
   * `s` it took.
   */
  function DecodeEscape(s: string): (r: Option<(char, nat)>)
    ensures r.Some? ==> 3 <= r.value.1 <= |s|
    ensures r.Some? ==> r.value.1 == 3 * |Utf8(r.value.0)|
  {
    match ByteAt(s, 0)
    case None => None
    case Some(b0) =>
      if b0 < 0x80 then
        Width(ScalarChar(b0), 3)
      else if 0xC0 <= b0 < 0xE0 then
        match ContinuationAt(s, 3)
        case None => None
        case Some(b1) => Width(Shortest((b0 - 0xC0) * 64 + b1, 0x80), 6)
      else if 0xE0 <= b0 < 0xF0 then
        match (ContinuationAt(s, 3), ContinuationAt(s, 6))
        case (Some(b1), Some(b2)) => Width(Shortest((b0 - 0xE0) * 4096 + b1 * 64 + b2, 0x800), 9)
        case _ => None
      else if 0xF0 <= b0 < 0xF8 then
        match (ContinuationAt(s, 3), ContinuationAt(s, 6), ContinuationAt(s, 9))
        case (Some(b1), Some(b2), Some(b3)) =>
          Width(Shortest((b0 - 0xF0) * 262144 + b1 * 4096 + b2 * 64 + b3, 0x1_0000), 12)
        case _ => None
      else None
  }

  /** `decodeURIComponent(s)`; `None` where it would throw a `URIError`. */
  function DecodeUriComponent(s: string): Option<string>
    decreases |s|
  {
    if |s| == 0 then Some("")
    else if s[0] != '%' then Prefixed(s[0], DecodeUriComponent(s[1..]))
    else match DecodeEscape(s)
      case None => None
      case Some((c, n)) => Prefixed(c, DecodeUriComponent(s[n..]))
  }

  /**
   * An overlong form throws: `%C0%80` spells U+0000 in two bytes, where
   * UTF-8 takes one.
   */
  lemma OverlongRejected(s: string)
    requires s == "%C0%80"
    ensures DecodeEscape(s).None? && DecodeUriComponent(s).None?
  {
  }

  lemma HexRoundTrip(n: nat)
    requires n < 16
    ensures HexValue(HexChar(n)) == Some(n)
  {
  }

  lemma ByteRoundTrip(b: nat, rest: string)
    requires b < 256
    ensures ByteAt(PercentByte(b) + rest, 0) == Some(b)
  {
    HexRoundTrip(b / 16);
    HexRoundTrip(b % 16);
  }

  /** The escapes of a character's UTF-8 bytes decode to that character. */
  lemma DecodeEscapeChar(c: char, rest: string)
    requires !IsUnreserved(c)
    ensures DecodeEscape(EncodeChar(c) + rest) == Some((c, |EncodeChar(c)|))
  {
    var cp := c as int;
    if cp < 0x80 {
      EscapeOne(c, rest);
    } else if cp < 0x800 {
      EscapeTwo(c, rest);
    } else if cp < 0x1_0000 {
      EscapeThree(c, rest);
    } else {
      EscapeFour(c, rest);
    }
  }

  lemma EscapeOne(c: char, rest: string)
    requires c as int < 0x80
    ensures DecodeEscape(PercentBytes(Utf8(c)) + rest) == Some((c, 3))
  {
    PercentBytesAt(Utf8(c), 0, rest);
  }

  lemma EscapeTwo(c: char, rest: string)
    requires 0x80 <= c as int < 0x800
    ensures DecodeEscape(PercentBytes(Utf8(c)) + rest) == Some((c, 6))
  {
    var bs := Utf8(c);
    PercentBytesAt(bs, 0, rest);
    PercentBytesAt(bs, 1, rest);
    DecodeTwo(PercentBytes(bs) + rest, c as int);
  }

  lemma EscapeThree(c: char, rest: string)
    requires 0x800 <= c as int < 0x1_0000
    ensures DecodeEscape(PercentBytes(Utf8(c)) + rest) == Some((c, 9))
  {
    var bs := Utf8(c);
    PercentBytesAt(bs, 0, rest);
    PercentBytesAt(bs, 1, rest);
    PercentBytesAt(bs, 2, rest);
    DecodeThree(PercentBytes(bs) + rest, c as int);
  }

  lemma EscapeFour(c: char, rest: string)
    requires 0x1_0000 <= c as int
    ensures DecodeEscape(PercentBytes(Utf8(c)) + rest) == Some((c, 12))
  {
    var bs := Utf8(c);
    PercentBytesAt(bs, 0, rest);
    PercentBytesAt(bs, 1, rest);
    PercentBytesAt(bs, 2, rest);
    PercentBytesAt(bs, 3, rest);
    DecodeFour(PercentBytes(bs) + rest, c as int);
  }

  lemma DecodeTwo(s: string, cp: int)
    requires 0x80 <= cp < 0x800
    requires ByteAt(s, 0) == Some(0xC0 + cp / 64) && ByteAt(s, 3) == Some(0x80 + cp % 64)
    ensures ScalarChar(cp).Some? ==> DecodeEscape(s) == Some((ScalarChar(cp).value, 6))
  {
    assert ContinuationAt(s, 3) == Some(cp % 64);
  }

  lemma DecodeThree(s: string, cp: int)
    requires 0x800 <= cp < 0x1_0000
    requires ByteAt(s, 0) == Some(0xE0 + cp / 4096) && ByteAt(s, 3) == Some(0x80 + (cp / 64) % 64)
    requires ByteAt(s, 6) == Some(0x80 + cp % 64)
    ensures ScalarChar(cp).Some? ==> DecodeEscape(s) == Some((ScalarChar(cp).value, 9))
  {
    assert ContinuationAt(s, 3) == Some((cp / 64) % 64);
    assert ContinuationAt(s, 6) == Some(cp % 64);
    assert (cp / 4096) * 4096 + ((cp / 64) % 64) * 64 + cp % 64 == cp by {
      DivMod64(cp);
    }
  }

  lemma DecodeFour(s: string, cp: int)
    requires 0x1_0000 <= cp < 0x11_0000
    requires ByteAt(s, 0) == Some(0xF0 + cp / 262144) && ByteAt(s, 3) == Some(0x80 + (cp / 4096) % 64)
    requires ByteAt(s, 6) == Some(0x80 + (cp / 64) % 64) && ByteAt(s, 9) == Some(0x80 + cp % 64)
    ensures ScalarChar(cp).Some? ==> DecodeEscape(s) == Some((ScalarChar(cp).value, 12))
  {
    assert ContinuationAt(s, 3) == Some((cp / 4096) % 64);
    assert ContinuationAt(s, 6) == Some((cp / 64) % 64);
    assert ContinuationAt(s, 9) == Some(cp % 64);
    assert (cp / 262144) * 262144 + ((cp / 4096) % 64) * 4096 + ((cp / 64) % 64) * 64 + cp % 64 == cp by {
      DivMod64(cp);
      DivMod64(cp / 64);
    }
  }

  /** Six bits at a time: `n / 4096 == (n / 64) / 64`. */
  lemma DivMod64(n: int)
    requires n >= 0
    ensures n / 4096 == (n / 64) / 64 && n / 262144 == ((n / 64) / 64) / 64
    ensures (n / 4096) * 4096 + ((n / 64) % 64) * 64 + n % 64 == n
  {
  }

  /** The `k`-th escape of a run of bytes sits `3 * k` characters in. */
  lemma {:induction false} PercentBytesAt(bs: seq<nat>, k: nat, rest: string)
    requires forall i :: 0 <= i < |bs| ==> bs[i] < 256
    requires k < |bs|
    ensures ByteAt(PercentBytes(bs) + rest, 3 * k) == Some(bs[k])
  {
    var s := PercentBytes(bs) + rest;
    if k == 0 {
      assert s == PercentByte(bs[0]) + (PercentBytes(bs[1..]) + rest);
      ByteRoundTrip(bs[0], PercentBytes(bs[1..]) + rest);
    } else {
      PercentBytesAt(bs[1..], k - 1, rest);
      var t := PercentBytes(bs[1..]) + rest;
      assert s == PercentByte(bs[0]) + t;
      ByteAtAfter(PercentByte(bs[0]), t, 3 * (k - 1));
    }
  }

  /** Reading an escape past a prefix is reading it in what follows the prefix. */
  lemma ByteAtAfter(p: string, t: string, j: nat)
    ensures ByteAt(p + t, |p| + j) == ByteAt(t, j)
  {
    if j + 3 <= |t| {
      assert (p + t)[|p| + j] == t[j];
      assert (p + t)[|p| + j + 1] == t[j + 1];
      assert (p + t)[|p| + j + 2] == t[j + 2];
    }
  }

  /** Decoding undoes encoding. */
  lemma {:induction false} DecodeEncode(s: string)
    ensures DecodeUriComponent(EncodeUriComponent(s)) == Some(s)
  {
    if |s| > 0 {
      DecodeEncode(s[1..]);
      var rest := EncodeUriComponent(s[1..]);
      assert EncodeUriComponent(s) == EncodeChar(s[0]) + rest;
      DecodeEncodedChar(s[0], rest);
      assert s == [s[0]] + s[1..];
    }
  }

  /** Decoding one encoded character in front of `rest` puts the character in front of the decoded rest. */
  lemma DecodeEncodedChar(c: char, rest: string)
    ensures DecodeUriComponent(EncodeChar(c) + rest) == Prefixed(c, DecodeUriComponent(rest))
  {
    var e := EncodeChar(c);
    var t := e + rest;
    if IsUnreserved(c) {
      assert t[1..] == rest;
    } else {
      DecodeEscapeChar(c, rest);
      assert t[|e|..] == rest;
    }
  }

  // ---------------------------------------------------------------------------
  // Passage links
  // ---------------------------------------------------------------------------

  /** The code Bible Gateway uses for a translation abbreviation; unknown ones pass through. */
  function GatewayVersion(translation: string): string {
    match translation
    case "SpaRV" => "RVR1909"
    case "Vulgate" => "VULGATE"
    case "Byz" => "BYZ"
    case _ => translation
  }

  const SearchPrefix := "https://www.biblegateway.com/passage/?search="
  const VersionKey := "&version="

  /** `generateBibleGatewayUrl(reference, translation)` */
  function GatewayUrl(reference: string, translation: string): (r: string)
    ensures StartsWith(r, SearchPrefix)
  {
    SearchPrefix + EncodeUriComponent(reference) + VersionKey + GatewayVersion(translation)
  }

  /** The search term of a passage URL: what lies between the prefix and the first `&`. */
  function SearchTerm(url: string): string {
    var rest := if StartsWith(url, SearchPrefix) then url[|SearchPrefix|..] else url;
    var n := IndexOfAmpersand(rest);
    rest[..n]
  }

  function IndexOfAmpersand(s: string): (n: nat)
    ensures n <= |s| && (n < |s| ==> s[n] == '&')
    ensures forall i :: 0 <= i < n ==> s[i] != '&'
  {
    if |s| == 0 || s[0] == '&' then 0 else 1 + IndexOfAmpersand(s[1..])
  }

  /** The translation code a passage URL asks for: everything after the search term's `&version=`. */
  function VersionOf(url: string): string {
    var rest := if StartsWith(url, SearchPrefix) then url[|SearchPrefix|..] else url;
    var n := IndexOfAmpersand(rest);
    if StartsWith(rest[n..], VersionKey) then rest[n + |VersionKey|..] else ""
  }

  /**
   * A passage link searches for exactly the reference it was made from, in
   * the translation's Bible Gateway code.
   */
  lemma GatewayUrlRoundTrip(reference: string, translation: string)
    ensures DecodeUriComponent(SearchTerm(GatewayUrl(reference, translation))) == Some(reference)
    ensures VersionOf(GatewayUrl(reference, translation)) == GatewayVersion(translation)
  {
    UrlQuery(reference, translation);
    DecodeEncode(reference);
  }

  /** The query of a passage URL splits at the `&` that starts `&version=`. */
  lemma UrlQuery(reference: string, translation: string)
    ensures SearchTerm(GatewayUrl(reference, translation)) == EncodeUriComponent(reference)
    ensures VersionOf(GatewayUrl(reference, translation)) == GatewayVersion(translation)
  {
    var e := EncodeUriComponent(reference);
    var tail := VersionKey + GatewayVersion(translation);
    UrlRest(reference, translation);
    AmpersandAfter(e, tail);
    assert (e + tail)[..|e|] == e;
    assert (e + tail)[|e|..] == tail;
  }

  /** What follows the search prefix of a passage URL. */
  lemma UrlRest(reference: string, translation: string)
    ensures var url := GatewayUrl(reference, translation);
            StartsWith(url, SearchPrefix)
            && url[|SearchPrefix|..] == EncodeUriComponent(reference) + (VersionKey + GatewayVersion(translation))
  {
    var e := EncodeUriComponent(reference);
    var tail := VersionKey + GatewayVersion(translation);
    assert SearchPrefix + e + VersionKey + GatewayVersion(translation) == SearchPrefix + (e + tail);
    assert (SearchPrefix + (e + tail))[|SearchPrefix|..] == e + tail;
  }

  lemma {:induction false} AmpersandAfter(e: string, t: string)
    requires forall i :: 0 <= i < |e| ==> IsUnreserved(e[i]) || e[i] == '%'
    requires |t| > 0 && t[0] == '&'
    ensures IndexOfAmpersand(e + t) == |e|
  {
    if |e| > 0 {
      assert (e + t)[1..] == e[1..] + t;
      AmpersandAfter(e[1..], t);
    } else {
      assert e + t == t;
    }
  }
}

=== FILE: grammar.dfy ===
/**
 * The fixed regular expressions the plugin uses to read Bible references,
 * written out as recognisers.
 *
 * - `^(.+?)\s+(\d+)(?::(\d+)(?:-(\d+))?)?$` (code blocks and inserted
 *   references, src/main.ts): `ParseSingle`.
 * - `^(.+?)\s+(\d+):(\d+)-(.+?)\s+(\d+):(\d+)$` (cross-chapter code blocks):
 *   `ParseCross`.
 * - `^(\w+)\s+(\d+):(\d+)$` (shortcut commands): `ParseShortcut`.
 * - `^\w+\s+\d+:\d+(-\d+)?$` (the settings' shortcut check): `IsShortcutReference`.
 * - `^([1-3]? ?[A-Za-z ]+)\s+(\d+)(?::(\d+)(?:-(\d+))?)?$` (references typed
 *   into the selector): `ParseManual`.
 *
 * None of the expressions has the `m` flag, so `^` and `$` anchor at the ends
 * of the whole text. Captures are kept as the matched digit strings; `parseInt`
 * is `NumeralValue`.
 */
module Grammar {
  import opened Wrappers
  import opened Text

  // ---------------------------------------------------------------------------
  // Runs of characters
  // ---------------------------------------------------------------------------

  /** The length of the longest prefix of `s` whose characters all satisfy `p`. */
  function Span(s: string, p: char -> bool): (n: nat)
    ensures n <= |s|
    ensures forall i :: 0 <= i < n ==> p(s[i])
    ensures n < |s| ==> !p(s[n])
  {
    if |s| == 0 || !p(s[0]) then 0 else 1 + Span(s[1..], p)
  }

  /** A prefix that satisfies `p`, followed by a character that does not, is exactly the span. */
  lemma {:induction false} SpanConcat(a: string, b: string, p: char -> bool)
    requires forall i :: 0 <= i < |a| ==> p(a[i])
    requires |b| > 0 ==> !p(b[0])
    ensures Span(a + b, p) == |a|
  {
    if |a| > 0 {
      assert (a + b)[1..] == a[1..] + b;
      SpanConcat(a[1..], b, p);
    } else {
      assert a + b == b;
    }
  }

  predicate NotLineTerminator(c: char) {
    !IsLineTerminator(c)
  }

  /** Where the first line ends: `.` matches exactly the positions before it. */
  function LineEnd(s: string): (n: nat)
    ensures n <= |s| && NoLineTerminator(s[..n])
    ensures n < |s| ==> IsLineTerminator(s[n])
  {
    Span(s, NotLineTerminator)
  }

  /** A prefix is within the first line exactly when it has no line terminator. */
  lemma LineEndPrefix(s: string, l: nat)
    requires l <= |s|
    ensures NoLineTerminator(s[..l]) <==> l <= LineEnd(s)
  {
    if l > LineEnd(s) {
      var e := LineEnd(s);
      assert s[..l][e] == s[e];
    }
  }

  // ---------------------------------------------------------------------------
  // The numeric tail `\s+(\d+)(?::(\d+)(?:-(\d+))?)?$`
  // ---------------------------------------------------------------------------

  /** The captures of the tail: chapter, then optional verse and optional end verse. */
  datatype Tail = Tail(chapter: string, verse: Option<string>, endVerse: Option<string>)

  /** The captures the tail can produce: numerals, and an end verse only after a verse. */
  predicate TailShape(t: Tail) {
    && IsNumeral(t.chapter)
    && (t.verse.Some? ==> IsNumeral(t.verse.value))
    && (t.endVerse.Some? ==> t.verse.Some? && IsNumeral(t.endVerse.value))
  }

  /** The text of the tail after its leading whitespace. */
  function TailBody(t: Tail): string {
    t.chapter
      + (if t.verse.Some? then ":" + t.verse.value + (if t.endVerse.Some? then "-" + t.endVerse.value else "") else "")
  }

  /** Digits, `:` and `-` only: no whitespace occurs after the leading run. */
  lemma TailBodyNoWhitespace(t: Tail)
    requires TailShape(t)
    ensures NoWhitespace(TailBody(t))
    ensures |TailBody(t)| > 0 && IsDigit(TailBody(t)[0])
  {
    var b := TailBody(t);
    forall i | 0 <= i < |b| ensures !IsWhitespace(b[i]) {
      assert IsDigit(b[i]) || b[i] == ':' || b[i] == '-';
    }
  }

  /** `(\d+)` followed by the character `sep`: the numeral and what follows `sep`. */
  function NumeralThen(b: string, sep: char): (r: Option<(string, string)>)
    ensures r.Some? ==> IsNumeral(r.value.0) && b == r.value.0 + [sep] + r.value.1
  {
    var n := Span(b, IsDigit);
    if n == 0 || n == |b| || b[n] != sep then None
    else
      assert b == b[..n] + [sep] + b[n + 1..];
      Some((b[..n], b[n + 1..]))
  }

  /** A numeral followed by a non-digit separator is read back. */
  lemma NumeralThenComplete(x: string, sep: char, rest: string)
    requires IsNumeral(x) && !IsDigit(sep)
    ensures NumeralThen(x + [sep] + rest, sep) == Some((x, rest))
  {
    var b := x + [sep] + rest;
    assert b == x + ([sep] + rest);
    SpanConcat(x, [sep] + rest, IsDigit);
    assert b[|x| + 1..] == rest;
  }

  /** `(\d+)(?::(\d+)(?:-(\d+))?)?$` matched against the whole of `b`. */
  function ParseNumbers(b: string): (r: Option<Tail>)
    ensures r.Some? ==> TailShape(r.value) && TailBody(r.value) == b
  {
    if IsNumeral(b) then Some(Tail(b, None, None))
    else match NumeralThen(b, ':')
      case None => None
      case Some((c, rest)) =>
        if IsNumeral(rest) then Some(Tail(c, Some(rest), None))
        else match NumeralThen(rest, '-')
          case None => None
          case Some((v, e)) => if IsNumeral(e) then Some(Tail(c, Some(v), Some(e))) else None
  }

  /** Every tail body is read back. */
  lemma ParseNumbersComplete(t: Tail)
    requires TailShape(t)
    ensures ParseNumbers(TailBody(t)) == Some(t)
  {
    if t.endVerse.Some? {
      NumbersRangeRead(t.chapter, t.verse.value, t.endVerse.value);
    } else if t.verse.Some? {
      NumbersVerseRead(t.chapter, t.verse.value);
    } else {
      assert TailBody(t) == t.chapter;
    }
  }

  lemma NumbersVerseRead(c: string, v: string)
    requires IsNumeral(c) && IsNumeral(v)
    ensures ParseNumbers(TailBody(Tail(c, Some(v), None))) == Some(Tail(c, Some(v), None))
  {
    var b := TailBody(Tail(c, Some(v), None));
    assert b == c + [':'] + v;
    assert b[|c|] == ':';
    NumeralThenComplete(c, ':', v);
  }

  lemma NumbersRangeRead(c: string, v: string, e: string)
    requires IsNumeral(c) && IsNumeral(v) && IsNumeral(e)
    ensures ParseNumbers(TailBody(Tail(c, Some(v), Some(e)))) == Some(Tail(c, Some(v), Some(e)))
  {
    var b := TailBody(Tail(c, Some(v), Some(e)));
    var rest := v + ['-'] + e;
    assert b == c + [':'] + rest;
    assert b[|c|] == ':';
    NumeralThenComplete(c, ':', rest);
    assert rest[|v|] == '-';
    NumeralThenComplete(v, '-', e);
  }

  /** `\s+(\d+)(?::(\d+)(?:-(\d+))?)?$` matched against the whole of `s`. */
  function ParseTail(s: string): (r: Option<Tail>)
    ensures r.Some? ==> TailShape(r.value)
    ensures r.Some? ==> var n := Span(s, IsWhitespace);
      n > 0 && s == s[..n] + TailBody(r.value)
  {
    var n := Span(s, IsWhitespace);
    if n == 0 then None
    else
      var r := ParseNumbers(s[n..]);
      assert s == s[..n] + s[n..];
      r
  }

  /** Every tail, written after any non-empty run of whitespace, is read back. */
  lemma ParseTailComplete(w: string, t: Tail)
    requires |w| > 0 && AllWhitespace(w) && TailShape(t)
    ensures ParseTail(w + TailBody(t)) == Some(t)
  {
    TailBodyNoWhitespace(t);
    SpanConcat(w, TailBody(t), IsWhitespace);
    assert (w + TailBody(t))[|w|..] == TailBody(t);
    ParseNumbersComplete(t);
  }

  /** Once the tail's leading whitespace ends, no whitespace follows. */
  lemma ParseTailWhitespaceLeads(s: string, i: nat)
    requires ParseTail(s).Some? && i < |s| && IsWhitespace(s[i])
    ensures i < Span(s, IsWhitespace)
  {
    var n := Span(s, IsWhitespace);
    var b := TailBody(ParseTail(s).value);
    TailBodyNoWhitespace(ParseTail(s).value);
    forall j | n <= j < |s| ensures !IsWhitespace(s[j]) {
      assert s[j] == b[j - n];
    }
  }

  /** Whitespace right after a non-whitespace character rules out a tail. */
  lemma NotTailAfterWord(s: string, i: nat)
    requires 0 < i < |s| && !IsWhitespace(s[i - 1]) && IsWhitespace(s[i])
    ensures ParseTail(s).None?
  {
    if ParseTail(s).Some? {
      ParseTailWhitespaceLeads(s, i);
    }
  }

  /** Dropping part of a tail's leading whitespace keeps the same captures. */
  lemma ParseTailSuffix(s: string, k: nat, l: nat)
    requires k < l <= |s| && ParseTail(s[k..]).Some? && ParseTail(s[l..]).Some?
    ensures l - k < Span(s[k..], IsWhitespace)
    ensures ParseTail(s[l..]) == ParseTail(s[k..])
  {
    var x := s[k..];
    assert s[l..] == x[l - k..];
    assert IsWhitespace(s[l..][0]) && s[l..][0] == x[l - k];
    ParseTailWhitespaceLeads(x, l - k);
    DropLeadingWhitespace(x, l - k);
  }

  /** Dropping fewer characters than a tail's leading whitespace leaves the same tail. */
  lemma DropLeadingWhitespace(x: string, d: nat)
    requires ParseTail(x).Some? && d < Span(x, IsWhitespace)
    ensures ParseTail(x[d..]) == ParseTail(x)
  {
    var n := Span(x, IsWhitespace);
    var t := ParseTail(x).value;
    DropFromFront(x, x[..n], TailBody(t), d);
    ShorterWhitespace(x[..n], d, t);
  }

  lemma ShorterWhitespace(w: string, d: nat, t: Tail)
    requires AllWhitespace(w) && d < |w| && TailShape(t)
    ensures ParseTail(w[d..] + TailBody(t)) == Some(t)
  {
    assert AllWhitespace(w[d..]);
    ParseTailComplete(w[d..], t);
  }

  lemma DropFromFront(x: string, p: string, q: string, d: nat)
    requires x == p + q && d <= |p|
    ensures x[d..] == p[d..] + q
  {
  }

  /** `\s+(\d+):(\d+)$`: the tail after the second book of a cross reference. */
  function ParsePairTail(s: string): (r: Option<Tail>)
    ensures r.Some? ==> ParseTail(s) == r && r.value.verse.Some? && r.value.endVerse.None?
    ensures ParseTail(s).Some? && ParseTail(s).value.verse.Some? && ParseTail(s).value.endVerse.None? ==> r == ParseTail(s)
  {
    var t := ParseTail(s);
    if t.Some? && t.value.verse.Some? && t.value.endVerse.None? then t else None
  }

  // ---------------------------------------------------------------------------
  // The lazy book capture `^(.+?)`
  // ---------------------------------------------------------------------------

  /**
   * The least split point `l >= from` within the first line at which `rest`
   * matches the remainder `s[l..]`: the choice a lazy `(.+?)` makes, since
   * the regular expression engine tries the shortest capture first.
   */
  function LazySplit<A>(s: string, from: nat, rest: string -> Option<A>): (r: Option<(nat, A)>)
    requires 1 <= from
    ensures r.Some? ==> from <= r.value.0 <= LineEnd(s) && rest(s[r.value.0..]) == Some(r.value.1)
    ensures r.Some? ==> forall l :: from <= l < r.value.0 ==> rest(s[l..]).None?
    ensures r.None? ==> forall l :: from <= l <= LineEnd(s) ==> rest(s[l..]).None?
    decreases |s| + 1 - from
  {
    if from > LineEnd(s) then None
    else match rest(s[from..])
      case Some(a) => Some((from, a))
      case None => LazySplit(s, from + 1, rest)
  }

  /** Readable books: non-empty, on one line, not ending in whitespace. */
  predicate PlainBook(b: string) {
    |b| > 0 && NoLineTerminator(b) && !IsWhitespace(b[|b| - 1])
  }

  /** The search stops just after `b` when no earlier split matches and the split after `b` does. */
  lemma LazySplitAt<A>(b: string, after: string, rest: string -> Option<A>, a: A)
    requires |b| > 0 && NoLineTerminator(b)
    requires forall l :: 1 <= l < |b| ==> rest((b + after)[l..]).None?
    requires rest(after) == Some(a)
    ensures LazySplit(b + after, 1, rest) == Some((|b|, a))
  {
    var s := b + after;
    assert s[..|b|] == b && s[|b|..] == after;
    LineEndPrefix(s, |b|);
  }

  /** No split point inside a plain book leads to a tail. */
  lemma NoEarlierTail(b: string, after: string)
    requires PlainBook(b) && |after| > 0 && IsWhitespace(after[0])
    ensures forall l :: 1 <= l < |b| ==> ParseTail((b + after)[l..]).None?
  {
    var s := b + after;
    forall l | 1 <= l < |b| ensures ParseTail(s[l..]).None? {
      var x := s[l..];
      assert x[|b| - l - 1] == b[|b| - 1];
      assert x[|b| - l] == after[0];
      NotTailAfterWord(x, |b| - l);
    }
  }

  // ---------------------------------------------------------------------------
  // Single-chapter references
  // ---------------------------------------------------------------------------

  /** The captures of the single-chapter grammar. */
  datatype Reference = Reference(book: string, tail: Tail)

  /** A reference written with `w` between the book and the numbers. */
  function ReferenceText(r: Reference, w: string): string {
    r.book + w + TailBody(r.tail)
  }

  /** `^(.+?)\s+(\d+)(?::(\d+)(?:-(\d+))?)?$` */
  function ParseSingle(s: string): (r: Option<Reference>)
    ensures r.Some? ==> |r.value.book| > 0 && NoLineTerminator(r.value.book) && TailShape(r.value.tail)
    ensures r.Some? ==> exists w :: |w| > 0 && AllWhitespace(w) && s == ReferenceText(r.value, w)
  {
    match LazySplit(s, 1, ParseTail)
    case None => None
    case Some((l, t)) =>
      TailSplitText(s, l, t);
      LineEndPrefix(s, l);
      Some(Reference(s[..l], t))
  }

  /** A text whose suffix is a tail is the prefix, whitespace and the tail's body. */
  lemma TailSplitText(s: string, l: nat, t: Tail)
    requires l <= |s| && ParseTail(s[l..]) == Some(t)
    ensures exists w :: |w| > 0 && AllWhitespace(w) && s == s[..l] + w + TailBody(t)
  {
    var w := TailSplitWitness(s, l, t);
  }

  lemma TailSplitWitness(s: string, l: nat, t: Tail) returns (w: string)
    requires l <= |s| && ParseTail(s[l..]) == Some(t)
    ensures |w| > 0 && AllWhitespace(w) && s == s[..l] + w + TailBody(t)
  {
    var after := s[l..];
    var n := Span(after, IsWhitespace);
    w := after[..n];
    assert s == s[..l] + after;
  }

  /** A reference with a plain book is read back whatever whitespace separates book and numbers. */
  lemma ParseSingleRoundTrip(b: string, w: string, t: Tail)
    requires PlainBook(b) && |w| > 0 && AllWhitespace(w) && TailShape(t)
    ensures ParseSingle(b + w + TailBody(t)) == Some(Reference(b, t))
  {
    var s := b + w + TailBody(t);
    assert s == b + (w + TailBody(t));
    ParseTailComplete(w, t);
    NoEarlierTail(b, w + TailBody(t));
    LazySplitAt(b, w + TailBody(t), ParseTail, t);
    assert s[..|b|] == b;
  }

  // ---------------------------------------------------------------------------
  // Cross-chapter references
  // ---------------------------------------------------------------------------

  /** The text `chapter:verse-` that ends the first half of a cross reference. */
  function MiddleText(c: string, v: string): string {
    c + ":" + v + "-"
  }

  lemma MiddleTextShape(c: string, v: string)
    requires IsNumeral(c) && IsNumeral(v)
    ensures NoWhitespace(MiddleText(c, v))
    ensures MiddleText(c, v)[|MiddleText(c, v)| - 1] == '-'
  {
    var mid := MiddleText(c, v);
    forall j | 0 <= j < |mid| ensures !IsWhitespace(mid[j]) {
      assert IsDigit(mid[j]) || mid[j] == ':' || mid[j] == '-';
    }
  }

  /** The middle `\s+(\d+):(\d+)-` at the start of `s`: chapter, verse and what follows. */
  function ParseMiddle(s: string): (r: Option<(string, string, string)>)
    ensures r.Some? ==> var (c, v, after) := r.value; var n := Span(s, IsWhitespace);
      n > 0 && IsNumeral(c) && IsNumeral(v) && s == s[..n] + MiddleText(c, v) + after
  {
    var n := Span(s, IsWhitespace);
    if n == 0 then None
    else match NumeralThen(s[n..], ':')
      case None => None
      case Some((c, r1)) =>
        match NumeralThen(r1, '-')
        case None => None
        case Some((v, after)) =>
          MiddleJoin(s, n, c, v, r1, after);
          Some((c, v, after))
  }

  lemma MiddleJoin(s: string, n: nat, c: string, v: string, r1: string, after: string)
    requires n <= |s| && s[n..] == c + [':'] + r1 && r1 == v + ['-'] + after
    ensures s == s[..n] + MiddleText(c, v) + after
  {
    assert s == s[..n] + s[n..];
    assert c + [':'] + r1 == MiddleText(c, v) + after;
  }

  /** Reads a middle written after whitespace `w`. */
  lemma ParseMiddleComplete(w: string, c: string, v: string, after: string)
    requires |w| > 0 && AllWhitespace(w) && IsNumeral(c) && IsNumeral(v)
    ensures ParseMiddle(w + MiddleText(c, v) + after) == Some((c, v, after))
  {
    var s := w + MiddleText(c, v) + after;
    var r1 := v + "-" + after;
    assert s == w + (c + [':'] + r1);
    SpanConcat(w, c + [':'] + r1, IsWhitespace);
    assert s[|w|..] == c + [':'] + r1;
    NumeralThenComplete(c, ':', r1);
    assert r1 == v + ['-'] + after;
    NumeralThenComplete(v, '-', after);
  }

  /** A middle is whitespace up to `n`, then no whitespace up to its closing `-` at `m - 1`. */
  lemma MiddleShape(x: string) returns (n: nat, m: nat)
    requires ParseMiddle(x).Some?
    ensures 0 < n < m <= |x| && x[m - 1] == '-'
    ensures forall j :: 0 <= j < n ==> IsWhitespace(x[j])
    ensures forall j :: n <= j < m ==> !IsWhitespace(x[j])
  {
    var (c, v, after) := ParseMiddle(x).value;
    n := Span(x, IsWhitespace);
    var mid := MiddleText(c, v);
    m := n + |mid|;
    MiddleTextShape(c, v);
    forall j | n <= j < m ensures !IsWhitespace(x[j]) {
      assert x[j] == mid[j - n];
    }
    assert x[m - 1] == mid[|mid| - 1];
  }

  /** The captures after the first book: chapter, verse, second book and its tail. */
  datatype CrossRest = CrossRest(startChapter: string, startVerse: string, endBook: string, endTail: Tail)

  /** `\s+(\d+):(\d+)-(.+?)\s+(\d+):(\d+)$` against the whole of `s`. */
  function ParseCrossRest(s: string): (r: Option<CrossRest>)
  {
    match ParseMiddle(s)
    case None => None
    case Some((c, v, after)) =>
      match LazySplit(after, 1, ParsePairTail)
      case None => None
      case Some((l, t)) => Some(CrossRest(c, v, after[..l], t))
  }

  /** The captures of `^(.+?)\s+(\d+):(\d+)-(.+?)\s+(\d+):(\d+)$`. */
  datatype CrossReference = CrossReference(
    startBook: string, startChapter: string, startVerse: string,
    endBook: string, endChapter: string, endVerse: string)

  /** A cross reference written with `w1` and `w2` before the two pairs of numbers. */
  function CrossText(x: CrossReference, w1: string, w2: string): string {
    x.startBook + w1 + MiddleText(x.startChapter, x.startVerse)
      + x.endBook + w2 + TailBody(Tail(x.endChapter, Some(x.endVerse), None))
  }

  /** The numbers are numerals and the books are non-empty single lines. */
  predicate CrossShape(x: CrossReference) {
    && |x.startBook| > 0 && NoLineTerminator(x.startBook)
    && |x.endBook| > 0 && NoLineTerminator(x.endBook)
    && IsNumeral(x.startChapter) && IsNumeral(x.startVerse)
    && IsNumeral(x.endChapter) && IsNumeral(x.endVerse)
  }

  /** `^(.+?)\s+(\d+):(\d+)-(.+?)\s+(\d+):(\d+)$` */
  function ParseCross(s: string): (r: Option<CrossReference>)
    ensures r.Some? ==> CrossShape(r.value)
    ensures r.Some? ==> exists w1, w2 :: |w1| > 0 && AllWhitespace(w1) && |w2| > 0 && AllWhitespace(w2)
                          && s == CrossText(r.value, w1, w2)
  {
    match LazySplit(s, 1, ParseCrossRest)
    case None => None
    case Some((l, rest)) =>
      var x := CrossReference(s[..l], rest.startChapter, rest.startVerse,
                              rest.endBook, rest.endTail.chapter, rest.endTail.verse.value);
      CrossSplitText(s, l, x);
      Some(x)
  }

  /** What the two lazy splits found spells out the whole text. */
  lemma CrossSplitText(s: string, l: nat, x: CrossReference)
    requires l <= |s| && NoLineTerminator(s[..l]) && ParseCrossRest(s[l..]).Some?
    requires var rest := ParseCrossRest(s[l..]).value;
      x == CrossReference(s[..l], rest.startChapter, rest.startVerse,
                          rest.endBook, rest.endTail.chapter, rest.endTail.verse.value)
    ensures l > 0 ==> CrossShape(x)
    ensures exists w1, w2 :: |w1| > 0 && AllWhitespace(w1) && |w2| > 0 && AllWhitespace(w2)
                             && s == CrossText(x, w1, w2)
  {
    var y := s[l..];
    var w1, w2 := CrossRestText(y);
    var rest := ParseCrossRest(y).value;
    assert rest.endTail == Tail(x.endChapter, Some(x.endVerse), None);
    Respell(s, l, w1, MiddleText(rest.startChapter, rest.startVerse), rest.endBook, w2, TailBody(rest.endTail));
    assert s == CrossText(x, w1, w2);
  }

  /** A text whose suffix from `l` is spelled in six pieces is its prefix and those pieces. */
  lemma Respell(s: string, l: nat, b: string, c: string, d: string, e: string, f: string)
    requires l <= |s| && s[l..] == b + c + d + e + f
    ensures s == s[..l] + b + c + d + e + f
  {
    Prepend(s[..l], b, c, d, e, f);
    assert s == s[..l] + s[l..];
  }

  lemma Prepend(a: string, b: string, c: string, d: string, e: string, f: string)
    ensures a + (b + c + d + e + f) == a + b + c + d + e + f
  {
    Associative(a, b + c + d + e, f);
    Associative(a, b + c + d, e);
    Associative(a, b + c, d);
    Associative(a, b, c);
  }

  /** The remainder after the first book, spelled out. */
  lemma CrossRestText(y: string) returns (w1: string, w2: string)
    requires ParseCrossRest(y).Some?
    ensures var rest := ParseCrossRest(y).value;
      && |w1| > 0 && AllWhitespace(w1) && |w2| > 0 && AllWhitespace(w2)
      && IsNumeral(rest.startChapter) && IsNumeral(rest.startVerse)
      && |rest.endBook| > 0 && NoLineTerminator(rest.endBook)
      && TailShape(rest.endTail) && rest.endTail.verse.Some? && rest.endTail.endVerse.None?
      && y == w1 + MiddleText(rest.startChapter, rest.startVerse) + rest.endBook + w2 + TailBody(rest.endTail)
  {
    var (c, v, after) := ParseMiddle(y).value;
    var n1 := Span(y, IsWhitespace);
    w1 := y[..n1];
    var m := MiddleText(c, v);
    var (l2, t) := LazySplit(after, 1, ParsePairTail).value;
    var b2 := after[..l2];
    assert ParseTail(after[l2..]) == Some(t);
    w2 := TailSplitWitness(after, l2, t);
    LineEndPrefix(after, l2);
    calc {
      y;
      w1 + m + after;
      w1 + m + (b2 + w2 + TailBody(t));
      { Associative(w1 + m, b2 + w2, TailBody(t));
        Associative(w1 + m, b2, w2); }
      w1 + m + b2 + w2 + TailBody(t);
    }
  }

  lemma Associative(a: string, b: string, c: string)
    ensures a + (b + c) == a + b + c
  {
  }

  /** No hyphen in the string. */
  predicate NoHyphen(s: string) {
    forall i :: 0 <= i < |s| ==> s[i] != '-'
  }

  /** Inside a plain first book without a hyphen, no middle can start. */
  lemma NoEarlierMiddle(b: string, after: string)
    requires PlainBook(b) && NoHyphen(b) && |after| > 0 && IsWhitespace(after[0])
    ensures forall l :: 1 <= l < |b| ==> ParseCrossRest((b + after)[l..]).None?
  {
    var s := b + after;
    forall l | 1 <= l < |b| ensures ParseCrossRest(s[l..]).None? {
      var x := s[l..];
      var k := |b| - l;
      assert x[k - 1] == b[|b| - 1];
      assert x[k] == after[0];
      assert forall j :: 0 <= j < k ==> x[j] == b[l + j];
      if ParseMiddle(x).Some? {
        var n, m := MiddleShape(x);
      }
    }
  }

  /**
   * A cross reference whose books are plain, and whose first book has no
   * hyphen, is read back.
   */
  lemma ParseCrossRoundTrip(x: CrossReference, w1: string, w2: string)
    requires PlainBook(x.startBook) && NoHyphen(x.startBook) && PlainBook(x.endBook)
    requires |w1| > 0 && AllWhitespace(w1) && |w2| > 0 && AllWhitespace(w2)
    requires IsNumeral(x.startChapter) && IsNumeral(x.startVerse)
    requires IsNumeral(x.endChapter) && IsNumeral(x.endVerse)
    ensures ParseCross(CrossText(x, w1, w2)) == Some(x)
  {
    var t := Tail(x.endChapter, Some(x.endVerse), None);
    var mid := w1 + MiddleText(x.startChapter, x.startVerse) + x.endBook + w2 + TailBody(t);
    var rest := CrossRest(x.startChapter, x.startVerse, x.endBook, t);
    CrossRestRead(x, w1, w2);
    CrossTextSplit(x, w1, w2, mid);
    NoEarlierMiddle(x.startBook, mid);
    LazySplitAt(x.startBook, mid, ParseCrossRest, rest);
  }

  /** A cross-reference text is its first book followed by the rest. */
  lemma CrossTextSplit(x: CrossReference, w1: string, w2: string, mid: string)
    requires mid == w1 + MiddleText(x.startChapter, x.startVerse) + x.endBook + w2
                    + TailBody(Tail(x.endChapter, Some(x.endVerse), None))
    ensures CrossText(x, w1, w2) == x.startBook + mid
  {
    Prepend(x.startBook, w1, MiddleText(x.startChapter, x.startVerse), x.endBook, w2,
            TailBody(Tail(x.endChapter, Some(x.endVerse), None)));
  }

  /** After the first book, the rest of a cross-reference text reads back. */
  lemma CrossRestRead(x: CrossReference, w1: string, w2: string)
    requires PlainBook(x.endBook)
    requires |w1| > 0 && AllWhitespace(w1) && |w2| > 0 && AllWhitespace(w2)
    requires IsNumeral(x.startChapter) && IsNumeral(x.startVerse)
    requires IsNumeral(x.endChapter) && IsNumeral(x.endVerse)
    ensures var t := Tail(x.endChapter, Some(x.endVerse), None);
            ParseCrossRest(w1 + MiddleText(x.startChapter, x.startVerse) + x.endBook + w2 + TailBody(t))
            == Some(CrossRest(x.startChapter, x.startVerse, x.endBook, t))
  {
    var t := Tail(x.endChapter, Some(x.endVerse), None);
    var tailText := w2 + TailBody(t);
    var after := x.endBook + tailText;
    var m := MiddleText(x.startChapter, x.startVerse);
    ParseTailComplete(w2, t);
    NoEarlierTail(x.endBook, tailText);
    LazySplitAt(x.endBook, tailText, ParsePairTail, t);
    assert after[..|x.endBook|] == x.endBook;
    ParseMiddleComplete(w1, x.startChapter, x.startVerse, after);
    Associative(w1 + m + x.endBook, w2, TailBody(t));
    Associative(w1 + m, x.endBook, tailText);
  }

  // ---------------------------------------------------------------------------
  // Shortcut references
  // ---------------------------------------------------------------------------

  /** A string matched by `\w+`. */
  predicate IsWord(s: string) {
    |s| > 0 && forall i :: 0 <= i < |s| ==> IsWordChar(s[i])
  }

  /**
   * `^(\w+)\s+(\d+):(\d+)$`: book, chapter and verse. `\w+` can only end
   * at the end of the run of word characters, as whitespace must follow it.
   */
  function ParseShortcut(s: string): (r: Option<(string, string, string)>)
    ensures r.Some? ==> var (b, c, v) := r.value;
      IsWord(b) && IsNumeral(c) && IsNumeral(v)
      && exists w :: |w| > 0 && AllWhitespace(w) && s == b + w + TailBody(Tail(c, Some(v), None))
  {
    var n := Span(s, IsWordChar);
    if n == 0 then None
    else match ParsePairTail(s[n..])
      case None => None
      case Some(t) =>
        ShortcutText(s, n, t);
        Some((s[..n], t.chapter, t.verse.value))
  }

  /** What the shortcut pattern matched spells out the whole text. */
  lemma ShortcutText(s: string, n: nat, t: Tail)
    requires n <= |s| && ParsePairTail(s[n..]) == Some(t)
    ensures t.verse.Some?
    ensures exists w :: |w| > 0 && AllWhitespace(w) && s == s[..n] + w + TailBody(Tail(t.chapter, Some(t.verse.value), None))
  {
    var w := TailSplitWitness(s, n, t);
    assert t == Tail(t.chapter, Some(t.verse.value), None);
    assert s == s[..n] + w + TailBody(Tail(t.chapter, Some(t.verse.value), None));
  }

  /** `^\w+\s+\d+:\d+(-\d+)?$`: the references the settings accept for a shortcut. */
  predicate IsShortcutReference(s: string) {
    var n := Span(s, IsWordChar);
    n > 0 && var t := ParseTail(s[n..]); t.Some? && t.value.verse.Some?
  }

  /** A word, whitespace and `chapter:verse`, or a verse range, with the word ending at the whitespace. */
  lemma ShortcutSplit(b: string, w: string, t: Tail)
    requires IsWord(b) && |w| > 0 && AllWhitespace(w) && TailShape(t)
    ensures Span(b + w + TailBody(t), IsWordChar) == |b|
    ensures (b + w + TailBody(t))[..|b|] == b && (b + w + TailBody(t))[|b|..] == w + TailBody(t)
    ensures ParseTail((b + w + TailBody(t))[|b|..]) == Some(t)
  {
    var s := b + w + TailBody(t);
    assert s == b + (w + TailBody(t));
    assert !IsWordChar(w[0]);
    SpanConcat(b, w + TailBody(t), IsWordChar);
    ParseTailComplete(w, t);
  }

  /** A word, whitespace and `chapter:verse` is a shortcut both places accept and read back. */
  lemma ShortcutRoundTrip(b: string, w: string, c: string, v: string)
    requires IsWord(b) && |w| > 0 && AllWhitespace(w) && IsNumeral(c) && IsNumeral(v)
    ensures ParseShortcut(b + w + TailBody(Tail(c, Some(v), None))) == Some((b, c, v))
    ensures IsShortcutReference(b + w + TailBody(Tail(c, Some(v), None)))
  {
    ShortcutSplit(b, w, Tail(c, Some(v), None));
  }

  /** A reference the shortcut grammar accepts reads the same by the single-chapter grammar. */
  lemma ShortcutIsSingle(s: string)
    requires ParseShortcut(s).Some?
    ensures var (b, c, v) := ParseShortcut(s).value;
            ParseSingle(s) == Some(Reference(b, Tail(c, Some(v), None)))
  {
    var (b, c, v) := ParseShortcut(s).value;
    var w :| |w| > 0 && AllWhitespace(w) && s == b + w + TailBody(Tail(c, Some(v), None));
    WordIsSingle(b, w, c, v);
  }

  lemma WordIsSingle(b: string, w: string, c: string, v: string)
    requires IsWord(b) && |w| > 0 && AllWhitespace(w) && IsNumeral(c) && IsNumeral(v)
    ensures ParseSingle(b + w + TailBody(Tail(c, Some(v), None))) == Some(Reference(b, Tail(c, Some(v), None)))
  {
    assert forall i :: 0 <= i < |b| ==> !IsLineTerminator(b[i]) by {
      forall i | 0 <= i < |b| ensures !IsLineTerminator(b[i]) {
        assert IsWordChar(b[i]);
      }
    }
    assert IsWordChar(b[|b| - 1]);
    ParseSingleRoundTrip(b, w, Tail(c, Some(v), None));
  }

  /** The settings accept every verse range, which the shortcut command then refuses. */
  lemma ShortcutRangeRejected(b: string, w: string, c: string, v: string, e: string)
    requires IsWord(b) && |w| > 0 && AllWhitespace(w) && IsNumeral(c) && IsNumeral(v) && IsNumeral(e)
    ensures IsShortcutReference(b + w + TailBody(Tail(c, Some(v), Some(e))))
    ensures ParseShortcut(b + w + TailBody(Tail(c, Some(v), Some(e)))).None?
  {
    ShortcutSplit(b, w, Tail(c, Some(v), Some(e)));
    RangeRefused(b + w + TailBody(Tail(c, Some(v), Some(e))), |b|, Tail(c, Some(v), Some(e)));
  }

  /** A word followed by a tail with an end verse fits the settings' pattern and not the command's. */
  lemma RangeRefused(s: string, n: nat, t: Tail)
    requires Span(s, IsWordChar) == n && n > 0 && n <= |s|
    requires ParseTail(s[n..]) == Some(t) && t.verse.Some? && t.endVerse.Some?
    ensures IsShortcutReference(s) && ParseShortcut(s).None?
  {
    assert ParsePairTail(s[n..]).None?;
  }

  // ---------------------------------------------------------------------------
  // References typed into the selector
  // ---------------------------------------------------------------------------

  predicate IsLetterOrSpace(c: char) {
    IsAsciiLetter(c) || c == ' '
  }

  /** The strings `[1-3]? ?[A-Za-z ]+` matches. */
  predicate ManualBook(p: string) {
    || (|p| > 0 && forall i :: 0 <= i < |p| ==> IsLetterOrSpace(p[i]))
    || (|p| > 1 && '1' <= p[0] <= '3' && forall i :: 1 <= i < |p| ==> IsLetterOrSpace(p[i]))
  }

  /**
   * The greatest split point `0 < l <= upto` whose prefix satisfies `book`
   * and whose remainder `rest` matches: the choice a greedy book capture
   * makes, since the engine tries the longest capture first.
   */
  function GreedySplit<A>(s: string, upto: nat, book: string -> bool, rest: string -> Option<A>): (r: Option<(nat, A)>)
    requires upto <= |s|
    ensures r.Some? ==> 0 < r.value.0 <= upto && book(s[..r.value.0]) && rest(s[r.value.0..]) == Some(r.value.1)
    ensures r.Some? ==> forall l :: r.value.0 < l <= upto ==> !(book(s[..l]) && rest(s[l..]).Some?)
    ensures r.None? ==> forall l :: 0 < l <= upto ==> !(book(s[..l]) && rest(s[l..]).Some?)
    decreases upto
  {
    if upto == 0 then None
    else if book(s[..upto]) && rest(s[upto..]).Some? then Some((upto, rest(s[upto..]).value))
    else GreedySplit(s, upto - 1, book, rest)
  }

  /** `^([1-3]? ?[A-Za-z ]+)\s+(\d+)(?::(\d+)(?:-(\d+))?)?$`, with the book trimmed. */
  function ParseManual(s: string): (r: Option<Reference>)
    ensures r.Some? ==> TailShape(r.value.tail)
    ensures r.None? <==> forall l :: 0 < l <= |s| ==> !(ManualBook(s[..l]) && ParseTail(s[l..]).Some?)
  {
    match GreedySplit(s, |s|, ManualBook, ParseTail)
    case None => None
    case Some((l, t)) => Some(Reference(Trim(s[..l]), t))
  }

  /** A qualifying split point bounds the greedy choice from below. */
  lemma GreedySplitAtLeast<A>(s: string, upto: nat, book: string -> bool, rest: string -> Option<A>, k: nat)
    requires 0 < k <= upto <= |s| && book(s[..k]) && rest(s[k..]).Some?
    ensures GreedySplit(s, upto, book, rest).Some? && GreedySplit(s, upto, book, rest).value.0 >= k
  {
  }

  /** A book of letters and spaces (or a leading 1-3) with no whitespace at its ends is read back. */
  lemma ParseManualRoundTrip(b: string, w: string, t: Tail)
    requires ManualBook(b) && PlainBook(b) && !IsWhitespace(b[0])
    requires |w| > 0 && AllWhitespace(w) && TailShape(t)
    ensures ParseManual(b + w + TailBody(t)) == Some(Reference(b, t))
  {
    var s := b + w + TailBody(t);
    assert s == b + (w + TailBody(t));
    assert s[..|b|] == b && s[|b|..] == w + TailBody(t);
    ParseTailComplete(w, t);
    GreedySplitAtLeast(s, |s|, ManualBook, ParseTail, |b|);
    var (l, t') := GreedySplit(s, |s|, ManualBook, ParseTail).value;
    if l > |b| {
      ParseTailSuffix(s, |b|, l);
      TrimWhitespaceAfter(s, b, l);
    } else {
      TrimOfTrimmed(b);
    }
  }

  /** Trimming a book followed by part of the tail's leading whitespace gives the book. */
  lemma TrimWhitespaceAfter(s: string, b: string, l: nat)
    requires |b| < l <= |s| && s[..|b|] == b && PlainBook(b) && !IsWhitespace(b[0])
    requires l - |b| < Span(s[|b|..], IsWhitespace)
    ensures Trim(s[..l]) == b
  {
    var x := s[|b|..];
    var ws := x[..l - |b|];
    assert s[..l] == "" + b + ws;
    TrimAround("", b, ws);
  }
}

=== FILE: insert.dfy ===
/**
 * Putting a reference into the note (src/main.ts, `insertBibleReference`,
 * `insertShortcutReference`, `formatReference`): the reference is parsed by
 * the single-chapter grammar, its verses are looked up, and either a notice
 * is shown or text replaces the editor's selection. The editor, the notice
 * and the note written for Dataview are I/O and are left out; an insertion
 * is modelled as the notice text or the replacement text.
 */
module Insert {
  import opened Wrappers
  import opened Text
  import opened Grammar
  import Store
  import Gateway
  import CodeBlock

  datatype OutputType = PlainText | LinkText | CodeBlockText

  /** What an insertion does: show a notice, or replace the selection with text. */
  datatype Insertion = Notice(message: string) | Replace(text: string)

  /** The settings the insert commands read. */
  datatype Settings = Settings(
    codeBlockLanguage: string,
    defaultTranslation: string,
    outputType: OutputType,
    showBookAbbr: bool,
    showTranslationAbbr: bool)

  // ---------------------------------------------------------------------------
  // Which verses are asked for
  // ---------------------------------------------------------------------------

  /** `endVerseNum`: the end verse when written, else the start verse when written, else `null`. */
  function EndVerseNumber(t: Tail): Option<nat>
    requires TailShape(t)
  {
    if t.endVerse.Some? then Some(NumeralValue(t.endVerse.value))
    else if t.verse.Some? then Some(NumeralValue(t.verse.value))
    else None
  }

  /** `lo, lo + 1, ..., hi`; nothing when `hi < lo`, as `Array.from` clamps a negative length to 0. */
  function Range(lo: nat, hi: nat): (r: seq<nat>)
    ensures |r| == if hi >= lo then hi - lo + 1 else 0
    ensures forall k :: 0 <= k < |r| ==> r[k] == lo + k
    decreases hi - lo
  {
    if lo > hi then [] else [lo] + Range(lo + 1, hi)
  }

  /**
   * The verse numbers looked up: the range from the start verse when
   * `endVerseNum` is truthy (neither `null` nor 0), the start verse alone
   * otherwise.
   */
  function AskedVerses(t: Tail): seq<nat>
    requires TailShape(t)
  {
    var sv := CodeBlock.TailStart(t);
    var e := EndVerseNumber(t);
    if e.Some? && e.value != 0 then Range(sv, e.value) else [sv]
  }

  /**
   * Unless the end verse is written as 0, the insert command asks for the
   * same verses as a code block with the same reference.
   */
  lemma AskedVersesAgree(t: Tail, v: nat)
    requires TailShape(t)
    requires t.endVerse.Some? ==> NumeralValue(t.endVerse.value) != 0
    ensures v in AskedVerses(t) <==> CodeBlock.TailStart(t) <= v <= CodeBlock.TailEnd(t)
  {
    var sv := CodeBlock.TailStart(t);
    var e := EndVerseNumber(t);
    if e.Some? && e.value != 0 {
      var r := Range(sv, e.value);
      if sv <= v <= e.value {
        assert r[v - sv] == v;
      }
    }
  }

  /** An end verse written as 0 asks for the start verse alone, where a code block asks for none. */
  lemma ZeroEndVerse(t: Tail)
    requires TailShape(t) && t.endVerse.Some? && NumeralValue(t.endVerse.value) == 0
    requires CodeBlock.TailStart(t) > 0
    ensures AskedVerses(t) == [CodeBlock.TailStart(t)]
    ensures CodeBlock.TailStart(t) > CodeBlock.TailEnd(t)
  {
  }

  // ---------------------------------------------------------------------------
  // Looking them up
  // ---------------------------------------------------------------------------

  /** A verse found: its number and its stored text. */
  datatype Hit = Hit(verse: nat, text: string)

  /** Verse numbers strictly ascend, so no verse is found twice. */
  predicate HitsAscend(hits: seq<Hit>) {
    forall i, j :: 0 <= i < j < |hits| ==> hits[i].verse < hits[j].verse
  }

  /** The asked verse numbers ascend: the range counts up from the start verse. */
  lemma AskedVersesAscend(t: Tail)
    requires TailShape(t)
    ensures CodeBlock.StrictlyIncreasing(AskedVerses(t))
  {
  }

  /** After the first of ascending numbers come larger ones, still ascending. */
  lemma AskedTail(asked: seq<nat>)
    requires |asked| > 0
    ensures CodeBlock.StrictlyIncreasing(asked)
            ==> CodeBlock.StrictlyIncreasing(asked[1..]) && forall v :: v in asked[1..] ==> asked[0] < v
  {
  }

  /** A hit below every later one keeps the hits ascending. */
  lemma PrependHit(h: Hit, rest: seq<Hit>)
    ensures HitsAscend(rest) && (forall k :: 0 <= k < |rest| ==> h.verse < rest[k].verse)
            ==> HitsAscend([h] + rest)
  {
  }

  /** The asked verses the store has, in the order asked. */
  function Gather(lookup: CodeBlock.Lookup, chapter: nat, asked: seq<nat>): (r: seq<Hit>)
    ensures |r| <= |asked|
    ensures forall k :: 0 <= k < |r| ==> r[k].verse in asked && lookup(chapter, r[k].verse) == Some(r[k].text)
    ensures forall v :: v in asked && lookup(chapter, v).Some? ==> Hit(v, lookup(chapter, v).value) in r
    ensures CodeBlock.StrictlyIncreasing(asked) ==> HitsAscend(r)
  {
    if |asked| == 0 then []
    else
      var rest := Gather(lookup, chapter, asked[1..]);
      assert forall v :: v in asked[1..] ==> v in asked;
      AskedTail(asked);
      match lookup(chapter, asked[0])
      case Some(text) => PrependHit(Hit(asked[0], text), rest); [Hit(asked[0], text)] + rest
      case None => rest
  }

  /**
   * The parsed reference and the verses found for it, or the notice:
   * an unparsable reference, or one whose verses the store lacks.
   */
  function Lookup(db: Store.Db, reference: string, translation: string): (r: Result<(Reference, seq<Hit>), string>)
    ensures ParseSingle(reference).None? ==> r == Err("Invalid reference format: " + reference)
    ensures ParseSingle(reference).Some? ==>
              var Reference(book, t) := ParseSingle(reference).value;
              var lookup := CodeBlock.StoreLookup(db, book, translation);
              var c := CodeBlock.TailChapter(t);
              && (r.Err? <==> forall v :: v in AskedVerses(t) ==> lookup(c, v).None?)
              && (r.Err? ==> r.error == "Invalid reference: " + reference + " in " + translation)
              && (r.Ok? ==> r.value.0 == ParseSingle(reference).value && |r.value.1| > 0)
              && (r.Ok? ==> forall k :: 0 <= k < |r.value.1| ==>
                    r.value.1[k].verse in AskedVerses(t) && lookup(c, r.value.1[k].verse) == Some(r.value.1[k].text))
              && (r.Ok? ==> forall v :: v in AskedVerses(t) && lookup(c, v).Some? ==> Hit(v, lookup(c, v).value) in r.value.1)
              && (r.Ok? ==> HitsAscend(r.value.1))
  {
    match ParseSingle(reference)
    case None => Err("Invalid reference format: " + reference)
    case Some(Reference(book, t)) =>
      var lookup := CodeBlock.StoreLookup(db, book, translation);
      var c := CodeBlock.TailChapter(t);
      var hits := Gather(lookup, c, AskedVerses(t));
      AskedVersesAscend(t);
      if |hits| == 0 then Err("Invalid reference: " + reference + " in " + translation)
      else
        assert lookup(c, hits[0].verse).Some?;
        Ok((Reference(book, t), hits))
  }

  // ---------------------------------------------------------------------------
  // The three shapes of inserted text
  // ---------------------------------------------------------------------------

  /** Each verse's text, after its number when there is more than one verse. */
  function VerseTexts(hits: seq<Hit>): (r: seq<string>)
    ensures |r| == |hits|
    ensures |hits| > 1 ==> forall k :: 0 <= k < |r| ==> r[k] == ShowNat(hits[k].verse) + " " + hits[k].text
    ensures |hits| == 1 ==> r == [hits[0].text]
  {
    seq(|hits|, k requires 0 <= k < |hits| =>
      if |hits| > 1 then ShowNat(hits[k].verse) + " " + hits[k].text else hits[k].text)
  }

  /** The stored texts alone. */
  function Texts(hits: seq<Hit>): (r: seq<string>)
    ensures |r| == |hits| && forall k :: 0 <= k < |r| ==> r[k] == hits[k].text
  {
    seq(|hits|, k requires 0 <= k < |hits| => hits[k].text)
  }

  /** ` [o1|o2]` after the reference, only when there are options. */
  function OptionsSuffix(options: seq<string>): string {
    if |options| > 0 then " " + CodeBlock.BracketList(options) else ""
  }

  /** What goes between the fences of an inserted code block. */
  function CodeSource(translation: string, reference: string, options: seq<string>, hits: seq<Hit>): string {
    translation + " " + reference + OptionsSuffix(options) + "\n" + Join(Texts(hits), " ")
  }

  /** `[reference (translation)](url)` */
  function LinkMarkdown(reference: string, translation: string): (r: string)
    ensures exists url ::
              && r == "[" + reference + " (" + translation + ")](" + url + ")"
              && Gateway.DecodeUriComponent(Gateway.SearchTerm(url)) == Some(reference)
              && Gateway.VersionOf(url) == Gateway.GatewayVersion(translation)
  {
    var url := Gateway.GatewayUrl(reference, translation);
    Gateway.GatewayUrlRoundTrip(reference, translation);
    "[" + reference + " (" + translation + ")](" + url + ")"
  }

  function Render(output: OutputType, language: string, reference: string, translation: string,
                  options: seq<string>, hits: seq<Hit>): string
  {
    match output
    case PlainText => reference + " (" + translation + "): " + Join(VerseTexts(hits), " ")
    case LinkText => LinkMarkdown(reference, translation)
    case CodeBlockText => "```" + language + "\n" + CodeSource(translation, reference, options, hits) + "\n```"
  }

  /** `insertBibleReference`: a notice, or the rendered text in the chosen shape. */
  function InsertBibleReference(db: Store.Db, language: string, reference: string, translation: string,
                                output: OutputType, options: seq<string>): (r: Insertion)
    ensures Lookup(db, reference, translation).Err? ==> r == Notice(Lookup(db, reference, translation).error)
    ensures Lookup(db, reference, translation).Ok? ==> r.Replace?
    ensures Lookup(db, reference, translation).Ok? && output == PlainText ==>
              r.text == reference + " (" + translation + "): "
                        + Join(VerseTexts(Lookup(db, reference, translation).value.1), " ")
    ensures Lookup(db, reference, translation).Ok? && output == LinkText ==>
              r.text == LinkMarkdown(reference, translation)
    ensures Lookup(db, reference, translation).Ok? && output == CodeBlockText ==>
              r.text == "```" + language + "\n"
                        + CodeSource(translation, reference, options, Lookup(db, reference, translation).value.1) + "\n```"
  {
    var found := Lookup(db, reference, translation);
    if found.Err? then Notice(found.error)
    else Replace(Render(output, language, reference, translation, options, found.value.1))
  }

  /**
   * An inserted code block reads back as the translation, the reference and
   * the options it was written with, when the translation and the words of
   * the reference are plain words, the reference does not start with an
   * option name, and it does not end in a bracketed word.
   */
  lemma CodeSourceRoundTrip(translation: string, words: seq<string>, options: seq<string>, hits: seq<Hit>)
    requires |translation| > 0 && NoWhitespace(translation)
    requires |words| > 0 && CodeBlock.PlainWords(words)
    requires Lower(words[0]) !in CodeBlock.OptionNames
    requires CodeBlock.BracketOptions(words[|words| - 1]).None?
    requires CodeBlock.ListableNames(options)
    ensures CodeBlock.ParseHeader(CodeSource(translation, Join(words, " "), options, hits))
            == Ok(CodeBlock.Header(if |options| > 0 then CodeBlock.Flags(options) else CodeBlock.NoOptions,
                                   translation, Join(words, " ")))
  {
    var parts := HeaderParts(translation, words, options);
    var rest := "\n" + Join(Texts(hits), " ");
    CodeSourceShape(translation, words, options, hits);
    HeaderPartsPlain(translation, words, options);
    HeaderPartsRead(translation, words, options, rest);
  }

  /** The first line of an inserted code block reads back, whatever follows on the next lines. */
  lemma HeaderPartsRead(translation: string, words: seq<string>, options: seq<string>, rest: string)
    requires |words| > 0 && CodeBlock.PlainWords(HeaderParts(translation, words, options))
    requires Lower(words[0]) !in CodeBlock.OptionNames
    requires CodeBlock.BracketOptions(words[|words| - 1]).None?
    requires CodeBlock.ListableNames(options)
    requires |rest| > 0 && rest[0] == '\n'
    ensures CodeBlock.ParseHeader(Join(HeaderParts(translation, words, options), " ") + rest)
            == Ok(CodeBlock.Header(if |options| > 0 then CodeBlock.Flags(options) else CodeBlock.NoOptions,
                                   translation, Join(words, " ")))
  {
    CodeBlock.HeaderIsRead(HeaderParts(translation, words, options), rest);
    if |options| > 0 {
      HeaderReadBracket(translation, words, options);
    } else {
      HeaderReadPlain(translation, words);
    }
  }

  lemma HeaderReadPlain(translation: string, words: seq<string>)
    requires |words| > 0
    requires Lower(words[0]) !in CodeBlock.OptionNames
    requires CodeBlock.BracketOptions(words[|words| - 1]).None?
    ensures CodeBlock.ReadHeader([translation] + words) == Ok(CodeBlock.Header(CodeBlock.NoOptions, translation, Join(words, " ")))
  {
    var parts := [translation] + words;
    assert parts[1] == words[0];
    assert parts[|parts| - 1] == words[|words| - 1];
    CodeBlock.ReadHeaderNoBracket(parts);
    assert parts[1..] == words;
  }

  lemma HeaderReadBracket(translation: string, words: seq<string>, options: seq<string>)
    requires |words| > 0 && |options| > 0
    requires Lower(words[0]) !in CodeBlock.OptionNames
    requires CodeBlock.ListableNames(options)
    ensures CodeBlock.ReadHeader([translation] + words + [CodeBlock.BracketList(options)])
            == Ok(CodeBlock.Header(CodeBlock.Flags(options), translation, Join(words, " ")))
  {
    var parts := [translation] + words + [CodeBlock.BracketList(options)];
    Framed(translation, words, CodeBlock.BracketList(options));
    CodeBlock.ReadHeaderBracket(parts, options);
  }

  /** The middle of `[first] + middle + [last]`, seen from its ends. */
  lemma Framed<T>(first: T, middle: seq<T>, last: T)
    requires |middle| > 0
    ensures var s := [first] + middle + [last];
            s[0] == first && s[1] == middle[0] && s[|s| - 1] == last && s[1..|s| - 1] == middle
  {
    var s := [first] + middle + [last];
    assert s[1..|s| - 1] == middle;
  }

  /** The text between the fences is the first line, then the verses on the next line. */
  lemma CodeSourceShape(translation: string, words: seq<string>, options: seq<string>, hits: seq<Hit>)
    requires |words| > 0
    ensures CodeSource(translation, Join(words, " "), options, hits)
            == Join(HeaderParts(translation, words, options), " ") + ("\n" + Join(Texts(hits), " "))
  {
    HeaderWords(translation, words, options);
  }

  /** The words of the first line of an inserted code block. */
  function HeaderParts(translation: string, words: seq<string>, options: seq<string>): seq<string> {
    if |options| > 0 then [translation] + words + [CodeBlock.BracketList(options)] else [translation] + words
  }

  /** The first line of an inserted code block is its words joined by spaces. */
  lemma HeaderWords(translation: string, words: seq<string>, options: seq<string>)
    requires |words| > 0
    ensures translation + " " + Join(words, " ") + OptionsSuffix(options) == Join(HeaderParts(translation, words, options), " ")
  {
    JoinCons(translation, words, " ");
    if |options| > 0 {
      HeaderWithBracket(translation, words, options);
    } else {
      assert HeaderParts(translation, words, options) == [translation] + words;
    }
  }

  lemma HeaderWithBracket(translation: string, words: seq<string>, options: seq<string>)
    requires |words| > 0 && |options| > 0
    ensures Join(HeaderParts(translation, words, options), " ") == Join([translation] + words, " ") + " " + CodeBlock.BracketList(options)
  {
    var b := CodeBlock.BracketList(options);
    JoinAppend([translation] + words, [b], " ");
    assert Join([b], " ") == b;
    assert HeaderParts(translation, words, options) == [translation] + words + [b];
  }

  lemma JoinCons(x: string, rest: seq<string>, sep: string)
    requires |rest| > 0
    ensures Join([x] + rest, sep) == x + sep + Join(rest, sep)
  {
    assert ([x] + rest)[1..] == rest;
  }

  /** The words of the first line are plain words. */
  lemma HeaderPartsPlain(translation: string, words: seq<string>, options: seq<string>)
    requires |translation| > 0 && NoWhitespace(translation)
    requires CodeBlock.PlainWords(words)
    requires CodeBlock.ListableNames(options)
    ensures CodeBlock.PlainWords(HeaderParts(translation, words, options))
  {
    if |options| > 0 {
      BracketListPlain(options);
    }
  }

  /** A bracketed list of listable names has no whitespace. */
  lemma BracketListPlain(names: seq<string>)
    requires CodeBlock.ListableNames(names)
    ensures |CodeBlock.BracketList(names)| > 0 && NoWhitespace(CodeBlock.BracketList(names))
  {
    JoinNoWhitespace(names);
    var inner := Join(names, "|");
    var b := CodeBlock.BracketList(names);
    forall i | 0 <= i < |b| ensures !IsWhitespace(b[i]) {
      if 0 < i < |b| - 1 {
        assert b[i] == inner[i - 1];
      }
    }
  }

  lemma {:induction false} JoinNoWhitespace(names: seq<string>)
    requires forall k :: 0 <= k < |names| ==> NoWhitespace(names[k])
    ensures NoWhitespace(Join(names, "|"))
    decreases |names|
  {
    if |names| > 1 {
      JoinNoWhitespace(names[1..]);
      var tail := Join(names[1..], "|");
      var j := Join(names, "|");
      assert j == names[0] + "|" + tail;
      forall i | 0 <= i < |j| ensures !IsWhitespace(j[i]) {
        if i < |names[0]| {
          assert j[i] == names[0][i];
        } else if i > |names[0]| {
          assert j[i] == tail[i - |names[0]| - 1];
        }
      }
    }
  }

  // ---------------------------------------------------------------------------
  // Shortcut commands
  // ---------------------------------------------------------------------------

  /**
   * `insertShortcutReference`: `Book C:V` only; the verse must exist in the
   * default translation; then the reference is inserted as usual, without
   * options.
   */
  function InsertShortcutReference(db: Store.Db, settings: Settings, reference: string): (r: Insertion)
    ensures ParseShortcut(reference).None? ==> r == Notice("Invalid reference format: " + reference)
    ensures ParseShortcut(reference).Some? ==>
              var (b, c, v) := ParseShortcut(reference).value;
              Store.GetVerse(db, b, NumeralValue(c), NumeralValue(v), settings.defaultTranslation).None?
              ==> r == Notice("Verse not found: " + reference + " in " + settings.defaultTranslation)
    ensures ParseShortcut(reference).Some? ==>
              var (b, c, v) := ParseShortcut(reference).value;
              Store.GetVerse(db, b, NumeralValue(c), NumeralValue(v), settings.defaultTranslation).Some?
              ==> r == InsertBibleReference(db, settings.codeBlockLanguage, reference, settings.defaultTranslation, settings.outputType, [])
  {
    match ParseShortcut(reference)
    case None => Notice("Invalid reference format: " + reference)
    case Some((b, c, v)) =>
      if Store.GetVerse(db, b, NumeralValue(c), NumeralValue(v), settings.defaultTranslation).None? then
        Notice("Verse not found: " + reference + " in " + settings.defaultTranslation)
      else
        InsertBibleReference(db, settings.codeBlockLanguage, reference, settings.defaultTranslation, settings.outputType, [])
  }

  /** A shortcut whose verse exists is always inserted: the general path finds the same verse. */
  lemma ShortcutInserted(db: Store.Db, settings: Settings, reference: string)
    requires ParseShortcut(reference).Some?
    requires var (b, c, v) := ParseShortcut(reference).value;
             Store.GetVerse(db, b, NumeralValue(c), NumeralValue(v), settings.defaultTranslation).Some?
    ensures InsertShortcutReference(db, settings, reference).Replace?
  {
    var (b, c, v) := ParseShortcut(reference).value;
    ShortcutIsSingle(reference);
    SingleVerseFound(db, reference, settings.defaultTranslation, b, c, v);
  }

  /** A reference that parses as one verse the store has is looked up successfully. */
  lemma SingleVerseFound(db: Store.Db, reference: string, translation: string, b: string, c: string, v: string)
    requires ParseSingle(reference) == Some(Reference(b, Tail(c, Some(v), None)))
    requires Store.GetVerse(db, b, NumeralValue(c), NumeralValue(v), translation).Some?
    ensures Lookup(db, reference, translation).Ok?
  {
    var t := Tail(c, Some(v), None);
    SingleAsked(c, v);
    StoreLookupHas(db, b, translation, NumeralValue(c), NumeralValue(v));
    LookupFinds(db, reference, translation, b, t, NumeralValue(v));
  }

  lemma SingleAsked(c: string, v: string)
    requires TailShape(Tail(c, Some(v), None))
    ensures NumeralValue(v) in AskedVerses(Tail(c, Some(v), None))
  {
  }

  lemma StoreLookupHas(db: Store.Db, b: string, translation: string, c: nat, v: nat)
    requires Store.GetVerse(db, b, c, v, translation).Some?
    ensures CodeBlock.StoreLookup(db, b, translation)(c, v).Some?
  {
  }

  /** One asked verse that the store has is enough for the lookup to succeed. */
  lemma LookupFinds(db: Store.Db, reference: string, translation: string, b: string, t: Tail, v: nat)
    requires ParseSingle(reference) == Some(Reference(b, t))
    requires v in AskedVerses(t)
    requires CodeBlock.StoreLookup(db, b, translation)(CodeBlock.TailChapter(t), v).Some?
    ensures Lookup(db, reference, translation).Ok?
  {
  }

  // ---------------------------------------------------------------------------
  // formatReference
  // ---------------------------------------------------------------------------

  const BookAbbreviations: map<string, string> := map[
    "Genesis" := "Gen", "Exodus" := "Exo", "Leviticus" := "Lev", "Numbers" := "Num", "Deuteronomy" := "Deu",
    "Joshua" := "Jos", "Judges" := "Jdg", "Ruth" := "Rut", "1 Samuel" := "1Sa", "2 Samuel" := "2Sa",
    "1 Kings" := "1Ki", "2 Kings" := "2Ki", "1 Chronicles" := "1Ch", "2 Chronicles" := "2Ch",
    "Ezra" := "Ezr", "Nehemiah" := "Neh", "Esther" := "Est", "Job" := "Job", "Psalms" := "Psa",
    "Proverbs" := "Pro", "Ecclesiastes" := "Ecc", "Song of Solomon" := "Sng", "Isaiah" := "Isa",
    "Jeremiah" := "Jer", "Lamentations" := "Lam", "Ezekiel" := "Ezk", "Daniel" := "Dan",
    "Hosea" := "Hos", "Joel" := "Jol", "Amos" := "Amo", "Obadiah" := "Oba", "Jonah" := "Jon",
    "Micah" := "Mic", "Nahum" := "Nah", "Habakkuk" := "Hab", "Zephaniah" := "Zep", "Haggai" := "Hag",
    "Zechariah" := "Zec", "Malachi" := "Mal", "Matthew" := "Mat", "Mark" := "Mrk", "Luke" := "Luk",
    "John" := "Jhn", "Acts" := "Act", "Romans" := "Rom", "1 Corinthians" := "1Co", "2 Corinthians" := "2Co",
    "Galatians" := "Gal", "Ephesians" := "Eph", "Philippians" := "Php", "Colossians" := "Col",
    "1 Thessalonians" := "1Th", "2 Thessalonians" := "2Th", "1 Timothy" := "1Ti", "2 Timothy" := "2Ti",
    "Titus" := "Tit", "Philemon" := "Phm", "Hebrews" := "Heb", "James" := "Jas", "1 Peter" := "1Pe",
    "2 Peter" := "2Pe", "1 John" := "1Jn", "2 John" := "2Jn", "3 John" := "3Jn", "Jude" := "Jud",
    "Revelation" := "Rev"
  ]

  /** The book as shown: its abbreviation when asked for and known, the name otherwise. */
  function ShownBook(book: string, showBookAbbr: bool): (r: string)
    ensures showBookAbbr && book in BookAbbreviations ==> r == BookAbbreviations[book]
    ensures !(showBookAbbr && book in BookAbbreviations) ==> r == book
  {
    if showBookAbbr && book in BookAbbreviations then BookAbbreviations[book] else book
  }

  /** `C:V` */
  function ChapterVerse(chapter: nat, verse: nat): string {
    ShowNat(chapter) + ":" + ShowNat(verse)
  }

  /** `Book C:V`, then ` TRANSLATION` when the translation is to be shown. */
  function FormatReference(settings: Settings, book: string, chapter: nat, verse: nat, translation: string): (r: string)
    ensures settings.showTranslationAbbr ==> EndsWith(r, " " + translation)
  {
    var base := ShownBook(book, settings.showBookAbbr) + " " + ChapterVerse(chapter, verse);
    if settings.showTranslationAbbr then base + " " + translation else base
  }

  /**
   * Without the translation, a formatted reference reads back by the
   * single-chapter grammar as the shown book, the chapter and the verse.
   */
  lemma FormatReferenceRoundTrip(settings: Settings, book: string, chapter: nat, verse: nat, translation: string)
    requires PlainBook(ShownBook(book, settings.showBookAbbr)) && !settings.showTranslationAbbr
    ensures ParseSingle(FormatReference(settings, book, chapter, verse, translation))
            == Some(Reference(ShownBook(book, settings.showBookAbbr), Tail(ShowNat(chapter), Some(ShowNat(verse)), None)))
  {
    var b := ShownBook(book, settings.showBookAbbr);
    var t := Tail(ShowNat(chapter), Some(ShowNat(verse)), None);
    assert TailBody(t) == ChapterVerse(chapter, verse);
    ParseSingleRoundTrip(b, " ", t);
  }

  /**
   * With the translation shown, a formatted reference is the plain one
   * followed by a space and the translation, so it too reads back as the
   * shown book, the chapter and the verse once that ending is taken off.
   */
  lemma FormatReferenceShowsTranslation(settings: Settings, book: string, chapter: nat, verse: nat, translation: string)
    requires PlainBook(ShownBook(book, settings.showBookAbbr)) && settings.showTranslationAbbr
    ensures FormatReference(settings, book, chapter, verse, translation)
            == FormatReference(settings.(showTranslationAbbr := false), book, chapter, verse, translation) + " " + translation
    ensures ParseSingle(FormatReference(settings.(showTranslationAbbr := false), book, chapter, verse, translation))
            == Some(Reference(ShownBook(book, settings.showBookAbbr), Tail(ShowNat(chapter), Some(ShowNat(verse)), None)))
  {
    FormatReferenceRoundTrip(settings.(showTranslationAbbr := false), book, chapter, verse, translation);
  }
}

=== FILE: rules.dfy ===
/**
 * A translation's processing rules: regular-expression rewrites applied to a
 * verse's text before it is shown (`applyProcessingRules` and `escapeHtml` in
 * src/database.ts).
 *
 * The regular-expression engine itself is a parameter: an `Engine` maps a
 * pattern and a subject to either a syntax error or the list of matches a
 * global (`g`) search finds, each with its capture groups. What the plugin
 * does with those matches is modelled: the replacement-template
 * language of `String.prototype.replace` (section 21.1.3.14.1 of ECMAScript
 * 2015, `GetSubstitution`), the escaping of captures, and the throws that make
 * an escaping rule a no-op: a group that did not take part, or a pattern with
 * named groups, whose extra replacer argument shifts the match offset into
 * the loop over captures. One thing is not: the `$<name>` references that
 * later editions substitute in plain rules of such a pattern are read
 * literally here.
 */
module Rules {
  import opened Wrappers
  import opened Text

  /** A rule: `regex` is compiled with the `g` flag; an absent `escape` is `false`. */
  datatype ProcessingRule = ProcessingRule(regex: string, formatting: string, escape: bool)

  /**
   * One match: where it starts, the text it covers, and capture groups 1..m
   * (`None` for a group that did not take part in the match).
   */
  datatype Match = Match(index: nat, text: string, groups: seq<Option<string>>)
  {
    function End(): nat {
      index + |text|
    }
  }

  /**
   * The outcome of compiling a pattern and searching a subject globally.
   * `named` tells whether the pattern declares a named group (`(?<name>...)`);
   * `replace` then passes its replacer one more argument.
   */
  datatype Execution = SyntaxError | Matches(found: seq<Match>, named: bool)

  type Engine = (string, string) -> Execution

  /** Matches lie inside the subject, in order, without overlapping. */
  ghost predicate WellFormedMatches(subject: string, ms: seq<Match>) {
    && (forall k :: 0 <= k < |ms| ==> OccursAt(subject, ms[k].text, ms[k].index))
    && (forall k :: 0 < k < |ms| ==> ms[k - 1].End() <= ms[k].index)
  }

  /** What is assumed of the engine: every list of matches it reports is well formed. */
  ghost predicate SoundEngine(exec: Engine) {
    forall pattern, subject :: exec(pattern, subject).Matches? ==> WellFormedMatches(subject, exec(pattern, subject).found)
  }

  lemma WellFormedTail(subject: string, ms: seq<Match>)
    requires WellFormedMatches(subject, ms) && |ms| > 0
    ensures WellFormedMatches(subject, ms[1..])
    ensures ms[0].End() <= |subject|
    ensures |ms| > 1 ==> ms[0].End() <= ms[1].index
  {
    assert OccursAt(subject, ms[0].text, ms[0].index);
    forall k | 0 < k < |ms| - 1 ensures ms[1..][k - 1].End() <= ms[1..][k].index {
      assert ms[1..][k - 1] == ms[k] && ms[1..][k] == ms[k + 1];
    }
    forall k | 0 <= k < |ms| - 1 ensures OccursAt(subject, ms[1..][k].text, ms[1..][k].index) {
      assert ms[1..][k] == ms[k + 1];
    }
  }

  // ---------------------------------------------------------------------------
  // Global replacement
  // ---------------------------------------------------------------------------

  /**
   * The subject from `from` on, with the k-th match replaced by `reps[k]` and
   * the text between matches kept.
   */
  function Splice(subject: string, ms: seq<Match>, reps: seq<string>, from: nat): (r: string)
    requires WellFormedMatches(subject, ms) && |reps| == |ms|
    requires from <= |subject| && (|ms| > 0 ==> from <= ms[0].index)
    decreases |ms|
  {
    if |ms| == 0 then subject[from..]
    else
      WellFormedTail(subject, ms);
      subject[from..ms[0].index] + reps[0] + Splice(subject, ms[1..], reps[1..], ms[0].End())
  }

  /** Replacing every match with its own text gives the subject back. */
  lemma {:induction false} SpliceIdentity(subject: string, ms: seq<Match>, reps: seq<string>, from: nat)
    requires WellFormedMatches(subject, ms) && |reps| == |ms|
    requires from <= |subject| && (|ms| > 0 ==> from <= ms[0].index)
    requires forall k :: 0 <= k < |ms| ==> reps[k] == ms[k].text
    ensures Splice(subject, ms, reps, from) == subject[from..]
  {
    if |ms| > 0 {
      WellFormedTail(subject, ms);
      SpliceIdentity(subject, ms[1..], reps[1..], ms[0].End());
      assert OccursAt(subject, ms[0].text, ms[0].index);
      assert subject[from..] == subject[from..ms[0].index] + subject[ms[0].index..ms[0].End()] + subject[ms[0].End()..];
    }
  }

  /** With no match the subject is returned unchanged. */
  lemma SpliceNone(subject: string, from: nat)
    requires from <= |subject|
    ensures Splice(subject, [], [], from) == subject[from..]
  {
  }

  // ---------------------------------------------------------------------------
  // Replacement templates (GetSubstitution)
  // ---------------------------------------------------------------------------

  /**
   * The replacement text for one match: `$$` is a dollar sign, `$&` the match,
   * `` $` `` the text before it, `$'` the text after it, `$n` and `$nn` a
   * capture (the empty string when the group did not take part). A two-digit
   * reference beyond the number of groups is read as a one-digit reference
   * followed by a digit; any other `$` is literal.
   */
  function Substitute(tpl: string, matched: string, subject: string, position: nat, captures: seq<Option<string>>): (r: string)
    requires position + |matched| <= |subject|
    decreases |tpl|
  {
    if |tpl| == 0 then ""
    else if tpl[0] != '$' || |tpl| == 1 then [tpl[0]] + Substitute(tpl[1..], matched, subject, position, captures)
    else
      var c := tpl[1];
      if c == '$' then "$" + Substitute(tpl[2..], matched, subject, position, captures)
      else if c == '&' then matched + Substitute(tpl[2..], matched, subject, position, captures)
      else if c == '`' then subject[..position] + Substitute(tpl[2..], matched, subject, position, captures)
      else if c == '\'' then subject[position + |matched|..] + Substitute(tpl[2..], matched, subject, position, captures)
      else if IsDigit(c) && |tpl| >= 3 && IsDigit(tpl[2])
           && 1 <= 10 * DigitValue(c) + DigitValue(tpl[2]) <= |captures| then
        captures[10 * DigitValue(c) + DigitValue(tpl[2]) - 1].GetOr("")
          + Substitute(tpl[3..], matched, subject, position, captures)
      else if IsDigit(c) && 1 <= DigitValue(c) <= |captures| then
        captures[DigitValue(c) - 1].GetOr("") + Substitute(tpl[2..], matched, subject, position, captures)
      else "$" + Substitute(tpl[1..], matched, subject, position, captures)
  }

  /** A template without `$` is inserted as it is. */
  lemma {:induction false} SubstitutePlain(tpl: string, matched: string, subject: string, position: nat, captures: seq<Option<string>>)
    requires position + |matched| <= |subject|
    requires '$' !in tpl
    ensures Substitute(tpl, matched, subject, position, captures) == tpl
  {
    if |tpl| > 0 {
      assert tpl[0] != '$';
      assert '$' !in tpl[1..];
      SubstitutePlain(tpl[1..], matched, subject, position, captures);
      assert tpl == [tpl[0]] + tpl[1..];
    }
  }

  /** Doubles every `$`, so that the template stands for the text itself. */
  function QuoteTemplate(s: string): (r: string)
    ensures |r| >= |s|
  {
    if |s| == 0 then ""
    else (if s[0] == '$' then "$$" else [s[0]]) + QuoteTemplate(s[1..])
  }

  /** A quoted template is replaced by exactly the text that was quoted. */
  lemma {:induction false} SubstituteQuoted(s: string, matched: string, subject: string, position: nat, captures: seq<Option<string>>)
    requires position + |matched| <= |subject|
    ensures Substitute(QuoteTemplate(s), matched, subject, position, captures) == s
  {
    if |s| > 0 {
      var q := QuoteTemplate(s[1..]);
      SubstituteQuoted(s[1..], matched, subject, position, captures);
      if s[0] == '$' {
        var t := "$$" + q;
        assert t[0] == '$' && t[1] == '$' && t[2..] == q;
      } else {
        var t := [s[0]] + q;
        assert t[0] == s[0] && t[1..] == q;
      }
      assert s == [s[0]] + s[1..];
    }
  }

  /** `$&` alone stands for the match. */
  lemma SubstituteWholeMatch(matched: string, subject: string, position: nat, captures: seq<Option<string>>)
    requires position + |matched| <= |subject|
    ensures Substitute("$&", matched, subject, position, captures) == matched
  {
    var t := "$&";
    assert t[2..] == "";
  }

  /** `$1` stands for the first capture, or nothing when the group did not take part. */
  lemma SubstituteFirstCapture(matched: string, subject: string, position: nat, captures: seq<Option<string>>)
    requires position + |matched| <= |subject|
    requires |captures| >= 1
    ensures Substitute("$1", matched, subject, position, captures) == captures[0].GetOr("")
  {
    var t := "$1";
    assert t[2..] == "";
  }

  // ---------------------------------------------------------------------------
  // escapeHtml
  // ---------------------------------------------------------------------------

  /** The characters `escapeHtml` rewrites. */
  predicate IsHtmlSpecial(c: char) {
    c == '&' || c == '<' || c == '>' || c == '[' || c == ']'
  }

  function EscapeChar(c: char): string {
    if c == '&' then "&amp;"
    else if c == '<' then "&lt;"
    else if c == '>' then "&gt;"
    else if c == '[' then "&#91;"
    else if c == ']' then "&#93;"
    else [c]
  }

  /** `escapeHtml(s)`: entities for `&`, `<`, `>`, `[` and `]`, everything else kept. */
  function EscapeHtml(s: string): (r: string)
    ensures forall i :: 0 <= i < |r| ==> r[i] != '<' && r[i] != '>' && r[i] != '[' && r[i] != ']'
    ensures |r| >= |s|
  {
    if |s| == 0 then "" else EscapeChar(s[0]) + EscapeHtml(s[1..])
  }

  /** Decodes the five entities `escapeHtml` produces. */
  function UnescapeHtml(s: string): (r: string)
    decreases |s|
  {
    if |s| == 0 then ""
    else if StartsWith(s, "&amp;") then "&" + UnescapeHtml(s[5..])
    else if StartsWith(s, "&lt;") then "<" + UnescapeHtml(s[4..])
    else if StartsWith(s, "&gt;") then ">" + UnescapeHtml(s[4..])
    else if StartsWith(s, "&#91;") then "[" + UnescapeHtml(s[5..])
    else if StartsWith(s, "&#93;") then "]" + UnescapeHtml(s[5..])
    else [s[0]] + UnescapeHtml(s[1..])
  }

  /** Escaping loses nothing: decoding gives the original text back. */
  lemma {:induction false} UnescapeEscape(s: string)
    ensures UnescapeHtml(EscapeHtml(s)) == s
  {
    if |s| > 0 {
      UnescapeEscape(s[1..]);
      UnescapeChar(s[0], EscapeHtml(s[1..]));
      assert s == [s[0]] + s[1..];
    }
  }

  /** One escaped character decodes to itself, whatever follows it. */
  lemma UnescapeChar(c: char, rest: string)
    ensures UnescapeHtml(EscapeChar(c) + rest) == [c] + UnescapeHtml(rest)
  {
    if c == '&' {
      UnescapeEntity("&amp;", rest);
    } else if c == '<' {
      UnescapeEntity("&lt;", rest);
    } else if c == '>' {
      UnescapeEntity("&gt;", rest);
    } else if c == '[' {
      UnescapeEntity("&#91;", rest);
    } else if c == ']' {
      UnescapeEntity("&#93;", rest);
    } else {
      var t := [c] + rest;
      assert t[0] == c && t[1..] == rest;
    }
  }

  /** An entity at the front is decoded and the rest is decoded after it. */
  lemma UnescapeEntity(e: string, rest: string)
    requires e in ["&amp;", "&lt;", "&gt;", "&#91;", "&#93;"]
    ensures UnescapeHtml(e + rest) == [EntityChar(e)] + UnescapeHtml(rest)
  {
    var t := e + rest;
    assert t[..|e|] == e && t[|e|..] == rest;
    assert t[1] == e[1] && t[3] == e[3];
  }

  /** The character an entity stands for. */
  function EntityChar(e: string): char {
    if e == "&amp;" then '&' else if e == "&lt;" then '<' else if e == "&gt;" then '>'
    else if e == "&#91;" then '[' else ']'
  }

  /** Text without the five special characters is left as it is, and only such text. */
  lemma {:induction false} EscapeHtmlUnchanged(s: string)
    ensures EscapeHtml(s) == s <==> forall i :: 0 <= i < |s| ==> !IsHtmlSpecial(s[i])
  {
    if |s| > 0 {
      EscapeHtmlUnchanged(s[1..]);
      var rest := EscapeHtml(s[1..]);
      if IsHtmlSpecial(s[0]) {
        assert |EscapeHtml(s)| > |s|;
      } else {
        assert EscapeHtml(s) == [s[0]] + rest;
        assert s == [s[0]] + s[1..];
        assert (forall i :: 0 <= i < |s| ==> !IsHtmlSpecial(s[i]))
           <==> (forall i :: 0 <= i < |s| - 1 ==> !IsHtmlSpecial(s[1..][i]));
      }
    }
  }

  // ---------------------------------------------------------------------------
  // Literal search and replace (`str.replace(/\$1/g, t)`)
  // ---------------------------------------------------------------------------

  /** The occurrences of `needle` from `from` on, leftmost first, not overlapping. */
  function FindLiteral(s: string, needle: string, from: nat): (ms: seq<Match>)
    requires |needle| > 0 && from <= |s|
    ensures WellFormedMatches(s, ms)
    ensures forall k :: 0 <= k < |ms| ==> ms[k].text == needle && ms[k].groups == [] && ms[k].index >= from
    decreases |s| - from
  {
    if from + |needle| > |s| then []
    else if OccursAt(s, needle, from) then [Match(from, needle, [])] + FindLiteral(s, needle, from + |needle|)
    else FindLiteral(s, needle, from + 1)
  }

  /** Where `needle` does not occur, nothing is found. */
  lemma {:induction false} FindLiteralAbsent(s: string, needle: string, from: nat)
    requires |needle| > 0 && from <= |s|
    requires forall i :: from <= i ==> !OccursAt(s, needle, i)
    ensures FindLiteral(s, needle, from) == []
    decreases |s| - from
  {
    if from + |needle| <= |s| {
      FindLiteralAbsent(s, needle, from + 1);
    }
  }

  /** Each occurrence found is replaced by the template read against it, with no captures. */
  function ReplaceAllLiteral(s: string, needle: string, tpl: string): (r: string)
    requires |needle| > 0
  {
    var ms := FindLiteral(s, needle, 0);
    Splice(s, ms, seq(|ms|, k requires 0 <= k < |ms| => Substitute(tpl, needle, s, ms[k].index, [])), 0)
  }

  /** Text without the needle is left unchanged. */
  lemma ReplaceAllLiteralAbsent(s: string, needle: string, tpl: string)
    requires |needle| > 0
    requires !Includes(s, needle)
    ensures ReplaceAllLiteral(s, needle, tpl) == s
  {
    FindLiteralAbsent(s, needle, 0);
  }

  // ---------------------------------------------------------------------------
  // One rule, then all of a translation's rules
  // ---------------------------------------------------------------------------

  /** The replacement text of every match in the plain (template) mode. */
  function TemplateReplacements(subject: string, ms: seq<Match>, tpl: string): (reps: seq<string>)
    requires WellFormedMatches(subject, ms)
    ensures |reps| == |ms|
  {
    seq(|ms|, k requires 0 <= k < |ms| => Substitute(tpl, ms[k].text, subject, ms[k].index, ms[k].groups))
  }

  /**
   * Escape mode, one match: `$1`..`$m` in the formatting are replaced, in
   * that order, by the escaped captures, then `$&` by the escaped match. The
   * escaped text is itself read as a replacement template. `None` is the
   * `TypeError` that `escapeHtml(undefined)` throws for a group that did not
   * take part.
   */
  function EscapedReplacement(formatting: string, m: Match): (r: Option<string>)
    ensures r.None? <==> exists i | 0 <= i < |m.groups| :: m.groups[i].None?
  {
    if exists i | 0 <= i < |m.groups| :: m.groups[i].None? then None
    else
      var values := seq(|m.groups|, i requires 0 <= i < |m.groups| => m.groups[i].value);
      Some(ReplaceAllLiteral(FillCaptures(formatting, values, 1), "$&", EscapeHtml(m.text)))
  }

  function FillCaptures(result: string, values: seq<string>, i: nat): string
    requires 1 <= i <= |values| + 1
    decreases |values| + 1 - i
  {
    if i > |values| then result
    else FillCaptures(ReplaceAllLiteral(result, "$" + ShowNat(i), EscapeHtml(values[i - 1])), values, i + 1)
  }

  /** Escape mode, every match; `None` when any of them throws. */
  function EscapedReplacements(ms: seq<Match>, formatting: string): (r: Option<seq<string>>)
    ensures r.Some? ==> |r.value| == |ms|
    ensures r.None? <==> exists k | 0 <= k < |ms| :: EscapedReplacement(formatting, ms[k]).None?
  {
    if |ms| == 0 then Some([])
    else
      var head := EscapedReplacement(formatting, ms[0]);
      var tail := EscapedReplacements(ms[1..], formatting);
      assert forall k | 1 <= k < |ms| :: ms[1..][k - 1] == ms[k];
      if head.None? || tail.None? then None else Some([head.value] + tail.value)
  }

  /**
   * Escape mode, the whole search: `None` when the replacer throws. With a
   * named group the replacer gets the named groups as a last argument, so its
   * loop over captures reaches the numeric offset, and `escapeHtml` of a
   * number throws at the first match.
   */
  function EscapedOutcome(ms: seq<Match>, named: bool, formatting: string): (r: Option<seq<string>>)
    ensures named && |ms| > 0 ==> r.None?
    ensures !named ==> r == EscapedReplacements(ms, formatting)
  {
    if named && |ms| > 0 then None else EscapedReplacements(ms, formatting)
  }

  /**
   * One rule applied to the text. A pattern that does not compile, or a
   * replacement that throws, leaves the text as it was.
   */
  function ApplyRule(rule: ProcessingRule, text: string, exec: Engine): (r: string)
    requires SoundEngine(exec)
    ensures exec(rule.regex, text).SyntaxError? ==> r == text
    ensures exec(rule.regex, text).Matches? && exec(rule.regex, text).found == [] ==> r == text
    ensures (exec(rule.regex, text).Matches? && rule.escape
             && EscapedReplacements(exec(rule.regex, text).found, rule.formatting).None?) ==> r == text
    ensures exec(rule.regex, text).Matches? && exec(rule.regex, text).named && rule.escape ==> r == text
  {
    match exec(rule.regex, text)
    case SyntaxError => text
    case Matches(ms, named) =>
      if !rule.escape then Splice(text, ms, TemplateReplacements(text, ms, rule.formatting), 0)
      else match EscapedOutcome(ms, named, rule.formatting)
        case None => text
        case Some(reps) => Splice(text, ms, reps, 0)
  }

  /** The rules in order, each on the output of the one before. */
  function ApplyRules(rules: seq<ProcessingRule>, text: string, exec: Engine): (r: string)
    requires SoundEngine(exec)
    ensures |rules| == 0 ==> r == text
    decreases |rules|
  {
    if |rules| == 0 then text else ApplyRules(rules[1..], ApplyRule(rules[0], text, exec), exec)
  }

  /** Applying two lists of rules is applying the first, then the second. */
  lemma {:induction false} ApplyRulesAppend(r1: seq<ProcessingRule>, r2: seq<ProcessingRule>, text: string, exec: Engine)
    requires SoundEngine(exec)
    ensures ApplyRules(r1 + r2, text, exec) == ApplyRules(r2, ApplyRules(r1, text, exec), exec)
    decreases |r1|
  {
    if |r1| == 0 {
      assert r1 + r2 == r2;
    } else {
      var next := ApplyRule(r1[0], text, exec);
      assert (r1 + r2)[0] == r1[0] && (r1 + r2)[1..] == r1[1..] + r2;
      ApplyRulesAppend(r1[1..], r2, next, exec);
    }
  }

  /** A non-empty list applies its first rule, then the others. */
  lemma ApplyRulesStep(rules: seq<ProcessingRule>, first: ProcessingRule, others: seq<ProcessingRule>, text: string, exec: Engine)
    requires SoundEngine(exec)
    requires rules == [first] + others
    ensures ApplyRules(rules, text, exec) == ApplyRules(others, ApplyRule(first, text, exec), exec)
  {
    assert rules[1..] == others;
  }

  /** A plain rule whose formatting is `$&` puts every match back: the text is unchanged. */
  lemma WholeMatchRuleIsIdentity(regex: string, text: string, exec: Engine)
    requires SoundEngine(exec)
    ensures ApplyRule(ProcessingRule(regex, "$&", false), text, exec) == text
  {
    match exec(regex, text)
    case SyntaxError =>
    case Matches(ms, _) =>
      var reps := TemplateReplacements(text, ms, "$&");
      forall k | 0 <= k < |ms| ensures reps[k] == ms[k].text {
        assert OccursAt(text, ms[k].text, ms[k].index);
        SubstituteWholeMatch(ms[k].text, text, ms[k].index, ms[k].groups);
      }
      SpliceIdentity(text, ms, reps, 0);
  }

  /** A plain rule whose formatting has no `$` replaces every match with that formatting. */
  lemma PlainFormattingIsLiteral(rule: ProcessingRule, text: string, exec: Engine)
    requires SoundEngine(exec)
    requires !rule.escape && '$' !in rule.formatting
    requires exec(rule.regex, text).Matches?
    ensures ApplyRule(rule, text, exec)
         == Splice(text, exec(rule.regex, text).found, seq(|exec(rule.regex, text).found|, _ => rule.formatting), 0)
  {
    var ms := exec(rule.regex, text).found;
    var reps := TemplateReplacements(text, ms, rule.formatting);
    forall k | 0 <= k < |ms| ensures reps[k] == rule.formatting {
      assert OccursAt(text, ms[k].text, ms[k].index);
      SubstitutePlain(rule.formatting, ms[k].text, text, ms[k].index, ms[k].groups);
    }
    assert reps == seq(|ms|, _ => rule.formatting);
  }

  // ---------------------------------------------------------------------------
  // Escape mode: what a replacement holds
  // ---------------------------------------------------------------------------

  /** No `$` is followed by a digit, so no `$n` can be found. */
  predicate NoCaptureReference(s: string) {
    forall k | 0 <= k < |s| - 1 :: s[k] == '$' ==> !IsDigit(s[k + 1])
  }

  /** Escaping adds no `$`. */
  lemma {:induction false} EscapeHtmlNoDollar(s: string)
    requires '$' !in s
    ensures '$' !in EscapeHtml(s)
  {
    if |s| > 0 {
      assert s[0] in s;
      assert '$' !in s[1..];
      EscapeHtmlNoDollar(s[1..]);
    }
  }

  /** Text without `$` holds no `$`-led needle. */
  lemma DollarFreeExcludes(s: string, needle: string)
    requires '$' !in s && |needle| > 0 && needle[0] == '$'
    ensures !Includes(s, needle)
  {
    forall i | 0 <= i <= |s| - |needle| ensures !OccursAt(s, needle, i) {
      assert s[i] in s;
      assert s[i..i + |needle|][0] == s[i];
    }
  }

  /** Text without `$` holds no `$n`. */
  lemma DollarFreeNoReference(s: string)
    requires '$' !in s
    ensures NoCaptureReference(s)
  {
    forall k | 0 <= k < |s| - 1 ensures s[k] != '$' {
      assert s[k] in s;
    }
  }

  /** A character of `pre + x + post` with `x = "$c"`: only position `|pre|` holds a `$`. */
  lemma CharAround(pre: string, x: string, post: string, i: nat)
    requires '$' !in pre && '$' !in post && |x| == 2 && x[0] == '$'
    requires i < |pre| + 2 + |post|
    ensures (pre + x + post)[i] == '$' <==> i == |pre| || (i == |pre| + 1 && x[1] == '$')
    ensures i == |pre| + 1 ==> (pre + x + post)[i] == x[1]
  {
    var s := pre + x + post;
    if i < |pre| {
      assert s[i] == pre[i] && pre[i] in pre;
    } else if i < |pre| + 2 {
      assert s[i] == x[i - |pre|];
    } else {
      assert s[i] == post[i - |pre| - 2] && post[i - |pre| - 2] in post;
    }
  }

  /** When the only `$` is followed by `x[1]`, a needle `$c` with another `c` is absent. */
  lemma OnlyDollarExcludes(pre: string, x: string, post: string, needle: string)
    requires '$' !in pre && '$' !in post
    requires |x| == 2 && x[0] == '$' && x[1] != '$' && |needle| >= 2 && needle[0] == '$' && needle[1] != x[1]
    ensures !Includes(pre + x + post, needle)
  {
    var s := pre + x + post;
    forall i | 0 <= i <= |s| - |needle| ensures !OccursAt(s, needle, i) {
      assert s[i..i + |needle|][0] == s[i] && s[i..i + |needle|][1] == s[i + 1];
      CharAround(pre, x, post, i);
      if i == |pre| {
        CharAround(pre, x, post, i + 1);
      }
    }
  }

  /** When the only `$` is followed by a non-digit, there is no `$n`. */
  lemma OnlyDollarNoReference(pre: string, x: string, post: string)
    requires '$' !in pre && '$' !in post
    requires |x| == 2 && x[0] == '$' && x[1] != '$' && !IsDigit(x[1])
    ensures NoCaptureReference(pre + x + post)
  {
    var s := pre + x + post;
    forall k | 0 <= k < |s| - 1 ensures s[k] == '$' ==> !IsDigit(s[k + 1]) {
      CharAround(pre, x, post, k);
      if k == |pre| {
        CharAround(pre, x, post, k + 1);
      }
    }
  }

  /** Where no `$n` can be found, filling the captures changes nothing. */
  lemma {:induction false} FillCapturesUnchanged(result: string, values: seq<string>, i: nat)
    requires 1 <= i <= |values| + 1
    requires NoCaptureReference(result)
    ensures FillCaptures(result, values, i) == result
    decreases |values| + 1 - i
  {
    if i <= |values| {
      var needle := "$" + ShowNat(i);
      forall j | 0 <= j <= |result| - |needle| ensures !OccursAt(result, needle, j) {
        assert result[j..j + |needle|][0] == result[j] && result[j..j + |needle|][1] == result[j + 1];
        assert needle[1] == ShowNat(i)[0];
      }
      ReplaceAllLiteralAbsent(result, needle, EscapeHtml(values[i - 1]));
      FillCapturesUnchanged(result, values, i + 1);
    }
  }

  /** Positions where the needle does not occur are passed over. */
  lemma {:induction false} FindLiteralSkip(s: string, needle: string, from: nat, to: nat)
    requires |needle| > 0 && from <= to <= |s|
    requires forall i | from <= i < to :: !OccursAt(s, needle, i)
    ensures FindLiteral(s, needle, from) == FindLiteral(s, needle, to)
    decreases |s| - from
  {
    if from < to && from + |needle| <= |s| {
      FindLiteralSkip(s, needle, from + 1, to);
    }
  }

  /** A `$`-free prefix holds no occurrence of a `$`-led needle. */
  lemma FindLiteralPastPrefix(pre: string, needle: string, post: string)
    requires |needle| > 0 && needle[0] == '$' && '$' !in pre
    ensures FindLiteral(pre + needle + post, needle, 0) == FindLiteral(pre + needle + post, needle, |pre|)
  {
    var s := pre + needle + post;
    forall i | 0 <= i < |pre| ensures !OccursAt(s, needle, i) {
      assert s[i] == pre[i] && pre[i] in pre;
      assert s[i..i + |needle|][0] == s[i];
    }
    FindLiteralSkip(s, needle, 0, |pre|);
  }

  /** Nothing is found in a rest that does not hold the needle. */
  lemma FindLiteralInRest(pre: string, needle: string, post: string)
    requires |needle| > 0 && !Includes(post, needle)
    ensures FindLiteral(pre + needle + post, needle, |pre| + |needle|) == []
  {
    var s := pre + needle + post;
    var after := |pre| + |needle|;
    forall i | after <= i ensures !OccursAt(s, needle, i) {
      if after <= i <= |s| - |needle| {
        assert s[i..i + |needle|] == post[i - after..i - after + |needle|];
        assert !OccursAt(post, needle, i - after);
      }
    }
    FindLiteralAbsent(s, needle, after);
  }

  /** A `$`-led needle after a `$`-free prefix, and nowhere in the rest, is found once. */
  lemma FindLiteralSingle(pre: string, needle: string, post: string)
    requires |needle| > 0 && needle[0] == '$'
    requires '$' !in pre && !Includes(post, needle)
    ensures FindLiteral(pre + needle + post, needle, 0) == [Match(|pre|, needle, [])]
  {
    var s := pre + needle + post;
    FindLiteralPastPrefix(pre, needle, post);
    FindLiteralInRest(pre, needle, post);
    assert s[|pre|..|pre| + |needle|] == needle;
    assert OccursAt(s, needle, |pre|);
  }

  /**
   * A `$`-led needle whose only occurrence follows a `$`-free prefix is
   * replaced there by a `$`-free text.
   */
  lemma ReplaceSingle(pre: string, needle: string, post: string, tpl: string)
    requires |needle| > 0 && needle[0] == '$'
    requires '$' !in pre && '$' !in tpl && !Includes(post, needle)
    ensures ReplaceAllLiteral(pre + needle + post, needle, tpl) == pre + tpl + post
  {
    var s := pre + needle + post;
    FindLiteralSingle(pre, needle, post);
    var ms := FindLiteral(s, needle, 0);
    SubstitutePlain(tpl, needle, s, |pre|, []);
    var reps := seq(|ms|, k requires 0 <= k < |ms| => Substitute(tpl, needle, s, ms[k].index, []));
    assert reps == [tpl];
    assert s[0..|pre|] == pre && s[|pre| + |needle|..] == post;
    assert Splice(s, ms, reps, 0) == pre + tpl + Splice(s, [], [], |pre| + |needle|);
  }

  /** The values of the captures when every group took part. */
  function CaptureValues(m: Match): (values: seq<string>)
    requires forall i | 0 <= i < |m.groups| :: m.groups[i].Some?
    ensures |values| == |m.groups|
    ensures forall i | 0 <= i < |m.groups| :: values[i] == m.groups[i].value
  {
    seq(|m.groups|, i requires 0 <= i < |m.groups| => m.groups[i].value)
  }

  /** An escape-mode replacement is the filled formatting with `$&` replaced. */
  lemma EscapedReplacementUnfold(formatting: string, m: Match)
    requires forall i | 0 <= i < |m.groups| :: m.groups[i].Some?
    ensures EscapedReplacement(formatting, m)
         == Some(ReplaceAllLiteral(FillCaptures(formatting, CaptureValues(m), 1), "$&", EscapeHtml(m.text)))
  {
    assert CaptureValues(m) == seq(|m.groups|, i requires 0 <= i < |m.groups| => m.groups[i].value);
  }

  /** Filled text without `$` is final: the `$&` pass leaves it alone. */
  lemma WholeMatchPassPlain(filled: string, m: Match)
    requires '$' !in filled
    ensures ReplaceAllLiteral(filled, "$&", EscapeHtml(m.text)) == filled
  {
    DollarFreeExcludes(filled, "$&");
    ReplaceAllLiteralAbsent(filled, "$&", EscapeHtml(m.text));
  }

  /** In escape mode the literal characters of the formatting are never escaped. */
  lemma EscapedPlainFormatting(formatting: string, m: Match)
    requires '$' !in formatting
    requires forall i | 0 <= i < |m.groups| :: m.groups[i].Some?
    ensures EscapedReplacement(formatting, m) == Some(formatting)
  {
    EscapedReplacementUnfold(formatting, m);
    DollarFreeNoReference(formatting);
    FillCapturesUnchanged(formatting, CaptureValues(m), 1);
    WholeMatchPassPlain(formatting, m);
  }

  /** Filling one capture: `$i` is replaced by the i-th escaped value. */
  lemma FillStep(result: string, values: seq<string>, i: nat)
    requires 1 <= i <= |values|
    ensures FillCaptures(result, values, i)
         == FillCaptures(ReplaceAllLiteral(result, "$" + ShowNat(i), EscapeHtml(values[i - 1])), values, i + 1)
  {
  }

  /**
   * `$1` is replaced by the escaped first capture, and a digit after it
   * stays a literal digit: `$10` with one group is the escaped group then `0`.
   */
  lemma EscapedFirstCapture(pre: string, post: string, m: Match)
    requires '$' !in pre && '$' !in post
    requires |m.groups| == 1 && m.groups[0].Some? && '$' !in m.groups[0].value
    ensures EscapedReplacement(pre + "$1" + post, m) == Some(pre + EscapeHtml(m.groups[0].value) + post)
  {
    var f := pre + "$1" + post;
    var values := CaptureValues(m);
    var e := EscapeHtml(values[0]);
    EscapeHtmlNoDollar(values[0]);
    assert "$" + ShowNat(1) == "$1";
    DollarFreeExcludes(post, "$1");
    ReplaceSingle(pre, "$1", post, e);
    var filled := pre + e + post;
    assert '$' !in filled;
    FillStep(f, values, 1);
    assert FillCaptures(f, values, 1) == FillCaptures(filled, values, 2);
    DollarFreeNoReference(filled);
    FillCapturesUnchanged(filled, values, 2);
    EscapedReplacementUnfold(f, m);
    WholeMatchPassPlain(filled, m);
  }

  /** `$10` with a single group reads as `$1` followed by the digit `0`. */
  lemma EscapedTenReadsFirst(m: Match)
    requires |m.groups| == 1 && m.groups[0].Some? && '$' !in m.groups[0].value
    ensures EscapedReplacement("$10", m) == Some(EscapeHtml(m.groups[0].value) + "0")
  {
    assert "$10" == "" + "$1" + "0";
    EscapedFirstCapture("", "0", m);
    assert "" + EscapeHtml(m.groups[0].value) + "0" == EscapeHtml(m.groups[0].value) + "0";
  }

  /** Filling `$i` where it occurs once, after a `$`-free prefix. */
  lemma FillOne(pre: string, needle: string, post: string, values: seq<string>, i: nat)
    requires 1 <= i <= |values| && needle == "$" + ShowNat(i)
    requires '$' !in pre && '$' !in values[i - 1] && !Includes(post, needle)
    ensures FillCaptures(pre + needle + post, values, i)
         == FillCaptures(pre + EscapeHtml(values[i - 1]) + post, values, i + 1)
  {
    EscapeHtmlNoDollar(values[i - 1]);
    ReplaceSingle(pre, needle, post, EscapeHtml(values[i - 1]));
    FillStep(pre + needle + post, values, i);
  }

  /** Five pieces joined left to right, or the last three first. */
  lemma Regroup(a: string, x: string, b: string, y: string, c: string)
    ensures a + x + b + y + c == a + x + (b + y + c)
  {
  }

  /** Filling `$1` in `a$1b$2c` leaves `$2` in place. */
  lemma FillFirstOfTwo(a: string, b: string, c: string, values: seq<string>)
    requires '$' !in a && '$' !in b && '$' !in c
    requires |values| == 2 && '$' !in values[0]
    ensures FillCaptures(a + "$1" + b + "$2" + c, values, 1)
         == FillCaptures((a + EscapeHtml(values[0]) + b) + "$2" + c, values, 2)
  {
    assert "$" + ShowNat(1) == "$1";
    OnlyDollarExcludes(b, "$2", c, "$1");
    FillOne(a, "$1", b + "$2" + c, values, 1);
    Regroup(a, "$1", b, "$2", c);
    Regroup(a, EscapeHtml(values[0]), b, "$2", c);
  }

  /** Filling `$2` in `pre$2c`, the last group, finishes the captures. */
  lemma FillSecondOfTwo(pre: string, c: string, values: seq<string>)
    requires '$' !in pre && '$' !in c
    requires |values| == 2 && '$' !in values[1]
    ensures FillCaptures(pre + "$2" + c, values, 2) == pre + EscapeHtml(values[1]) + c
  {
    assert "$" + ShowNat(2) == "$2";
    DollarFreeExcludes(c, "$2");
    FillOne(pre, "$2", c, values, 2);
    var filled := pre + EscapeHtml(values[1]) + c;
    EscapeHtmlNoDollar(values[1]);
    assert '$' !in filled;
    DollarFreeNoReference(filled);
    FillCapturesUnchanged(filled, values, 3);
  }

  /** `$1` is filled before `$2`; each takes its own escaped group. */
  lemma EscapedTwoCaptures(a: string, b: string, c: string, m: Match)
    requires '$' !in a && '$' !in b && '$' !in c
    requires |m.groups| == 2 && m.groups[0].Some? && m.groups[1].Some?
    requires '$' !in m.groups[0].value && '$' !in m.groups[1].value
    ensures EscapedReplacement(a + "$1" + b + "$2" + c, m)
         == Some(a + EscapeHtml(m.groups[0].value) + b + EscapeHtml(m.groups[1].value) + c)
  {
    var values := CaptureValues(m);
    var e1 := EscapeHtml(values[0]);
    var e2 := EscapeHtml(values[1]);
    EscapeHtmlNoDollar(values[0]);
    EscapeHtmlNoDollar(values[1]);
    var pre2 := a + e1 + b;
    FillFirstOfTwo(a, b, c, values);
    FillSecondOfTwo(pre2, c, values);
    var filled := pre2 + e2 + c;
    EscapedReplacementUnfold(a + "$1" + b + "$2" + c, m);
    WholeMatchPassPlain(filled, m);
  }

  /** `$&` is replaced by the escaped match. */
  lemma EscapedWholeMatch(pre: string, post: string, m: Match)
    requires '$' !in pre && '$' !in post && '$' !in m.text
    requires forall i | 0 <= i < |m.groups| :: m.groups[i].Some?
    ensures EscapedReplacement(pre + "$&" + post, m) == Some(pre + EscapeHtml(m.text) + post)
  {
    var f := pre + "$&" + post;
    OnlyDollarNoReference(pre, "$&", post);
    FillCapturesUnchanged(f, CaptureValues(m), 1);
    EscapeHtmlNoDollar(m.text);
    DollarFreeExcludes(post, "$&");
    ReplaceSingle(pre, "$&", post, EscapeHtml(m.text));
    EscapedReplacementUnfold(f, m);
  }

  /** The replacements of a non-empty search: the first match's, then the rest's. */
  lemma EscapedReplacementsCons(ms: seq<Match>, formatting: string, head: string, tail: seq<string>)
    requires |ms| > 0
    requires EscapedReplacement(formatting, ms[0]) == Some(head)
    requires EscapedReplacements(ms[1..], formatting) == Some(tail)
    ensures EscapedReplacements(ms, formatting) == Some([head] + tail)
  {
  }

  /** Every match's escape-mode replacement, when each is known. */
  lemma {:induction false} EscapedReplacementsEach(ms: seq<Match>, formatting: string, reps: seq<string>)
    requires |reps| == |ms|
    requires forall k | 0 <= k < |ms| :: EscapedReplacement(formatting, ms[k]) == Some(reps[k])
    ensures EscapedReplacements(ms, formatting) == Some(reps)
  {
    if |ms| > 0 {
      forall k | 0 <= k < |ms| - 1 ensures EscapedReplacement(formatting, ms[1..][k]) == Some(reps[1..][k]) {
        assert ms[1..][k] == ms[k + 1] && reps[1..][k] == reps[k + 1];
      }
      EscapedReplacementsEach(ms[1..], formatting, reps[1..]);
      EscapedReplacementsCons(ms, formatting, reps[0], reps[1..]);
      assert reps == [reps[0]] + reps[1..];
    }
  }

  /**
   * An escaping rule `pre$1post` with one capture group wraps each match's
   * escaped capture: `\[(\w+)\]` with `<em>$1</em>` turns `[<b>]` into
   * `<em>&lt;b&gt;</em>`.
   */
  lemma EscapedCaptureRule(rule: ProcessingRule, text: string, exec: Engine, pre: string, post: string)
    requires SoundEngine(exec)
    requires rule.escape && rule.formatting == pre + "$1" + post && '$' !in pre && '$' !in post
    requires exec(rule.regex, text).Matches? && !exec(rule.regex, text).named
    requires forall k | 0 <= k < |exec(rule.regex, text).found| ::
               |exec(rule.regex, text).found[k].groups| == 1 && exec(rule.regex, text).found[k].groups[0].Some?
               && '$' !in exec(rule.regex, text).found[k].groups[0].value
    ensures var ms := exec(rule.regex, text).found;
            (ApplyRule(rule, text, exec)
             == Splice(text, ms, seq(|ms|, k requires 0 <= k < |ms| => pre + EscapeHtml(ms[k].groups[0].value) + post), 0))
  {
    var ms := exec(rule.regex, text).found;
    var reps := seq(|ms|, k requires 0 <= k < |ms| => pre + EscapeHtml(ms[k].groups[0].value) + post);
    forall k | 0 <= k < |ms| ensures EscapedReplacement(rule.formatting, ms[k]) == Some(reps[k]) {
      EscapedFirstCapture(pre, post, ms[k]);
    }
    EscapedReplacementsEach(ms, rule.formatting, reps);
  }

  /** An escaping rule whose formatting has no `$` replaces every match with that formatting. */
  lemma EscapedFormattingIsLiteral(rule: ProcessingRule, text: string, exec: Engine)
    requires SoundEngine(exec)
    requires rule.escape && '$' !in rule.formatting
    requires exec(rule.regex, text).Matches? && !exec(rule.regex, text).named
    requires forall k | 0 <= k < |exec(rule.regex, text).found| ::
               forall i | 0 <= i < |exec(rule.regex, text).found[k].groups| :: exec(rule.regex, text).found[k].groups[i].Some?
    ensures ApplyRule(rule, text, exec)
         == Splice(text, exec(rule.regex, text).found, seq(|exec(rule.regex, text).found|, _ => rule.formatting), 0)
  {
    var ms := exec(rule.regex, text).found;
    var reps := seq(|ms|, _ => rule.formatting);
    forall k | 0 <= k < |ms| ensures EscapedReplacement(rule.formatting, ms[k]) == Some(reps[k]) {
      EscapedPlainFormatting(rule.formatting, ms[k]);
    }
    EscapedReplacementsEach(ms, rule.formatting, reps);
  }
}

=== FILE: selector.dfy ===
/**
 * The reference picker (src/selector.ts): the selection it keeps, the
 * reference it hands to the insert command, the typed reference it reads,
 * the option toggles, and the clicks on the book, chapter and verse grids.
 *
 * Rendering, styles and the notice are left out; a warning or notice is
 * modelled as its text, and the books the store lists are a parameter.
 */
module Selector {
  import opened Wrappers
  import opened Text
  import opened Grammar
  import Arrays
  import Insert

  // ---------------------------------------------------------------------------
  // State
  // ---------------------------------------------------------------------------

  /**
   * The modal's fields. `endChapter`, `endVerse`, `book` and `translation`
   * may be `null` (`None`); `chapters` and `verses` are the grid's
   * multi-selections.
   */
  datatype Selection = Selection(
    book: Option<string>,
    startChapter: nat,
    endChapter: Option<nat>,
    startVerse: nat,
    endVerse: Option<nat>,
    translation: Option<string>,
    outputType: Insert.OutputType,
    options: seq<string>,
    chapters: set<nat>,
    verses: set<nat>)

  /** A number or `null` read as a condition: present and not 0. */
  predicate Truthy(n: Option<nat>) {
    n.Some? && n.value != 0
  }

  /** A string or `null` read as a condition: present and not empty. */
  predicate Given(s: Option<string>) {
    s.Some? && s.value != ""
  }

  /** The modal as it opens, with the output type and options saved in the settings. */
  function Opened(outputType: Insert.OutputType, options: seq<string>): (s: Selection)
    ensures Coherent(s)
  {
    Selection(None, 1, None, 1, None, None, outputType, options, {}, {})
  }

  /** The end chapter is unset or equals the start chapter. */
  predicate Coherent(s: Selection) {
    s.endChapter.None? || s.endChapter == Some(s.startChapter)
  }

  // ---------------------------------------------------------------------------
  // insertReference
  // ---------------------------------------------------------------------------

  /** What the insert button does: warn, or hand a reference to the insert command. */
  datatype Submission =
    | Warn(message: string)
    | Submit(reference: string, translation: string, outputType: Insert.OutputType, options: seq<string>)

  /** `${n}` for a number or `null`. */
  function ShowMaybe(n: Option<nat>): string {
    if n.Some? then ShowNat(n.value) else "null"
  }

  /** The end chapter is set and differs from the start chapter. */
  predicate Spans(s: Selection) {
    Truthy(s.endChapter) && s.endChapter.value != s.startChapter
  }

  /** The reference the selection spells for `book`. */
  function ReferenceOf(book: string, s: Selection): string {
    var head := book + " " + ShowNat(s.startChapter);
    if s.startVerse != 0 then
      var first := head + ":" + ShowNat(s.startVerse);
      if Spans(s) then first + "-" + book + " " + ShowNat(s.endChapter.value) + ":" + ShowMaybe(s.endVerse)
      else if Truthy(s.endVerse) && s.endVerse.value != s.startVerse then first + "-" + ShowNat(s.endVerse.value)
      else first
    else if Spans(s) then head + "-" + ShowNat(s.endChapter.value)
    else head
  }

  /** The translation used: the one picked, else the default. */
  function ChosenTranslation(s: Selection, defaultTranslation: string): string {
    if Given(s.translation) then s.translation.value else defaultTranslation
  }

  function InsertReference(s: Selection, defaultTranslation: string): (r: Submission)
    ensures !Given(s.book) ==> r == Warn("Please select a book")
    ensures Given(s.book) && ChosenTranslation(s, defaultTranslation) == "" ==> r == Warn("Please select a translation")
    ensures r.Submit? ==> Given(s.book) && r.translation != "" && r.outputType == s.outputType && r.options == s.options
    ensures r.Submit? ==> r.translation == ChosenTranslation(s, defaultTranslation)
                          && r.reference == ReferenceOf(s.book.value, s)
  {
    if !Given(s.book) then Warn("Please select a book")
    else
      var translation := ChosenTranslation(s, defaultTranslation);
      if translation == "" then Warn("Please select a translation")
      else Submit(ReferenceOf(s.book.value, s), translation, s.outputType, s.options)
  }

  /** The numbers of a one-chapter selection as the reference grammar captures them. */
  function SelectedTail(s: Selection): Tail {
    Tail(ShowNat(s.startChapter),
         if s.startVerse != 0 then Some(ShowNat(s.startVerse)) else None,
         if s.startVerse != 0 && Truthy(s.endVerse) && s.endVerse.value != s.startVerse
         then Some(ShowNat(s.endVerse.value)) else None)
  }

  lemma SelectedTailShape(s: Selection)
    ensures TailShape(SelectedTail(s))
  {
  }

  /** Without a second chapter, the reference is the book, a space and the tail. */
  lemma OneChapterText(book: string, s: Selection)
    requires !Spans(s)
    ensures ReferenceOf(book, s) == book + " " + TailBody(SelectedTail(s))
  {
    var t := SelectedTail(s);
    var c := ShowNat(s.startChapter);
    if s.startVerse != 0 {
      var v := ShowNat(s.startVerse);
      if Truthy(s.endVerse) && s.endVerse.value != s.startVerse {
        var e := ShowNat(s.endVerse.value);
        assert TailBody(t) == c + (":" + v + ("-" + e));
      } else {
        assert TailBody(t) == c + (":" + v + "");
      }
    } else {
      assert TailBody(t) == c + "";
    }
  }

  /**
   * A one-chapter selection of a readable book yields a reference the
   * code-block and insert grammar reads back as that book and those numbers.
   */
  lemma OneChapterReads(book: string, s: Selection)
    requires PlainBook(book) && !Spans(s)
    ensures ParseSingle(ReferenceOf(book, s)) == Some(Reference(book, SelectedTail(s)))
  {
    OneChapterText(book, s);
    SelectedTailShape(s);
    assert AllWhitespace(" ");
    ParseSingleRoundTrip(book, " ", SelectedTail(s));
  }

  /** A selection across chapters, with both verses set, reads back by the cross-chapter grammar. */
  lemma CrossChapterReads(book: string, s: Selection)
    requires PlainBook(book) && NoHyphen(book)
    requires Spans(s) && s.startVerse != 0 && s.endVerse.Some?
    ensures ParseCross(ReferenceOf(book, s))
            == Some(CrossReference(book, ShowNat(s.startChapter), ShowNat(s.startVerse),
                                   book, ShowNat(s.endChapter.value), ShowNat(s.endVerse.value)))
  {
    var x := CrossReference(book, ShowNat(s.startChapter), ShowNat(s.startVerse),
                            book, ShowNat(s.endChapter.value), ShowNat(s.endVerse.value));
    assert AllWhitespace(" ");
    CrossTextOf(book, s, x);
    ParseCrossRoundTrip(x, " ", " ");
  }

  lemma CrossTextOf(book: string, s: Selection, x: CrossReference)
    requires Spans(s) && s.startVerse != 0 && s.endVerse.Some?
    requires x == CrossReference(book, ShowNat(s.startChapter), ShowNat(s.startVerse),
                                 book, ShowNat(s.endChapter.value), ShowNat(s.endVerse.value))
    ensures ReferenceOf(book, s) == CrossText(x, " ", " ")
  {
    var c, v := ShowNat(s.startChapter), ShowNat(s.startVerse);
    var ec, ev := ShowNat(s.endChapter.value), ShowNat(s.endVerse.value);
    assert MiddleText(c, v) == c + ":" + v + "-";
    assert TailBody(Tail(ec, Some(ev), None)) == ec + (":" + ev + "");
    assert ReferenceOf(book, s) == book + " " + c + ":" + v + "-" + book + " " + ec + ":" + ShowMaybe(s.endVerse);
  }

  // ---------------------------------------------------------------------------
  // handleReferenceInput
  // ---------------------------------------------------------------------------

  /** The selection after typing, and the warning shown under the input, if any. */
  datatype Typed = Typed(selection: Selection, warning: Option<string>)

  /** The first listed book equal to `name` ignoring case. */
  function FindBook(books: seq<string>, name: string): (r: Option<string>)
    ensures r.Some? ==> r.value in books && EqualsIgnoreCase(r.value, name)
    ensures r.Some? ==> exists i | 0 <= i < |books| ::
              && books[i] == r.value
              && forall j | 0 <= j < i :: !EqualsIgnoreCase(books[j], name)
    ensures r.None? <==> forall i :: 0 <= i < |books| ==> !EqualsIgnoreCase(books[i], name)
  {
    match Arrays.FindIndex(books, b => EqualsIgnoreCase(b, name))
    case Some(i) => Some(books[i])
    case None => None
  }

  /** The selection a parsed reference sets: one chapter, verses from the captures. */
  function Entered(s: Selection, book: string, t: Tail, defaultTranslation: string): (r: Selection)
    requires TailShape(t)
  {
    var c := NumeralValue(t.chapter);
    var sv := if t.verse.Some? then NumeralValue(t.verse.value) else 1;
    var ev := if t.endVerse.Some? then Some(NumeralValue(t.endVerse.value))
              else if t.verse.Some? then Some(sv) else None;
    s.(book := Some(book), startChapter := c, endChapter := Some(c), startVerse := sv, endVerse := ev,
       translation := if Given(s.translation) then s.translation else Some(defaultTranslation),
       chapters := {}, verses := {})
  }

  function HandleReferenceInput(s: Selection, books: seq<string>, value: string, defaultTranslation: string): (r: Typed)
    ensures Trim(value) == "" ==> r == Typed(s.(chapters := {}, verses := {}), None)
    ensures Trim(value) != "" && ParseManual(value).None? ==> r == Typed(s, Some("Unrecognized reference format."))
    ensures Trim(value) != "" && ParseManual(value).Some? && !Given(FindBook(books, ParseManual(value).value.book))
            ==> r == Typed(s, Some("Book not found."))
    ensures r.warning.None? && Trim(value) != "" ==>
              var m := ParseManual(value).value;
              && m.tail.chapter != "" && r.selection.book.Some?
              && r.selection.book.value in books && EqualsIgnoreCase(r.selection.book.value, m.book)
              && r.selection.book == FindBook(books, m.book) && Given(r.selection.book)
              && r.selection.startChapter == NumeralValue(m.tail.chapter)
              && r.selection.endChapter == Some(r.selection.startChapter)
              && r.selection.startVerse == (if m.tail.verse.Some? then NumeralValue(m.tail.verse.value) else 1)
              && (m.tail.verse.None? ==> r.selection.endVerse.None?)
              && (m.tail.verse.Some? ==>
                    r.selection.endVerse == Some(if m.tail.endVerse.Some? then NumeralValue(m.tail.endVerse.value)
                                                 else r.selection.startVerse))
              && r.selection.translation == (if Given(s.translation) then s.translation else Some(defaultTranslation))
              && r.selection.chapters == {} && r.selection.verses == {}
              && r.selection.options == s.options && r.selection.outputType == s.outputType
  {
    if Trim(value) == "" then Typed(s.(chapters := {}, verses := {}), None)
    else match ParseManual(value)
      case None => Typed(s, Some("Unrecognized reference format."))
      case Some(Reference(name, t)) =>
        match FindBook(books, name)
        case None => Typed(s, Some("Book not found."))
        case Some(book) =>
          // An empty book name is falsy, so it is not found either.
          if book == "" then Typed(s, Some("Book not found."))
          else Typed(Entered(s, book, t, defaultTranslation), None)
  }

  /** Typing keeps the end chapter equal to the start chapter. */
  lemma TypingKeepsCoherent(s: Selection, books: seq<string>, value: string, defaultTranslation: string)
    requires Coherent(s)
    ensures Coherent(HandleReferenceInput(s, books, value, defaultTranslation).selection)
  {
  }

  /**
   * Typing the reference a one-chapter selection spells back into the input
   * restores a selection that inserts exactly the same thing, when the book
   * is one the typed grammar accepts and the first of its spellings listed.
   */
  lemma TypedReferenceRoundTrip(s: Selection, books: seq<string>, defaultTranslation: string)
    requires Given(s.book) && !Spans(s) && s.startVerse != 0
    requires var b := s.book.value; ManualBook(b) && PlainBook(b) && !IsWhitespace(b[0])
    requires FindBook(books, s.book.value) == Some(s.book.value)
    ensures var typed := HandleReferenceInput(s, books, ReferenceOf(s.book.value, s), defaultTranslation);
            typed.warning.None? && InsertReference(typed.selection, defaultTranslation) == InsertReference(s, defaultTranslation)
  {
    var b := s.book.value;
    var ref := ReferenceOf(b, s);
    var t := SelectedTail(s);
    OneChapterText(b, s);
    SelectedTailShape(s);
    assert AllWhitespace(" ");
    ParseManualRoundTrip(b, " ", t);
    assert Trim(ref) != "" by {
      TrimEmptyIff(ref);
      assert ref[0] == b[0];
    }
    var s2 := Entered(s, b, t, defaultTranslation);
    TypedEnters(s, books, ref, b, t, defaultTranslation);
    TypedNumbers(s, b, defaultTranslation);
    SameReference(b, s, s2);
    SameSubmission(s, s2, defaultTranslation);
  }

  lemma TypedEnters(s: Selection, books: seq<string>, value: string, b: string, t: Tail, defaultTranslation: string)
    requires Trim(value) != "" && ParseManual(value) == Some(Reference(b, t)) && FindBook(books, b) == Some(b) && b != ""
    ensures TailShape(t)
    ensures HandleReferenceInput(s, books, value, defaultTranslation) == Typed(Entered(s, b, t, defaultTranslation), None)
  {
  }

  /** Two one-chapter selections with the same numbers name the same reference. */
  lemma SameReference(b: string, s: Selection, s2: Selection)
    requires !Spans(s) && !Spans(s2)
    requires s2.startChapter == s.startChapter && s2.startVerse == s.startVerse
    requires Truthy(s2.endVerse) && s2.endVerse.value != s2.startVerse
             <==> Truthy(s.endVerse) && s.endVerse.value != s.startVerse
    requires Truthy(s2.endVerse) && s2.endVerse.value != s2.startVerse ==> s2.endVerse == s.endVerse
    ensures ReferenceOf(b, s2) == ReferenceOf(b, s)
  {
  }

  lemma SameSubmission(s: Selection, s2: Selection, defaultTranslation: string)
    requires Given(s.book) && s2.book == s.book
    requires ReferenceOf(s.book.value, s2) == ReferenceOf(s.book.value, s)
    requires ChosenTranslation(s2, defaultTranslation) == ChosenTranslation(s, defaultTranslation)
    requires s2.options == s.options && s2.outputType == s.outputType
    ensures InsertReference(s2, defaultTranslation) == InsertReference(s, defaultTranslation)
  {
  }

  /** The typed selection has the same numbers, up to an end verse equal to the start. */
  lemma TypedNumbers(s: Selection, b: string, defaultTranslation: string)
    requires !Spans(s) && s.startVerse != 0
    ensures var s2 := Entered(s, b, SelectedTail(s), defaultTranslation);
            && s2.startChapter == s.startChapter && s2.startVerse == s.startVerse && !Spans(s2)
            && (Truthy(s2.endVerse) && s2.endVerse.value != s2.startVerse
                <==> Truthy(s.endVerse) && s.endVerse.value != s.startVerse)
            && (Truthy(s2.endVerse) && s2.endVerse.value != s2.startVerse ==> s2.endVerse == s.endVerse)
            && ChosenTranslation(s2, defaultTranslation) == ChosenTranslation(s, defaultTranslation)
  {
    NumeralRoundTrip(s.startChapter);
    NumeralRoundTrip(s.startVerse);
    if s.endVerse.Some? {
      NumeralRoundTrip(s.endVerse.value);
    }
  }

  // ---------------------------------------------------------------------------
  // updateOption
  // ---------------------------------------------------------------------------

  /** Switch an option on (appending it once) or off (removing every copy). */
  function UpdateOption(options: seq<string>, option: string, enabled: bool): (r: seq<string>)
    ensures enabled ==> option in r && options <= r && |r| <= |options| + 1
    ensures !enabled ==> option !in r && Arrays.Subsequence(r, options)
    ensures forall x :: x != option ==> (x in r <==> x in options)
    ensures Arrays.NoDuplicates(options) ==> Arrays.NoDuplicates(r)
  {
    if enabled && option !in options then
      var r := options + [option];
      assert forall i :: 0 <= i < |options| ==> r[i] == options[i];
      r
    else if !enabled then
      var r := Arrays.Filter(options, o => o != option);
      forall x ensures x in r <==> x in options && x != option {
        Arrays.FilterMembers(options, o => o != option, x);
      }
      if Arrays.NoDuplicates(options) then FilterKeepsDistinct(options, option); r else r
    else options
  }

  lemma FilterKeepsDistinct(options: seq<string>, option: string)
    requires Arrays.NoDuplicates(options)
    ensures Arrays.NoDuplicates(Arrays.Filter(options, o => o != option))
  {
    var r := Arrays.Filter(options, o => o != option);
    forall i, j | 0 <= i < j < |r| ensures r[i] != r[j] {
      if r[i] == r[j] {
        var x := r[i];
        assert r == r[..j] + r[j..];
        assert x in r[..j] && x in r[j..];
        assert multiset(r)[x] == multiset(r[..j])[x] + multiset(r[j..])[x];
        Arrays.NoDuplicatesCount(options, x);
        assert false;
      }
    }
  }

  /** Setting an option twice to the same value is setting it once. */
  lemma UpdateOptionIdempotent(options: seq<string>, option: string, enabled: bool)
    ensures UpdateOption(UpdateOption(options, option, enabled), option, enabled) == UpdateOption(options, option, enabled)
  {
    if !enabled {
      var r := UpdateOption(options, option, false);
      Arrays.FilterAll(r, o => o != option);
    }
  }

  /** Switching an option on and then off leaves the other options as switching it off does. */
  lemma {:induction false} OnThenOff(options: seq<string>, option: string)
    ensures UpdateOption(UpdateOption(options, option, true), option, false) == UpdateOption(options, option, false)
  {
    if option !in options {
      FilterAppendDropped(options, option);
    }
  }

  lemma {:induction false} FilterAppendDropped(options: seq<string>, option: string)
    ensures Arrays.Filter(options + [option], o => o != option) == Arrays.Filter(options, o => o != option)
  {
    if |options| == 0 {
      assert options + [option] == [option];
      assert [option][1..] == [];
    } else {
      assert (options + [option])[1..] == options[1..] + [option];
      FilterAppendDropped(options[1..], option);
    }
  }

  // ---------------------------------------------------------------------------
  // Grid clicks
  // ---------------------------------------------------------------------------

  /** The modifier keys held: `ctrl` stands for Ctrl or Meta. */
  datatype Click = Click(ctrl: bool, shift: bool)

  /** `lo..hi` inclusive, in either order. */
  function Between(a: nat, b: nat): (r: set<nat>)
    ensures forall x :: x in r <==> (a <= x <= b || b <= x <= a)
  {
    var lo := if a <= b then a else b;
    var hi := if a <= b then b else a;
    Span(lo, hi)
  }

  /** `lo..hi` inclusive, empty when `hi < lo`. */
  function Span(lo: nat, hi: nat): (r: set<nat>)
    ensures forall x :: x in r <==> lo <= x <= hi
    decreases hi - lo
  {
    if hi < lo then {} else {lo} + Span(lo + 1, hi)
  }

  /** The multi-selection after a click on `n`, the range anchored at `anchor`. */
  function Pick(selected: set<nat>, anchor: nat, n: nat, click: Click): (r: set<nat>)
    ensures click.ctrl ==> (forall x :: x != n ==> (x in r <==> x in selected)) && (n in r <==> n !in selected)
    ensures !click.ctrl && click.shift && anchor != 0 ==> forall x :: x in r <==> x in selected || x in Between(anchor, n)
    ensures !click.ctrl && !(click.shift && anchor != 0) ==> r == {n}
  {
    if click.ctrl then (if n in selected then selected - {n} else selected + {n})
    else if click.shift && anchor != 0 then selected + Between(anchor, n)
    else {n}
  }

  /** Two Ctrl-clicks on the same number leave the multi-selection as it was. */
  lemma CtrlClickTwice(selected: set<nat>, anchor: nat, n: nat, anchor2: nat)
    ensures Pick(Pick(selected, anchor, n, Click(true, false)), anchor2, n, Click(true, false)) == selected
  {
  }

  /** A Shift-click only adds: the earlier picks stay and so do both ends. */
  lemma ShiftClickGrows(selected: set<nat>, anchor: nat, n: nat)
    requires anchor != 0
    ensures selected <= Pick(selected, anchor, n, Click(false, true))
    ensures anchor in Pick(selected, anchor, n, Click(false, true)) && n in Pick(selected, anchor, n, Click(false, true))
  {
  }

  /** A click on a book: its first chapter and verse, the grid picks kept. */
  function ClickBook(s: Selection, book: string): (r: Selection)
    ensures Coherent(r) && r.book == Some(book)
    ensures r.startChapter == 1 && r.endChapter.None? && r.startVerse == 1 && r.endVerse.None?
    ensures r.translation == s.translation && r.chapters == s.chapters && r.verses == s.verses && r.options == s.options
  {
    s.(book := Some(book), startChapter := 1, endChapter := None, startVerse := 1, endVerse := None)
  }

  /** A click on a chapter: that chapter from its first verse. */
  function ClickChapter(s: Selection, chapter: nat, click: Click): (r: Selection)
    ensures Coherent(r)
    ensures r.chapters == Pick(s.chapters, s.startChapter, chapter, click)
    ensures r.startChapter == chapter && r.endChapter == Some(chapter) && r.startVerse == 1 && r.endVerse.None?
    ensures r.book == s.book && r.translation == s.translation && r.verses == s.verses && r.options == s.options
  {
    s.(chapters := Pick(s.chapters, s.startChapter, chapter, click),
       startChapter := chapter, endChapter := Some(chapter), startVerse := 1, endVerse := None)
  }

  /** A click on a verse: that verse alone, in the start chapter. */
  function ClickVerse(s: Selection, verse: nat, click: Click): (r: Selection)
    ensures Coherent(s) ==> Coherent(r)
    ensures r.verses == Pick(s.verses, s.startVerse, verse, click)
    ensures r.startVerse == verse && r.endVerse == Some(verse) && r.endChapter == s.endChapter
    ensures r.book == s.book && r.startChapter == s.startChapter && r.chapters == s.chapters && r.options == s.options
  {
    s.(verses := Pick(s.verses, s.startVerse, verse, click), startVerse := verse, endVerse := Some(verse))
  }

  /** "Select All": every listed number picked, nothing else changed. */
  function SelectAll(listed: seq<nat>): (r: set<nat>)
    ensures forall x :: x in r <==> x in listed
  {
    set i | 0 <= i < |listed| :: listed[i]
  }

  /** "Select All Chapters" only fills the chapter picks, so what is inserted does not change. */
  lemma SelectAllKeepsInsertion(s: Selection, listed: seq<nat>, defaultTranslation: string)
    ensures InsertReference(s.(chapters := SelectAll(listed)), defaultTranslation) == InsertReference(s, defaultTranslation)
  {
  }

  /** Whatever the modifiers, after a chapter click the insert button gives verse 1 of that chapter. */
  lemma ChapterClickInserts(s: Selection, chapter: nat, click: Click, defaultTranslation: string)
    requires Given(s.book)
    ensures var r := InsertReference(ClickChapter(s, chapter, click), defaultTranslation);
            r.Submit? ==> r.reference == s.book.value + " " + ShowNat(chapter) + ":" + ShowNat(1)
  {
  }

  /**
   * From a coherent selection, after a verse click the insert button gives
   * that single verse, whatever else the grid has picked.
   */
  lemma VerseClickInserts(s: Selection, verse: nat, click: Click, defaultTranslation: string)
    requires Given(s.book) && Coherent(s) && verse != 0
    ensures var r := InsertReference(ClickVerse(s, verse, click), defaultTranslation);
            r.Submit? ==> r.reference == s.book.value + " " + ShowNat(s.startChapter) + ":" + ShowNat(verse)
  {
  }

  /** A coherent selection never spans chapters, so the cross-chapter form is never produced. */
  lemma CoherentNeverSpans(s: Selection)
    requires Coherent(s)
    ensures !Spans(s)
  {
  }
}

=== FILE: settings.dfy ===
/**
 * The settings tab (src/settings.ts): the shortcut table's add and edit
 * rules, removing a translation, the installed-translations table (its
 * filter, sort and header toggle, with names from the built-in catalogue),
 * and the names a SQLite import proposes.
 *
 * Saving, rendering and the notices are left out; a notice is its text.
 */
module SettingsTab {
  import opened Wrappers
  import opened Text
  import opened Grammar
  import Arrays
  import Store
  import Rules

  // ---------------------------------------------------------------------------
  // Shortcuts
  // ---------------------------------------------------------------------------

  /** The shortcut table: key to reference. */
  type Shortcuts = map<string, string>

  /** The names every plain object inherits; reading one gives a truthy value. */
  const InheritedNames: set<string> := {
    "constructor", "__proto__", "hasOwnProperty", "isPrototypeOf", "propertyIsEnumerable",
    "toString", "valueOf", "toLocaleString",
    "__defineGetter__", "__defineSetter__", "__lookupGetter__", "__lookupSetter__"
  }

  /** `shortcuts[key]` is truthy: a non-empty entry, or an inherited name with no entry of its own. */
  predicate Taken(shortcuts: Shortcuts, key: string) {
    if key in shortcuts then shortcuts[key] != "" else key in InheritedNames
  }

  const RequiredMessage := "Shortcut and reference required"
  const DuplicateMessage := "Shortcut key already exists"
  const FormatMessage := "Reference must be in the format Book Chapter:Verse or Book Chapter:Verse-Verse"

  /** Every stored reference is one the shortcut form accepts. */
  predicate WellFormed(shortcuts: Shortcuts) {
    forall key :: key in shortcuts ==> IsShortcutReference(shortcuts[key])
  }

  /** The "Add" button of the new-shortcut row: both inputs are trimmed first. */
  function AddShortcut(shortcuts: Shortcuts, keyInput: string, referenceInput: string): (r: Result<Shortcuts, string>)
    ensures Trim(keyInput) == "" || Trim(referenceInput) == "" ==> r == Err(RequiredMessage)
    ensures r == AddEntry(shortcuts, Trim(keyInput), Trim(referenceInput))
  {
    AddEntry(shortcuts, Trim(keyInput), Trim(referenceInput))
  }

  /** The checks "Add" makes on the trimmed key and reference, and the entry it stores. */
  function AddEntry(shortcuts: Shortcuts, key: string, reference: string): (r: Result<Shortcuts, string>)
    ensures r.Err? ==> r.error in {RequiredMessage, DuplicateMessage, FormatMessage}
    ensures r.Err? && r.error == DuplicateMessage ==> Taken(shortcuts, key)
    ensures r.Err? && r.error == FormatMessage ==> !IsShortcutReference(reference)
    ensures r.Ok? <==> key != "" && reference != "" && !Taken(shortcuts, key) && IsShortcutReference(reference)
    ensures r.Ok? ==> key in r.value && r.value[key] == reference
                      && r.value.Keys == shortcuts.Keys + {key}
                      && forall k :: k in shortcuts && k != key ==> r.value[k] == shortcuts[k]
  {
    if key == "" || reference == "" then Err(RequiredMessage)
    else if Taken(shortcuts, key) then Err(DuplicateMessage)
    else if !IsShortcutReference(reference) then Err(FormatMessage)
    else Ok(shortcuts[key := reference])
  }

  /** The "Save" button of a row being edited, which was showing `key`: both inputs are trimmed first. */
  function EditShortcut(shortcuts: Shortcuts, key: string, keyInput: string, referenceInput: string)
    : (r: Result<Shortcuts, string>)
    ensures Trim(keyInput) == "" || Trim(referenceInput) == "" ==> r == Err(RequiredMessage)
    ensures r == EditEntry(shortcuts, key, Trim(keyInput), Trim(referenceInput))
  {
    EditEntry(shortcuts, key, Trim(keyInput), Trim(referenceInput))
  }

  /** The checks "Save" makes on the trimmed new key and reference, and the table it leaves. */
  function EditEntry(shortcuts: Shortcuts, key: string, newKey: string, reference: string): (r: Result<Shortcuts, string>)
    ensures r.Err? ==> r.error in {RequiredMessage, DuplicateMessage, FormatMessage}
    ensures r.Err? && r.error == DuplicateMessage ==> newKey != key && Taken(shortcuts, newKey)
    ensures r.Ok? <==> newKey != "" && reference != "" && !(newKey != key && Taken(shortcuts, newKey))
                       && IsShortcutReference(reference)
    ensures r.Ok? ==> newKey in r.value && r.value[newKey] == reference
                      && r.value.Keys == shortcuts.Keys - {key} + {newKey}
                      && forall k :: k in shortcuts && k != key && k != newKey ==> r.value[k] == shortcuts[k]
  {
    if newKey == "" || reference == "" then Err(RequiredMessage)
    else if newKey != key && Taken(shortcuts, newKey) then Err(DuplicateMessage)
    else if !IsShortcutReference(reference) then Err(FormatMessage)
    else Ok((shortcuts - {key})[newKey := reference])
  }

  /** Adding and editing keep every stored reference in the accepted form. */
  lemma ChangesKeepWellFormed(shortcuts: Shortcuts, key: string, newKey: string, reference: string)
    requires WellFormed(shortcuts)
    ensures AddEntry(shortcuts, newKey, reference).Ok? ==> WellFormed(AddEntry(shortcuts, newKey, reference).value)
    ensures EditEntry(shortcuts, key, newKey, reference).Ok? ==> WellFormed(EditEntry(shortcuts, key, newKey, reference).value)
  {
  }

  /**
   * Renaming a key and renaming it back restores the table, provided the
   * new name was free and the old one is not an inherited name (which,
   * once its own entry is gone, reads as taken).
   */
  lemma RenameRoundTrip(shortcuts: Shortcuts, key: string, newKey: string)
    requires key in shortcuts && key !in InheritedNames && key != ""
    requires newKey !in shortcuts && newKey !in InheritedNames && newKey != ""
    requires shortcuts[key] != "" && IsShortcutReference(shortcuts[key])
    ensures var renamed := EditEntry(shortcuts, key, newKey, shortcuts[key]);
            renamed.Ok? && EditEntry(renamed.value, newKey, key, shortcuts[key]) == Ok(shortcuts)
  {
    var v := shortcuts[key];
    var renamed := (shortcuts - {key})[newKey := v];
    assert !Taken(shortcuts, newKey);
    assert EditEntry(shortcuts, key, newKey, v) == Ok(renamed);
    RenameBack(shortcuts, key, newKey, v);
    assert !Taken(renamed, key);
  }

  /** Moving an entry to a free key and back restores the map. */
  lemma RenameBack<K, V>(m: map<K, V>, k: K, k2: K, v: V)
    requires k in m && m[k] == v && k2 !in m
    ensures k !in (m - {k})[k2 := v]
    ensures ((m - {k})[k2 := v] - {k2})[k := v] == m
  {
    assert ((m - {k})[k2 := v] - {k2}) == m - {k};
  }

  /** Saving a row without changing it leaves the table as it was. */
  lemma SaveUnchangedRow(shortcuts: Shortcuts, key: string)
    requires key in shortcuts && key != ""
    requires shortcuts[key] != "" && IsShortcutReference(shortcuts[key])
    ensures EditEntry(shortcuts, key, key, shortcuts[key]) == Ok(shortcuts)
  {
    PutBack(shortcuts, key);
  }

  lemma PutBack<K, V>(m: map<K, V>, k: K)
    requires k in m
    ensures (m - {k})[k := m[k]] == m
  {
  }

  /**
   * The table accepts a verse range, but expanding a shortcut takes a single
   * verse only: a stored reference expands exactly when it has no range.
   */
  lemma StoredShortcutExpands(reference: string)
    requires IsShortcutReference(reference)
    ensures var n := Span(reference, IsWordChar);
            ParseShortcut(reference).Some? <==> ParseTail(reference[n..]).value.endVerse.None?
  {
  }

  // ---------------------------------------------------------------------------
  // Removing a translation
  // ---------------------------------------------------------------------------

  /** The translation that can never be removed, and the default after the default is removed. */
  const BuiltIn := "ASV"

  /** The action buttons of a row of the translations table. */
  function RowActions(abbreviation: string): (r: seq<string>)
    ensures "Remove" in r <==> abbreviation != BuiltIn
    ensures "Edit" in r <==> abbreviation != BuiltIn
  {
    if abbreviation != BuiltIn then ["Edit", "Remove"] else []
  }

  /** The store and default translation after a removal, and the notice shown. */
  datatype Removal = Removal(db: Store.Db, defaultTranslation: string, notice: string)

  predicate Installed(db: Store.Db, abbreviation: string) {
    Store.TranslationIndex(db, abbreviation).Some?
  }

  function RemoveTranslation(db: Store.Db, defaultTranslation: string, abbreviation: string): (r: Removal)
    ensures abbreviation == BuiltIn ==> r == Removal(db, defaultTranslation, "Cannot remove ASV translation")
    ensures abbreviation != BuiltIn && !Installed(db, abbreviation)
            ==> r == Removal(db, defaultTranslation, "Failed to remove " + abbreviation + ": translation not found")
    ensures abbreviation != BuiltIn && Installed(db, abbreviation) ==>
              && r.db == Store.RemoveTranslation(db, abbreviation).0
              && |r.db.translations| == |db.translations| - 1
              && r.notice == abbreviation + " translation removed"
              && r.defaultTranslation == (if defaultTranslation == abbreviation then BuiltIn else defaultTranslation)
  {
    if abbreviation == BuiltIn then Removal(db, defaultTranslation, "Cannot remove ASV translation")
    else
      var (db', removed) := Store.RemoveTranslation(db, abbreviation);
      if removed then
        Removal(db', if defaultTranslation == abbreviation then BuiltIn else defaultTranslation,
                abbreviation + " translation removed")
      else
        Removal(db, defaultTranslation, "Failed to remove " + abbreviation + ": translation not found")
  }

  /** In a consistent store, a removed abbreviation is no longer installed, and nothing else moves but its verses. */
  lemma RemovedGone(db: Store.Db, defaultTranslation: string, abbreviation: string)
    requires Store.Valid(db) && abbreviation != BuiltIn && Installed(db, abbreviation)
    ensures var r := RemoveTranslation(db, defaultTranslation, abbreviation);
            !Installed(r.db, abbreviation) && Store.Valid(r.db)
  {
    Store.RemoveTranslationValid(db, abbreviation);
  }

  /** No way of removing a translation touches the built-in one. */
  lemma BuiltInKept(db: Store.Db, defaultTranslation: string, abbreviation: string)
    ensures "Remove" !in RowActions(BuiltIn)
    ensures var r := RemoveTranslation(db, defaultTranslation, abbreviation);
            forall t :: t in db.translations && t.abbreviation == BuiltIn ==> t in r.db.translations
  {
    var r := RemoveTranslation(db, defaultTranslation, abbreviation);
    if abbreviation != BuiltIn && Installed(db, abbreviation) {
      var i := Store.TranslationIndex(db, abbreviation).value;
      forall t | t in db.translations && t.abbreviation == BuiltIn ensures t in r.db.translations {
        var j :| 0 <= j < |db.translations| && db.translations[j] == t;
        KeptAt(db, abbreviation, i, j);
      }
    }
  }

  /** A translation at another position than the removed one stays. */
  lemma KeptAt(db: Store.Db, abbreviation: string, i: nat, j: nat)
    requires Store.TranslationIndex(db, abbreviation) == Some(i)
    requires j < |db.translations| && db.translations[j].abbreviation != abbreviation
    ensures db.translations[j] in Store.RemoveTranslation(db, abbreviation).0.translations
  {
    Store.RemovedFirst(db, abbreviation, i);
    DropKeeps(db.translations, i, j);
  }

  /** Dropping one position keeps the element at every other. */
  lemma DropKeeps<T>(s: seq<T>, k: nat, j: nat)
    requires k < |s| && j < |s| && j != k
    ensures s[j] in s[..k] + s[k + 1..]
  {
    if j < k {
      assert s[j] == (s[..k] + s[k + 1..])[j];
    } else {
      assert s[j] == (s[..k] + s[k + 1..])[j - 1];
    }
  }

  /**
   * While the built-in translation is installed, the default translation
   * always names an installed one: removing it falls back to the built-in.
   */
  lemma DefaultStaysInstalled(db: Store.Db, defaultTranslation: string, abbreviation: string)
    requires Installed(db, BuiltIn) && Installed(db, defaultTranslation)
    ensures var r := RemoveTranslation(db, defaultTranslation, abbreviation);
            Installed(r.db, BuiltIn) && Installed(r.db, r.defaultTranslation)
  {
    var r := RemoveTranslation(db, defaultTranslation, abbreviation);
    if abbreviation != BuiltIn && Installed(db, abbreviation) {
      var i := Store.TranslationIndex(db, abbreviation).value;
      var a := Store.TranslationIndex(db, BuiltIn).value;
      KeptAt(db, abbreviation, i, a);
      InstalledByMember(r.db, db.translations[a]);
      if defaultTranslation != abbreviation {
        var d := Store.TranslationIndex(db, defaultTranslation).value;
        KeptAt(db, abbreviation, i, d);
        InstalledByMember(r.db, db.translations[d]);
      }
    }
  }

  lemma InstalledByMember(db: Store.Db, t: Store.Translation)
    requires t in db.translations
    ensures Installed(db, t.abbreviation)
  {
    var j :| 0 <= j < |db.translations| && db.translations[j] == t;
  }

  // ---------------------------------------------------------------------------
  // The installed-translations table
  // ---------------------------------------------------------------------------

  /** An entry of the built-in catalogue of downloadable translations. */
  datatype CatalogueEntry = CatalogueEntry(abbreviation: string, name: string, language: string, category: string)

  /** The catalogue: the built-in translation's entry, then the others, in the order they are listed. */
  const Catalogue: seq<CatalogueEntry> := [BuiltInEntry] + OtherEntries

  const BuiltInEntry := CatalogueEntry("ASV", "American Standard Version (1901)", "en", "English")

  const OtherEntries: seq<CatalogueEntry> := [
    CatalogueEntry("KJV", "King James Version", "en", "English"),
    CatalogueEntry("WEB", "World English Bible", "en", "English"),
    CatalogueEntry("YLT", "Young's Literal Translation (1898)", "en", "English"),
    CatalogueEntry("BBE", "Bible in Basic English (1949/1964)", "en", "English"),
    CatalogueEntry("AKJV", "American King James Version", "en", "English"),
    CatalogueEntry("Webster", "Webster Bible", "en", "English"),
    CatalogueEntry("Tyndale", "William Tyndale Bible (1525/1530)", "en", "Historical"),
    CatalogueEntry("Wycliffe", "John Wycliffe Bible (c.1395)", "enm", "Historical"),
    CatalogueEntry("BSB", "Berean Standard Bible", "en", "English"),
    CatalogueEntry("CPDV", "Catholic Public Domain Version", "en", "English"),
    CatalogueEntry("UKJV", "Updated King James Version", "en", "English"),
    CatalogueEntry("Twenty", "Twentieth Century New Testament", "en", "English"),
    CatalogueEntry("Anderson", "Henry Tompkins Anderson's 1864 New Testament", "en", "Historical"),
    CatalogueEntry("ACV", "A Conservative Version", "en", "English"),
    CatalogueEntry("SpaRV", "La Santa Biblia Reina-Valera (1909)", "es", "Spanish"),
    CatalogueEntry("SpaRV1865", "La Santa Biblia Reina-Valera (1865)", "es", "Spanish"),
    CatalogueEntry("SpaRVG", "Reina Valera Gómez", "es", "Spanish"),
    CatalogueEntry("SpaPlatense", "Biblia Platense (Straubinger)", "es", "Spanish"),
    CatalogueEntry("Vulgate", "Latin Vulgate", "la", "Latin"),
    CatalogueEntry("VulgClementine", "Clementine Vulgate", "la", "Latin"),
    CatalogueEntry("Byz", "The New Testament in the Original Greek: Byzantine Textform 2013", "grc", "Greek"),
    CatalogueEntry("TR", "Textus Receptus (1550/1894)", "grc", "Greek"),
    CatalogueEntry("WLC", "Westminster Leningrad Codex", "hbo", "Hebrew"),
    CatalogueEntry("StatResGNT", "Statistical Restoration Greek New Testament", "grc", "Greek"),
    CatalogueEntry("VulgSistine", "Vulgata Sistina", "la", "Latin"),
    CatalogueEntry("VulgHetzenauer", "Vulgata Clementina, Hetzenauer editore", "la", "Latin"),
    CatalogueEntry("VulgConte", "Vulgata Clementina, Conte editore", "la", "Latin"),
    CatalogueEntry("Swe1917", "Swedish Bible (1917)", "sv", "Swedish"),
    CatalogueEntry("SweKarlXII", "Svenska Karl XII:s Bibel (1703)", "sv", "Historical"),
    CatalogueEntry("SweKarlXII1873", "Svenska Karl XII:s Bibel (1873)", "sv", "Historical"),
    CatalogueEntry("UkrOgienko", "Українська Біблія. Переклад Івана Огієнка.", "uk", "Ukrainian"),
    CatalogueEntry("Viet", "Kinh Thánh Tiếng Việt (1934)", "vi", "Vietnamese"),
    CatalogueEntry("ThaiKJV", "Thai King James Version", "th", "Thai"),
    CatalogueEntry("TagAngBiblia", "Philippine Bible Society (1905)", "tl", "Tagalog"),
    CatalogueEntry("Tausug", "Tausug Kitab Injil", "tsg", "Tausug"),
    CatalogueEntry("TpiKJPB", "King Jems Pisin Baibel", "tpi", "Tok Pisin"),
    CatalogueEntry("BurJudson", "1835 Judson Burmese Bible", "my", "Burmese"),
    CatalogueEntry("Alb", "Albanian Bible", "sq", "Albanian"),
    CatalogueEntry("ArmEastern", "Eastern Armenian Bible", "hy", "Armenian"),
    CatalogueEntry("BeaMRK", "The Gospel of Mark in Beaver (Danezaa)", "bea", "Indigenous"),
    CatalogueEntry("SrKDEkavski", "Serbian Bible Daničić-Karadžić Ekavski", "sr", "Serbian"),
    CatalogueEntry("SrKDIjekav", "Serbian Bible Daničić-Karadžić Ijekavski", "sr", "Serbian"),
    CatalogueEntry("Wulfila", "Bishop Wulfila Gothic Bible", "got", "Gothic"),
    CatalogueEntry("sml_BL_2008", "Kitab Awal-Jaman maka Kitab Injil", "sml", "Indigenous"),
    CatalogueEntry("vlsJoNT", "Het Nieuwe Testament by Nicolaas De Jonge", "vls", "Dutch")
  ]

  /** The catalogue entry for an abbreviation, if it has one. */
  function CatalogueEntryFor(catalogue: seq<CatalogueEntry>, abbreviation: string): (r: Option<CatalogueEntry>)
    ensures r.Some? ==> r.value in catalogue && r.value.abbreviation == abbreviation
    ensures r.None? <==> forall i :: 0 <= i < |catalogue| ==> catalogue[i].abbreviation != abbreviation
  {
    match Arrays.FindIndex(catalogue, (e: CatalogueEntry) => e.abbreviation == abbreviation)
    case Some(i) => Some(catalogue[i])
    case None => None
  }

  /** A row of the table: the stored translation, its labels overridden from the catalogue. */
  datatype TableRow = TableRow(id: int, name: string, abbreviation: string, language: string, category: string)

  function Row(catalogue: seq<CatalogueEntry>, t: Store.Translation): (r: TableRow)
    ensures r.id == t.id && r.abbreviation == t.abbreviation
    ensures CatalogueEntryFor(catalogue, t.abbreviation).None? ==> r == TableRow(t.id, t.name, t.abbreviation, t.language, t.category)
    ensures CatalogueEntryFor(catalogue, t.abbreviation).Some? ==>
              var e := CatalogueEntryFor(catalogue, t.abbreviation).value;
              r.name == e.name && r.language == e.language && r.category == e.category
  {
    match CatalogueEntryFor(catalogue, t.abbreviation)
    case None => TableRow(t.id, t.name, t.abbreviation, t.language, t.category)
    case Some(e) => TableRow(t.id, e.name, t.abbreviation, e.language, e.category)
  }

  /** The built-in translation is always labelled by its catalogue entry, whatever the store says. */
  lemma BuiltInLabel(t: Store.Translation)
    requires t.abbreviation == BuiltIn
    ensures Row(Catalogue, t).name == "American Standard Version (1901)"
    ensures Row(Catalogue, t).language == "en" && Row(Catalogue, t).category == "English"
  {
    assert Catalogue[0] == BuiltInEntry;
  }

  /** The rows for the translations the store lists. */
  function Rows(catalogue: seq<CatalogueEntry>, translations: seq<Store.Translation>): (r: seq<TableRow>)
    ensures |r| == |translations|
    ensures forall i :: 0 <= i < |r| ==> r[i] == Row(catalogue, translations[i])
  {
    seq(|translations|, i requires 0 <= i < |translations| => Row(catalogue, translations[i]))
  }

  /** The row shows `query`: it occurs, ignoring case, in one of the four labels. */
  predicate Shows(row: TableRow, query: string) {
    || Includes(Lower(row.name), query)
    || Includes(Lower(row.abbreviation), query)
    || Includes(Lower(row.language), query)
    || Includes(Lower(row.category), query)
  }

  /** The filter box: with text in it, only the rows that show it, in their order. */
  function FilterRows(rows: seq<TableRow>, filterInput: string): (r: seq<TableRow>)
    ensures filterInput == "" ==> r == rows
    ensures forall row :: row in r <==> row in rows && (filterInput == "" || Shows(row, Lower(filterInput)))
    ensures Arrays.Subsequence(r, rows)
  {
    var query := Lower(filterInput);
    if query == "" then Arrays.SubsequenceSelf(rows); rows
    else
      var keep := (row: TableRow) => Shows(row, query);
      var r := Arrays.Filter(rows, keep);
      assert forall row :: row in r <==> row in rows && keep(row) by {
        forall row ensures row in r <==> row in rows && keep(row) {
          Arrays.FilterMembers(rows, keep, row);
        }
      }
      r
  }

  /** An occurrence of an occurrence is an occurrence. */
  lemma IncludesTransitive(a: string, b: string, c: string)
    requires Includes(a, b) && Includes(b, c)
    ensures Includes(a, c)
  {
    var i :| 0 <= i <= |a| - |b| && OccursAt(a, b, i);
    var j :| 0 <= j <= |b| - |c| && OccursAt(b, c, j);
    forall k | 0 <= k < |c| ensures a[i + j + k] == c[k] {
      assert a[i..i + |b|][j + k] == b[j + k];
      assert b[j..j + |c|][k] == c[k];
    }
    assert a[i + j..i + j + |c|] == c;
    assert OccursAt(a, c, i + j);
  }

  lemma LowerAppend(a: string, b: string)
    ensures Lower(a + b) == Lower(a) + Lower(b)
  {
  }

  /** Typing more into the filter box only hides rows. */
  lemma {:induction false} TypingNarrows(rows: seq<TableRow>, filterInput: string, more: string)
    ensures forall row :: row in FilterRows(rows, filterInput + more) ==> row in FilterRows(rows, filterInput)
  {
    var q := Lower(filterInput);
    var q2 := Lower(filterInput + more);
    LowerAppend(filterInput, more);
    assert OccursAt(q2, q, 0);
    forall row | row in FilterRows(rows, filterInput + more) && filterInput != ""
      ensures Shows(row, q)
    {
      assert filterInput + more != "";
      assert Shows(row, q2);
      if Includes(Lower(row.name), q2) {
        IncludesTransitive(Lower(row.name), q2, q);
      } else if Includes(Lower(row.abbreviation), q2) {
        IncludesTransitive(Lower(row.abbreviation), q2, q);
      } else if Includes(Lower(row.language), q2) {
        IncludesTransitive(Lower(row.language), q2, q);
      } else {
        IncludesTransitive(Lower(row.category), q2, q);
      }
    }
  }

  /** Typing an installed abbreviation, in any case, keeps its row. */
  lemma AbbreviationShown(rows: seq<TableRow>, row: TableRow, filterInput: string)
    requires row in rows && EqualsIgnoreCase(filterInput, row.abbreviation)
    ensures row in FilterRows(rows, filterInput)
  {
    assert OccursAt(Lower(row.abbreviation), Lower(filterInput), 0);
  }

  /** The sortable columns. */
  datatype Column = NameColumn | AbbreviationColumn | LanguageColumn | CategoryColumn

  /** The column sorted on and its direction. */
  datatype TableSort = TableSort(column: Column, ascending: bool)

  /** The table as it opens: by name, ascending. */
  const InitialSort := TableSort(NameColumn, true)

  function Label(row: TableRow, column: Column): string {
    match column
    case NameColumn => row.name
    case AbbreviationColumn => row.abbreviation
    case LanguageColumn => row.language
    case CategoryColumn => row.category
  }

  /** A click on a column header. */
  function ClickHeader(sort: TableSort, column: Column): (r: TableSort)
    ensures r.column == column
    ensures sort.column == column ==> r.ascending == !sort.ascending
    ensures sort.column != column ==> r.ascending
  {
    if sort.column == column then sort.(ascending := !sort.ascending)
    else TableSort(column, true)
  }

  /** Clicking the sorted column twice restores the direction; clicking another column and back sorts ascending. */
  lemma ClickHeaderTwice(sort: TableSort, column: Column)
    ensures sort.column == column ==> ClickHeader(ClickHeader(sort, column), column) == sort
    ensures sort.column != column ==> ClickHeader(ClickHeader(sort, column), column) == TableSort(column, false)
  {
  }

  /** The arrow next to a header. */
  function Arrow(sort: TableSort, column: Column): (r: string)
    ensures r != "" <==> sort.column == column
  {
    if sort.column != column then "" else if sort.ascending then " ↓" else " ↑"
  }

  /** The comparison the table sorts with: `localeCompare` on the column, negated when descending. */
  function RowOrder(lc: (string, string) -> int, sort: TableSort): (TableRow, TableRow) -> int {
    (a: TableRow, b: TableRow) => (if sort.ascending then 1 else -1) * lc(Label(a, sort.column), Label(b, sort.column))
  }

  function SortRows(lc: (string, string) -> int, rows: seq<TableRow>, sort: TableSort): (r: seq<TableRow>)
    ensures multiset(r) == multiset(rows)
  {
    Arrays.SortBy(rows, RowOrder(lc, sort))
  }

  lemma RowOrderPreorder(lc: (string, string) -> int, sort: TableSort)
    requires Arrays.TotalPreorder(lc)
    ensures Arrays.TotalPreorder(RowOrder(lc, sort))
  {
    var cmp := RowOrder(lc, sort);
    forall a, b ensures cmp(a, b) < 0 <==> cmp(b, a) > 0 {
      var x, y := Label(a, sort.column), Label(b, sort.column);
      assert lc(x, y) < 0 <==> lc(y, x) > 0;
      assert lc(y, x) < 0 <==> lc(x, y) > 0;
    }
    forall a, b, c | cmp(a, b) <= 0 && cmp(b, c) <= 0 ensures cmp(a, c) <= 0 {
      var x, y, z := Label(a, sort.column), Label(b, sort.column), Label(c, sort.column);
      if !sort.ascending {
        assert lc(y, x) <= 0 && lc(z, y) <= 0;
      }
    }
  }

  /** The sorted table reads in the column's order, or the reverse of it when descending. */
  lemma SortRowsOrdered(lc: (string, string) -> int, rows: seq<TableRow>, sort: TableSort)
    requires Arrays.TotalPreorder(lc)
    ensures var r := SortRows(lc, rows, sort);
            forall i, j :: 0 <= i < j < |r| ==>
              if sort.ascending then lc(Label(r[i], sort.column), Label(r[j], sort.column)) <= 0
              else lc(Label(r[j], sort.column), Label(r[i], sort.column)) <= 0
  {
    RowOrderPreorder(lc, sort);
    Arrays.SortBySorted(rows, RowOrder(lc, sort));
    var r := SortRows(lc, rows, sort);
    forall i, j | 0 <= i < j < |r|
      ensures if sort.ascending then lc(Label(r[i], sort.column), Label(r[j], sort.column)) <= 0
              else lc(Label(r[j], sort.column), Label(r[i], sort.column)) <= 0
    {
      assert RowOrder(lc, sort)(r[i], r[j]) <= 0;
    }
  }

  /**
   * The sort is stable: rows whose label in the sorted column ties with
   * that of any row `x` keep the order they had before sorting.
   */
  lemma SortRowsStable(lc: (string, string) -> int, rows: seq<TableRow>, sort: TableSort, x: TableRow)
    requires Arrays.TotalPreorder(lc)
    ensures Arrays.Ties(SortRows(lc, rows, sort), x, RowOrder(lc, sort)) == Arrays.Ties(rows, x, RowOrder(lc, sort))
  {
    RowOrderPreorder(lc, sort);
    Arrays.SortByStable(rows, x, RowOrder(lc, sort));
  }

  /** What the table lists: the installed translations' rows, filtered, then sorted. */
  function Table(lc: (string, string) -> int, db: Store.Db, filterInput: string, sort: TableSort): seq<TableRow>
  {
    var rows := Rows(Catalogue, Store.GetTranslations(db, lc));
    SortRows(lc, FilterRows(rows, filterInput), sort)
  }

  /** The table lists a row for each installed translation that shows the filter text, and nothing else. */
  lemma TableLists(lc: (string, string) -> int, db: Store.Db, filterInput: string, sort: TableSort, row: TableRow)
    ensures row in Table(lc, db, filterInput, sort) <==>
              (exists t :: t in db.translations && row == Row(Catalogue, t))
              && (filterInput == "" || Shows(row, Lower(filterInput)))
  {
    var ts := Store.GetTranslations(db, lc);
    var rows := Rows(Catalogue, ts);
    var shown := FilterRows(rows, filterInput);
    var r := SortRows(lc, shown, sort);
    assert row in r <==> row in shown by {
      assert row in r <==> multiset(r)[row] > 0;
      assert row in shown <==> multiset(shown)[row] > 0;
    }
    RowsOfTranslations(ts, db.translations, row);
  }

  /** The rows of a reordering of the translations are the rows of the translations. */
  lemma RowsOfTranslations(ts: seq<Store.Translation>, installed: seq<Store.Translation>, row: TableRow)
    requires multiset(ts) == multiset(installed)
    ensures row in Rows(Catalogue, ts) <==> exists t :: t in installed && row == Row(Catalogue, t)
  {
    var rows := Rows(Catalogue, ts);
    if row in rows {
      var i :| 0 <= i < |rows| && rows[i] == row;
      assert ts[i] in multiset(installed);
    }
    if t :| t in installed && row == Row(Catalogue, t) {
      assert t in multiset(ts);
      var i :| 0 <= i < |ts| && ts[i] == t;
      assert rows[i] == row;
    }
  }

  // ---------------------------------------------------------------------------
  // SQLite import
  // ---------------------------------------------------------------------------

  /** `s` ends with `suffix`, ignoring the case of ASCII letters. */
  predicate EndsWithIgnoreCase(s: string, suffix: string) {
    |suffix| <= |s| && Lower(s[|s| - |suffix|..]) == Lower(suffix)
  }

  /** The proposed translation name: the file name without a `.sqlite` or `.db` ending, in any case. */
  function SqliteName(fileName: string): (r: string)
    ensures r <= fileName
    ensures r == fileName <==> !EndsWithIgnoreCase(fileName, ".sqlite") && !EndsWithIgnoreCase(fileName, ".db")
    ensures r != fileName ==> var ending := fileName[|r|..];
                              EqualsIgnoreCase(ending, ".sqlite") || EqualsIgnoreCase(ending, ".db")
  {
    if EndsWithIgnoreCase(fileName, ".sqlite") then fileName[..|fileName| - 7]
    else if EndsWithIgnoreCase(fileName, ".db") then fileName[..|fileName| - 3]
    else fileName
  }

  /** The proposed abbreviation: the name in upper case. */
  function SqliteAbbreviation(fileName: string): (r: string)
    ensures EqualsIgnoreCase(r, SqliteName(fileName))
    ensures forall i :: 0 <= i < |r| ==> !('a' <= r[i] <= 'z')
  {
    var name := SqliteName(fileName);
    UpperIgnoringCase(name);
    Upper(name)
  }

  /** Any stem followed by one of the two endings, in any case, is named after the stem, and only one ending goes. */
  lemma SqliteNameRoundTrip(stem: string, ending: string)
    requires EqualsIgnoreCase(ending, ".sqlite") || EqualsIgnoreCase(ending, ".db")
    ensures SqliteName(stem + ending) == stem
  {
    var f := stem + ending;
    assert f[|f| - |ending|..] == ending;
    if EqualsIgnoreCase(ending, ".db") {
      assert |ending| == 3;
      assert Lower(ending)[2] == 'b';
      assert !EndsWithIgnoreCase(f, ".sqlite") by {
        if |f| >= 7 {
          assert Lower(f[|f| - 7..])[6] == Lower(ending)[2];
        }
      }
    }
    assert f[..|f| - |ending|] == stem;
  }

  /** The two sample verses a SQLite import stores. */
  function SampleVerses(translationId: int): (r: seq<Store.NewVerse>)
    ensures |r| == 2 && forall k :: 0 <= k < 2 ==> r[k].translationId == translationId
  {
    [Store.NewVerse(translationId, "John", 3, 16, "Sample verse from uploaded file"),
     Store.NewVerse(translationId, "Genesis", 1, 1, "Sample verse from uploaded file")]
  }

  /** The import modal's confirm step, with the details as the user left them. */
  function ImportSqlite(db: Store.Db, name: string, abbreviation: string, language: string, category: string,
                        rules: seq<Rules.ProcessingRule>): (r: Result<Store.Db, string>)
    ensures r.Err? <==> Installed(db, abbreviation)
    ensures r.Err? ==> r.error == "Translation " + abbreviation + " already exists"
    ensures r.Ok? ==> Installed(r.value, abbreviation)
                      && |r.value.translations| == |db.translations| + 1
                      && r.value.translations[..|db.translations|] == db.translations
                      && |r.value.verses| == |db.verses| + 2 && r.value.verses[..|db.verses|] == db.verses
  {
    if Installed(db, abbreviation) then Err("Translation " + abbreviation + " already exists")
    else
      assert forall t :: t in db.translations ==> t.abbreviation != abbreviation;
      var (db', id) := Store.AddTranslation(db, name, abbreviation, language, category, rules).value;
      var r := Store.AddVersesBatch(db', SampleVerses(id));
      assert r.translations == db'.translations;
      Ok(r)
  }

  /** After an import, the imported translation has John 3:16. */
  lemma ImportedSampleFound(db: Store.Db, name: string, abbreviation: string, language: string, category: string,
                            rules: seq<Rules.ProcessingRule>)
    requires ImportSqlite(db, name, abbreviation, language, category, rules).Ok?
    ensures Store.GetVerse(ImportSqlite(db, name, abbreviation, language, category, rules).value, "John", 3, 16, abbreviation).Some?
  {
    var (db', id) := Store.AddTranslation(db, name, abbreviation, language, category, rules).value;
    var r := ImportSqlite(db, name, abbreviation, language, category, rules).value;
    var samples := SampleVerses(id);
    assert r == Store.AddVersesBatch(db', samples);
    assert Store.TranslationId(r, abbreviation) == Some(id);
    assert r.verses[|db'.verses|] == Store.Stored(samples[0], db'.nextVerseId);
    assert Store.IsAt(r.verses[|db'.verses|], id, "John", 3, 16);
  }
}

=== FILE: store.dfy ===
/**
 * The plugin's Bible store (`BibleDatabase` in src/database.ts): a list of
 * translations and a flat list of verses, each verse pointing at its
 * translation by id, with counters for the next ids. Reading and writing the
 * JSON file that persists it are left out; every operation here is a pure
 * function from the old store to the new one.
 */
module Store {
  import opened Wrappers
  import opened Arrays
  import opened Rules

  datatype Translation = Translation(
    id: int,
    name: string,
    abbreviation: string,
    language: string,
    category: string,
    processingRules: seq<ProcessingRule>)

  datatype Verse = Verse(id: int, translationId: int, book: string, chapter: int, verse: int, text: string)

  /** A verse as it is handed to `addVersesBatch`, before it has an id. */
  datatype NewVerse = NewVerse(translationId: int, book: string, chapter: int, verse: int, text: string)

  datatype Db = Db(translations: seq<Translation>, verses: seq<Verse>, nextTranslationId: int, nextVerseId: int)

  /** The result of `getTranslationStats`. */
  datatype Stats = Stats(name: string, verseCount: nat, books: seq<string>)

  /** The store before anything has been loaded or added. */
  const Empty := Db([], [], 1, 1)

  const DefaultLanguage := "English"
  const DefaultCategory := "Standard"

  /**
   * The order in which `getBooks` lists the 66 books it knows: the 39 books
   * of the Old Testament, then the 27 of the New.
   */
  const ChronologicalBookOrder: seq<string> := OldTestamentOrder + NewTestamentOrder

  const OldTestamentOrder: seq<string> := [
    "Genesis", "Exodus", "Leviticus", "Numbers", "Deuteronomy",
    "Joshua", "Judges", "Ruth", "1 Samuel", "2 Samuel",
    "1 Kings", "2 Kings", "1 Chronicles", "2 Chronicles",
    "Ezra", "Nehemiah", "Esther", "Job", "Psalms",
    "Proverbs", "Ecclesiastes", "Song of Solomon", "Isaiah",
    "Jeremiah", "Lamentations", "Ezekiel", "Daniel",
    "Hosea", "Joel", "Amos", "Obadiah", "Jonah",
    "Micah", "Nahum", "Habakkuk", "Zephaniah", "Haggai",
    "Zechariah", "Malachi"
  ]

  const NewTestamentOrder: seq<string> := [
    "Matthew", "Mark", "Luke",
    "John", "Acts", "Romans", "1 Corinthians", "2 Corinthians",
    "Galatians", "Ephesians", "Philippians", "Colossians",
    "1 Thessalonians", "2 Thessalonians", "1 Timothy", "2 Timothy",
    "Titus", "Philemon", "Hebrews", "James", "1 Peter",
    "2 Peter", "1 John", "2 John", "3 John", "Jude",
    "Revelation"
  ]

  /**
   * What every operation keeps: abbreviations and ids are unique and every
   * id is below the counter that hands out the next one.
   */
  ghost predicate Valid(db: Db) {
    TranslationsValid(db.translations, db.nextTranslationId) && VerseIdsValid(db.verses, db.nextVerseId)
  }

  ghost predicate TranslationsValid(ts: seq<Translation>, next: int) {
    && (forall i, j :: 0 <= i < j < |ts| ==> ts[i].abbreviation != ts[j].abbreviation && ts[i].id != ts[j].id)
    && (forall i :: 0 <= i < |ts| ==> ts[i].id < next)
  }

  ghost predicate VerseIdsValid(vs: seq<Verse>, next: int) {
    && (forall i, j :: 0 <= i < j < |vs| ==> vs[i].id != vs[j].id)
    && (forall i :: 0 <= i < |vs| ==> vs[i].id < next)
  }

  lemma EmptyValid()
    ensures Valid(Empty)
  {
  }

  // ---------------------------------------------------------------------------
  // Lookups
  // ---------------------------------------------------------------------------

  /** `translations.find(t => t.abbreviation === abbr)`, as a position. */
  function TranslationIndex(db: Db, abbr: string): (r: Option<nat>)
    ensures r.Some? ==> r.value < |db.translations| && db.translations[r.value].abbreviation == abbr
    ensures r.Some? ==> forall j :: 0 <= j < r.value ==> db.translations[j].abbreviation != abbr
    ensures r.None? <==> forall j :: 0 <= j < |db.translations| ==> db.translations[j].abbreviation != abbr
  {
    FindIndex(db.translations, (t: Translation) => t.abbreviation == abbr)
  }

  /** The id of the first translation with that abbreviation. */
  function TranslationId(db: Db, abbr: string): (r: Option<int>)
    ensures r.None? <==> TranslationIndex(db, abbr).None?
    ensures r.Some? ==> exists t :: t in db.translations && t.abbreviation == abbr && t.id == r.value
  {
    match TranslationIndex(db, abbr)
    case None => None
    case Some(i) => Some(db.translations[i].id)
  }

  /** `lc` applied to the abbreviations. */
  function ByAbbreviation(lc: (string, string) -> int): (Translation, Translation) -> int {
    (a: Translation, b: Translation) => lc(a.abbreviation, b.abbreviation)
  }

  /** `getTranslations()`: every translation, ordered by abbreviation with `localeCompare` (`lc`). */
  function GetTranslations(db: Db, lc: (string, string) -> int): (r: seq<Translation>)
    ensures multiset(r) == multiset(db.translations)
  {
    SortBy(db.translations, ByAbbreviation(lc))
  }

  lemma GetTranslationsSorted(db: Db, lc: (string, string) -> int)
    requires TotalPreorder(lc)
    ensures Sorted(GetTranslations(db, lc), ByAbbreviation(lc))
  {
    var cmp := ByAbbreviation(lc);
    assert forall a, b :: cmp(a, b) == lc(a.abbreviation, b.abbreviation);
    SortBySorted(db.translations, cmp);
  }

  /**
   * `Array.prototype.sort` is stable: translations whose abbreviations
   * `lc` ties keep the order they were stored in.
   */
  lemma GetTranslationsStable(db: Db, lc: (string, string) -> int, x: Translation)
    requires TotalPreorder(lc)
    ensures Ties(GetTranslations(db, lc), x, ByAbbreviation(lc)) == Ties(db.translations, x, ByAbbreviation(lc))
  {
    var cmp := ByAbbreviation(lc);
    assert forall a, b :: cmp(a, b) == lc(a.abbreviation, b.abbreviation);
    SortByStable(db.translations, x, cmp);
  }

  // ---------------------------------------------------------------------------
  // getBooks
  // ---------------------------------------------------------------------------

  /** `list.indexOf(x)`, -1 when absent. */
  function IndexOf(list: seq<string>, x: string): (r: int)
    ensures -1 <= r < |list|
    ensures r == -1 <==> x !in list
    ensures r >= 0 ==> list[r] == x && x !in list[..r]
  {
    if |list| == 0 then -1
    else if list[0] == x then 0
    else
      var i := IndexOf(list[1..], x);
      assert x in list <==> x in list[1..];
      if i == -1 then -1 else (assert list[..i + 1] == [list[0]] + list[1..][..i]; i + 1)
  }

  /** The comparator of `getBooks`: known books by position, known before unknown, unknown by `lc`. */
  function BookCompare(lc: (string, string) -> int, a: string, b: string): int {
    RankCompare(lc, IndexOf(ChronologicalBookOrder, a), IndexOf(ChronologicalBookOrder, b), a, b)
  }

  /** Ranked books by rank, before unranked ones (rank -1), which go by `lc`. */
  function RankCompare(lc: (string, string) -> int, ai: int, bi: int, a: string, b: string): int {
    if ai != -1 && bi != -1 then ai - bi
    else if ai != -1 then -1
    else if bi != -1 then 1
    else lc(a, b)
  }

  lemma RankCompareTransitive(lc: (string, string) -> int, ai: int, bi: int, ci: int, a: string, b: string, c: string)
    requires TotalPreorder(lc)
    requires RankCompare(lc, ai, bi, a, b) <= 0 && RankCompare(lc, bi, ci, b, c) <= 0
    ensures RankCompare(lc, ai, ci, a, c) <= 0
  {
  }

  lemma RankCompareFlip(lc: (string, string) -> int, ai: int, bi: int, a: string, b: string)
    requires TotalPreorder(lc)
    ensures RankCompare(lc, ai, bi, a, b) < 0 <==> RankCompare(lc, bi, ai, b, a) > 0
  {
  }

  function BookOrder(lc: (string, string) -> int): (string, string) -> int {
    (a: string, b: string) => BookCompare(lc, a, b)
  }

  /** The book order is consistent whenever `localeCompare` is. */
  lemma BookOrderTotalPreorder(lc: (string, string) -> int)
    requires TotalPreorder(lc)
    ensures TotalPreorder(BookOrder(lc))
  {
    var cmp := BookOrder(lc);
    forall a, b ensures cmp(a, b) < 0 <==> cmp(b, a) > 0 {
      RankCompareFlip(lc, IndexOf(ChronologicalBookOrder, a), IndexOf(ChronologicalBookOrder, b), a, b);
    }
    forall a, b, c | cmp(a, b) <= 0 && cmp(b, c) <= 0
      ensures cmp(a, c) <= 0
    {
      RankCompareTransitive(lc, IndexOf(ChronologicalBookOrder, a), IndexOf(ChronologicalBookOrder, b),
                            IndexOf(ChronologicalBookOrder, c), a, b, c);
    }
  }

  /** The books of `vs`, in the order of their first verse. */
  function BooksOf(vs: seq<Verse>): seq<string> {
    Distinct(seq(|vs|, k requires 0 <= k < |vs| => vs[k].book))
  }

  /** `getBooks()`: every book that has a verse, each once, in the book order. */
  function GetBooks(db: Db, lc: (string, string) -> int): (r: seq<string>)
    ensures forall b :: b in r <==> exists v :: v in db.verses && v.book == b
    ensures NoDuplicates(r)
  {
    var d := BooksOf(db.verses);
    var r := SortBy(d, BookOrder(lc));
    PermutationNoDuplicates(d, r);
    PermutationMembers(d, r);
    BooksOfMembers(db.verses);
    r
  }

  /**
   * Known books come first, in their fixed order; the other books follow,
   * ordered by `localeCompare`.
   */
  lemma GetBooksOrder(db: Db, lc: (string, string) -> int)
    requires TotalPreorder(lc)
    ensures var r := GetBooks(db, lc);
      forall i, j :: 0 <= i < j < |r| ==>
        && (r[j] in ChronologicalBookOrder ==>
              r[i] in ChronologicalBookOrder
              && IndexOf(ChronologicalBookOrder, r[i]) < IndexOf(ChronologicalBookOrder, r[j]))
        && (r[i] !in ChronologicalBookOrder ==> r[j] !in ChronologicalBookOrder && lc(r[i], r[j]) <= 0)
  {
    var vs := db.verses;
    var d := BooksOf(vs);
    var r := GetBooks(db, lc);
    assert r == SortBy(d, BookOrder(lc));
    BookOrderTotalPreorder(lc);
    SortBySorted(d, BookOrder(lc));
    forall i, j | 0 <= i < j < |r|
      ensures r[j] in ChronologicalBookOrder ==>
                r[i] in ChronologicalBookOrder
                && IndexOf(ChronologicalBookOrder, r[i]) < IndexOf(ChronologicalBookOrder, r[j])
      ensures r[i] !in ChronologicalBookOrder ==> r[j] !in ChronologicalBookOrder && lc(r[i], r[j]) <= 0
    {
      assert BookOrder(lc)(r[i], r[j]) <= 0;
      assert r[i] != r[j];
      BookCompareMeans(lc, r[i], r[j]);
    }
  }

  /** What it means for one distinct book to come no later than another. */
  lemma BookCompareMeans(lc: (string, string) -> int, a: string, b: string)
    requires a != b && BookCompare(lc, a, b) <= 0
    ensures b in ChronologicalBookOrder ==>
              a in ChronologicalBookOrder
              && IndexOf(ChronologicalBookOrder, a) < IndexOf(ChronologicalBookOrder, b)
    ensures a !in ChronologicalBookOrder ==> b !in ChronologicalBookOrder && lc(a, b) <= 0
  {
    var ai := IndexOf(ChronologicalBookOrder, a);
    var bi := IndexOf(ChronologicalBookOrder, b);
    if ai != -1 && bi != -1 {
      assert ai != bi;
    }
  }

  // ---------------------------------------------------------------------------
  // Chapters and verses
  // ---------------------------------------------------------------------------

  /** The distinct values of `key` over `vs`, ascending. */
  function AscendingKeys(vs: seq<Verse>, key: Verse -> int): (r: seq<int>)
    ensures forall c :: c in r <==> exists v :: v in vs && key(v) == c
    ensures forall i, j :: 0 <= i < j < |r| ==> r[i] < r[j]
  {
    var d := Distinct(Keys(vs, key));
    var r := SortBy(d, Ascending);
    AscendingTotalPreorder();
    SortBySorted(d, Ascending);
    PermutationNoDuplicates(d, r);
    SortedDistinctIncreasing(r);
    PermutationMembers(d, r);
    KeysOf(vs, key);
    r
  }

  /** The key of every verse, in the verses' order. */
  function Keys(vs: seq<Verse>, key: Verse -> int): (r: seq<int>)
    ensures |r| == |vs| && forall k :: 0 <= k < |vs| ==> r[k] == key(vs[k])
  {
    seq(|vs|, k requires 0 <= k < |vs| => key(vs[k]))
  }

  /** The keys of the verses are the values `key` takes on some verse. */
  lemma KeysOf(vs: seq<Verse>, key: Verse -> int)
    ensures forall c :: c in Keys(vs, key) <==> exists v :: v in vs && key(v) == c
  {
    var keys := Keys(vs, key);
    forall c ensures c in keys <==> exists v :: v in vs && key(v) == c {
      if c in keys {
        var k :| 0 <= k < |vs| && keys[k] == c;
        assert vs[k] in vs;
      }
      if exists v :: v in vs && key(v) == c {
        var v :| v in vs && key(v) == c;
        var k :| 0 <= k < |vs| && vs[k] == v;
        assert keys[k] == c;
      }
    }
  }

  /** `getChaptersForBook(book, abbr)`: the chapters of the book that have a verse, ascending. */
  function GetChaptersForBook(db: Db, book: string, abbr: string): (r: seq<int>)
    ensures TranslationId(db, abbr).None? ==> r == []
    ensures TranslationId(db, abbr).Some? ==> forall c :: c in r <==>
              exists v :: v in db.verses && v.translationId == TranslationId(db, abbr).value && v.book == book && v.chapter == c
    ensures forall i, j :: 0 <= i < j < |r| ==> r[i] < r[j]
  {
    match TranslationId(db, abbr)
    case None => []
    case Some(id) =>
      var keep := (v: Verse) => v.translationId == id && v.book == book;
      var found := Filter(db.verses, keep);
      var r := AscendingKeys(found, (v: Verse) => v.chapter);
      assert forall v :: v in found <==> v in db.verses && keep(v) by {
        forall v ensures v in found <==> v in db.verses && keep(v) {
          FilterMembers(db.verses, keep, v);
        }
      }
      r
  }

  /** `getVersesForChapter(book, chapter, abbr)`: the verse numbers of the chapter, ascending. */
  function GetVersesForChapter(db: Db, book: string, chapter: int, abbr: string): (r: seq<int>)
    ensures TranslationId(db, abbr).None? ==> r == []
    ensures TranslationId(db, abbr).Some? ==> forall n :: n in r <==>
              exists v :: v in db.verses && v.translationId == TranslationId(db, abbr).value
                          && v.book == book && v.chapter == chapter && v.verse == n
    ensures forall i, j :: 0 <= i < j < |r| ==> r[i] < r[j]
  {
    match TranslationId(db, abbr)
    case None => []
    case Some(id) =>
      var keep := (v: Verse) => v.translationId == id && v.book == book && v.chapter == chapter;
      var found := Filter(db.verses, keep);
      var r := AscendingKeys(found, (v: Verse) => v.verse);
      assert forall v :: v in found <==> v in db.verses && keep(v) by {
        forall v ensures v in found <==> v in db.verses && keep(v) {
          FilterMembers(db.verses, keep, v);
        }
      }
      r
  }

  predicate IsAt(v: Verse, id: int, book: string, chapter: int, verse: int) {
    v.translationId == id && v.book == book && v.chapter == chapter && v.verse == verse
  }

  /** `getVerse(book, chapter, verse, abbr)`: the first stored verse at that place, if any. */
  function GetVerse(db: Db, book: string, chapter: int, verse: int, abbr: string): (r: Option<Verse>)
    ensures r.Some? ==> TranslationId(db, abbr).Some?
                        && r.value in db.verses && IsAt(r.value, TranslationId(db, abbr).value, book, chapter, verse)
    ensures r.None? <==> TranslationId(db, abbr).None?
                         || forall v :: v in db.verses ==> !IsAt(v, TranslationId(db, abbr).value, book, chapter, verse)
    ensures r.Some? ==> exists i | 0 <= i < |db.verses| ::
              r.value == db.verses[i] && forall j | 0 <= j < i :: !IsAt(db.verses[j], TranslationId(db, abbr).value, book, chapter, verse)
  {
    match TranslationId(db, abbr)
    case None => None
    case Some(id) =>
      match FindIndex(db.verses, (v: Verse) => IsAt(v, id, book, chapter, verse))
      case None => None
      case Some(i) => Some(db.verses[i])
  }

  // ---------------------------------------------------------------------------
  // Changes
  // ---------------------------------------------------------------------------

  /**
   * `addTranslation`: refused when the abbreviation is taken; otherwise the
   * translation is appended under the next translation id, which is returned.
   */
  function AddTranslation(db: Db, name: string, abbr: string, language: string, category: string,
                          rules: seq<ProcessingRule>): (r: Result<(Db, int), string>)
    ensures r.Err? <==> exists t :: t in db.translations && t.abbreviation == abbr
    ensures r.Err? ==> r.error == "Translation with abbreviation '" + abbr + "' already exists"
    ensures r.Ok? ==> var (db', id) := r.value;
      && id == db.nextTranslationId
      && db'.nextTranslationId == id + 1
      && |db'.translations| == |db.translations| + 1
      && db'.translations[..|db.translations|] == db.translations
      && TranslationIndex(db', abbr) == Some(|db.translations|)
      && db'.translations[|db.translations|] == Translation(id, name, abbr, language, category, rules)
      && db'.verses == db.verses && db'.nextVerseId == db.nextVerseId
  {
    if TranslationIndex(db, abbr).Some? then
      Err("Translation with abbreviation '" + abbr + "' already exists")
    else
      var id := db.nextTranslationId;
      var ts := db.translations + [Translation(id, name, abbr, language, category, rules)];
      var db' := db.(translations := ts, nextTranslationId := id + 1);
      assert forall j :: 0 <= j < |db.translations| ==> ts[j] == db.translations[j];
      assert ts[..|db.translations|] == db.translations;
      assert ts[|db.translations|].abbreviation == abbr;
      var k := TranslationIndex(db', abbr);
      assert k.Some? && k.value == |db.translations|;
      Ok((db', id))
  }

  lemma AddTranslationValid(db: Db, name: string, abbr: string, language: string, category: string,
                            rules: seq<ProcessingRule>)
    requires Valid(db)
    ensures var r := AddTranslation(db, name, abbr, language, category, rules);
      r.Ok? ==> Valid(r.value.0)
  {
  }

  /** `translations.find(t => t.id === id)`, as a position. */
  function IdIndex(db: Db, id: int): (r: Option<nat>)
    ensures r.Some? ==> r.value < |db.translations| && db.translations[r.value].id == id
    ensures r.None? <==> forall j :: 0 <= j < |db.translations| ==> db.translations[j].id != id
  {
    FindIndex(db.translations, (t: Translation) => t.id == id)
  }

  /**
   * `updateTranslation`: the first translation with the id takes the new
   * fields; refused when there is none, or when the abbreviation changes to
   * one that is taken.
   */
  function UpdateTranslation(db: Db, id: int, name: string, abbr: string, language: string, category: string,
                             rules: seq<ProcessingRule>): (r: Result<Db, string>)
    ensures IdIndex(db, id).None? ==> r == Err("Translation not found")
    ensures IdIndex(db, id).Some? ==>
      var i := IdIndex(db, id).value;
      && (r.Err? <==> db.translations[i].abbreviation != abbr && exists t :: t in db.translations && t.abbreviation == abbr)
      && (r.Err? ==> r.error == "Translation abbreviation already exists")
      && (r.Ok? ==> && |r.value.translations| == |db.translations|
                    && r.value.translations[i] == Translation(id, name, abbr, language, category, rules)
                    && (forall j :: 0 <= j < |db.translations| && j != i ==> r.value.translations[j] == db.translations[j]))
    ensures r.Ok? ==> (r.value.verses == db.verses
      && r.value.nextTranslationId == db.nextTranslationId && r.value.nextVerseId == db.nextVerseId)
  {
    match IdIndex(db, id)
    case None => Err("Translation not found")
    case Some(i) =>
      var current := db.translations[i];
      if current.abbreviation != abbr && TranslationIndex(db, abbr).Some? then
        Err("Translation abbreviation already exists")
      else
        Ok(db.(translations := db.translations[i := Translation(id, name, abbr, language, category, rules)]))
  }

  lemma UpdateTranslationValid(db: Db, id: int, name: string, abbr: string, language: string, category: string,
                               rules: seq<ProcessingRule>)
    requires Valid(db)
    ensures var r := UpdateTranslation(db, id, name, abbr, language, category, rules);
      r.Ok? ==> Valid(r.value)
  {
  }

  /** The verse `nv` stored under the id `id`. */
  function Stored(nv: NewVerse, id: int): Verse {
    Verse(id, nv.translationId, nv.book, nv.chapter, nv.verse, nv.text)
  }

  /** `addVersesBatch`: the verses are appended in order under consecutive new ids. */
  function AddVersesBatch(db: Db, batch: seq<NewVerse>): (r: Db)
    ensures |r.verses| == |db.verses| + |batch|
    ensures r.verses[..|db.verses|] == db.verses
    ensures forall k :: 0 <= k < |batch| ==> r.verses[|db.verses| + k] == Stored(batch[k], db.nextVerseId + k)
    ensures r.nextVerseId == db.nextVerseId + |batch|
    ensures r.translations == db.translations && r.nextTranslationId == db.nextTranslationId
    decreases |batch|
  {
    if |batch| == 0 then db
    else
      var db1 := db.(verses := db.verses + [Stored(batch[0], db.nextVerseId)], nextVerseId := db.nextVerseId + 1);
      var r := AddVersesBatch(db1, batch[1..]);
      assert forall k :: 1 <= k < |batch| ==> batch[1..][k - 1] == batch[k];
      assert r.verses[..|db.verses|] == r.verses[..|db1.verses|][..|db.verses|];
      r
  }

  /** `addVerse`: one verse under the next id. */
  function AddVerse(db: Db, translationId: int, book: string, chapter: int, verse: int, text: string): (r: Db)
    ensures r.verses == db.verses + [Verse(db.nextVerseId, translationId, book, chapter, verse, text)]
    ensures r.nextVerseId == db.nextVerseId + 1
    ensures r.translations == db.translations && r.nextTranslationId == db.nextTranslationId
  {
    db.(verses := db.verses + [Verse(db.nextVerseId, translationId, book, chapter, verse, text)],
        nextVerseId := db.nextVerseId + 1)
  }

  /** Adding two batches one after the other is adding them as one. */
  lemma AddVersesBatchAppend(db: Db, a: seq<NewVerse>, b: seq<NewVerse>)
    ensures AddVersesBatch(AddVersesBatch(db, a), b) == AddVersesBatch(db, a + b)
  {
    var d1 := AddVersesBatch(db, a);
    StoredAppend(db.verses, d1.verses, AddVersesBatch(d1, b).verses, AddVersesBatch(db, a + b).verses,
                 a, b, db.nextVerseId);
  }

  /** Verses stored batch by batch are the verses stored from the joined batch. */
  lemma StoredAppend(v0: seq<Verse>, v1: seq<Verse>, v2: seq<Verse>, w: seq<Verse>,
                     a: seq<NewVerse>, b: seq<NewVerse>, id: int)
    requires |v1| == |v0| + |a| && v1[..|v0|] == v0
    requires forall k :: 0 <= k < |a| ==> v1[|v0| + k] == Stored(a[k], id + k)
    requires |v2| == |v1| + |b| && v2[..|v1|] == v1
    requires forall k :: 0 <= k < |b| ==> v2[|v1| + k] == Stored(b[k], id + |a| + k)
    requires |w| == |v0| + |a + b| && w[..|v0|] == v0
    requires forall k :: 0 <= k < |a + b| ==> w[|v0| + k] == Stored((a + b)[k], id + k)
    ensures v2 == w
  {
    forall k | 0 <= k < |w| ensures v2[k] == w[k] {
      if k < |v0| {
        assert v2[k] == v2[..|v1|][k] == v1[..|v0|][k];
        assert w[k] == w[..|v0|][k];
      } else if k < |v1| {
        assert v2[k] == v2[..|v1|][k] == v1[|v0| + (k - |v0|)];
        assert (a + b)[k - |v0|] == a[k - |v0|];
        assert w[k] == w[|v0| + (k - |v0|)];
      } else {
        assert v2[k] == v2[|v1| + (k - |v1|)];
        assert (a + b)[k - |v0|] == b[k - |v1|];
        assert w[k] == w[|v0| + (k - |v0|)];
      }
    }
  }

  /** `addVerse` is a batch of one. */
  lemma AddVerseIsBatch(db: Db, nv: NewVerse)
    ensures AddVerse(db, nv.translationId, nv.book, nv.chapter, nv.verse, nv.text) == AddVersesBatch(db, [nv])
  {
  }

  lemma AddVersesBatchValid(db: Db, batch: seq<NewVerse>)
    requires Valid(db)
    ensures Valid(AddVersesBatch(db, batch))
  {
    var r := AddVersesBatch(db, batch);
    BatchIdsValid(db.verses, r.verses, batch, db.nextVerseId);
  }

  /** Verses appended under consecutive ids from the next free one keep the ids distinct and below the new next. */
  lemma BatchIdsValid(v0: seq<Verse>, v1: seq<Verse>, batch: seq<NewVerse>, id: int)
    requires VerseIdsValid(v0, id)
    requires |v1| == |v0| + |batch| && v1[..|v0|] == v0
    requires forall k :: 0 <= k < |batch| ==> v1[|v0| + k] == Stored(batch[k], id + k)
    ensures VerseIdsValid(v1, id + |batch|)
  {
    var n := |v0|;
    forall i | 0 <= i < |v1| ensures v1[i].id < id + |batch| && (i >= n ==> v1[i].id == id + (i - n)) {
      if i < n {
        assert v1[i] == v1[..n][i];
      } else {
        assert v1[n + (i - n)] == Stored(batch[i - n], id + (i - n));
      }
    }
    forall i, j | 0 <= i < j < |v1| ensures v1[i].id != v1[j].id {
      if j < n {
        assert v1[i] == v1[..n][i] && v1[j] == v1[..n][j];
      } else if i < n {
        assert v1[i] == v1[..n][i];
      }
    }
  }

  /**
   * `removeTranslation`: when a translation has the abbreviation, the first
   * such translation and all of its verses are dropped and the answer is
   * `true`; otherwise nothing changes and the answer is `false`.
   */
  function RemoveTranslation(db: Db, abbr: string): (r: (Db, bool))
    ensures r.1 <==> exists t :: t in db.translations && t.abbreviation == abbr
    ensures !r.1 ==> r.0 == db
    ensures r.1 ==> exists i :: (0 <= i < |db.translations| && db.translations[i].abbreviation == abbr
      && r.0.translations == db.translations[..i] + db.translations[i + 1..]
      && (forall v :: v in r.0.verses <==> v in db.verses && v.translationId != db.translations[i].id))
    ensures r.0.nextTranslationId == db.nextTranslationId && r.0.nextVerseId == db.nextVerseId
    ensures Subsequence(r.0.verses, db.verses)
  {
    match TranslationIndex(db, abbr)
    case None => SubsequenceSelf(db.verses); (db, false)
    case Some(i) =>
      var id := db.translations[i].id;
      var keep := (v: Verse) => v.translationId != id;
      var vs := Filter(db.verses, keep);
      assert forall v :: v in vs <==> v in db.verses && keep(v) by {
        forall v ensures v in vs <==> v in db.verses && keep(v) {
          FilterMembers(db.verses, keep, v);
        }
      }
      (db.(translations := db.translations[..i] + db.translations[i + 1..], verses := vs), true)
  }

  /** The translation removed is the first one with the abbreviation. */
  lemma RemovedFirst(db: Db, abbr: string, i: nat)
    requires TranslationIndex(db, abbr) == Some(i)
    ensures RemoveTranslation(db, abbr).0.translations == db.translations[..i] + db.translations[i + 1..]
  {
  }

  lemma RemoveTranslationValid(db: Db, abbr: string)
    requires Valid(db)
    ensures Valid(RemoveTranslation(db, abbr).0)
    ensures TranslationIndex(RemoveTranslation(db, abbr).0, abbr).None?
  {
    var (r, removed) := RemoveTranslation(db, abbr);
    if removed {
      var i := TranslationIndex(db, abbr).value;
      RemoveAtValid(db.translations, i, db.nextTranslationId);
      assert r.translations == db.translations[..i] + db.translations[i + 1..];
      SubsequenceValid(r.verses, db.verses, db.nextVerseId);
    }
  }

  /** Dropping one translation keeps the others valid, and its abbreviation is then absent. */
  lemma RemoveAtValid(ts: seq<Translation>, i: nat, next: int)
    requires TranslationsValid(ts, next) && i < |ts|
    ensures TranslationsValid(ts[..i] + ts[i + 1..], next)
    ensures forall t :: t in ts[..i] + ts[i + 1..] ==> t.abbreviation != ts[i].abbreviation
  {
    var r := ts[..i] + ts[i + 1..];
    assert forall j :: 0 <= j < |r| ==> r[j] == ts[if j < i then j else j + 1];
  }

  /** Keeping some verses in order keeps their ids unique and below the counter. */
  lemma {:induction false} SubsequenceValid(r: seq<Verse>, s: seq<Verse>, next: int)
    requires Subsequence(r, s) && VerseIdsValid(s, next)
    ensures VerseIdsValid(r, next)
    ensures forall v :: v in r ==> v in s
    decreases |s|
  {
    if |r| > 0 {
      assert VerseIdsValid(s[1..], next) by {
        forall i, j | 0 <= i < j < |s| - 1 ensures s[1..][i].id != s[1..][j].id {
          assert s[1..][i] == s[i + 1] && s[1..][j] == s[j + 1];
        }
      }
      if r[0] == s[0] {
        SubsequenceValid(r[1..], s[1..], next);
        forall j | 0 < j < |r| ensures r[0].id != r[j].id {
          assert r[j] == r[1..][j - 1];
          assert r[j] in s[1..];
          var k :| 0 <= k < |s| - 1 && s[1..][k] == r[j];
          assert s[k + 1] == r[j];
        }
        assert forall v :: v in r ==> v == r[0] || v in r[1..];
      } else {
        SubsequenceValid(r, s[1..], next);
      }
    }
  }

  /**
   * Adding a translation and removing it again restores the translations and
   * verses (the id counter has moved on), provided no verse already pointed at
   * the new id.
   */
  lemma RemoveAfterAdd(db: Db, name: string, abbr: string, language: string, category: string,
                       rules: seq<ProcessingRule>)
    requires forall v :: v in db.verses ==> v.translationId != db.nextTranslationId
    requires AddTranslation(db, name, abbr, language, category, rules).Ok?
    ensures var db' := AddTranslation(db, name, abbr, language, category, rules).value.0;
      var (r, removed) := RemoveTranslation(db', abbr);
      removed && r.translations == db.translations && r.verses == db.verses
  {
    var db' := AddTranslation(db, name, abbr, language, category, rules).value.0;
    assert db'.translations == db.translations + [Translation(db.nextTranslationId, name, abbr, language, category, rules)];
    var keep := (v: Verse) => v.translationId != db.nextTranslationId;
    FilterAll(db.verses, keep);
  }

  // ---------------------------------------------------------------------------
  // Statistics and processing rules
  // ---------------------------------------------------------------------------

  /** How many of the verses carry the translation id. */
  function CountOf(vs: seq<Verse>, id: int): nat {
    if |vs| == 0 then 0 else (if vs[0].translationId == id then 1 else 0) + CountOf(vs[1..], id)
  }

  /** Filtering on the translation id keeps exactly the verses counted. */
  lemma {:induction false} FilterCount(vs: seq<Verse>, id: int)
    ensures |Filter(vs, (v: Verse) => v.translationId == id)| == CountOf(vs, id)
  {
    if |vs| > 0 {
      FilterCount(vs[1..], id);
    }
  }

  /** The distinct books of `vs` in character order. */
  function SortedBooks(vs: seq<Verse>): (r: seq<string>)
    ensures forall b :: b in r <==> exists v :: v in vs && v.book == b
    ensures NoDuplicates(r)
    ensures Sorted(r, CompareChars)
  {
    var d := BooksOf(vs);
    var r := SortBy(d, CompareChars);
    CompareCharsTotalPreorder();
    SortBySorted(d, CompareChars);
    PermutationNoDuplicates(d, r);
    BooksOfMembers(vs);
    PermutationMembers(d, r);
    r
  }

  lemma BooksOfMembers(vs: seq<Verse>)
    ensures forall b :: b in BooksOf(vs) <==> exists v :: v in vs && v.book == b
  {
    var names := seq(|vs|, k requires 0 <= k < |vs| => vs[k].book);
    forall b ensures b in names <==> exists v :: v in vs && v.book == b {
      if b in names {
        var k :| 0 <= k < |vs| && names[k] == b;
        assert vs[k] in vs;
      }
      if exists v :: v in vs && v.book == b {
        var v :| v in vs && v.book == b;
        var k :| 0 <= k < |vs| && vs[k] == v;
        assert names[k] == b;
      }
    }
  }

  /**
   * `getTranslationStats`: the translation's name, its number of verses and
   * its books in character order.
   */
  function GetTranslationStats(db: Db, abbr: string): (r: Option<Stats>)
    ensures r.None? <==> TranslationIndex(db, abbr).None?
    ensures r.Some? ==> var t := db.translations[TranslationIndex(db, abbr).value];
      && r.value.name == t.name
      && r.value.verseCount == CountOf(db.verses, t.id)
      && (forall b :: b in r.value.books <==> exists v :: v in db.verses && v.translationId == t.id && v.book == b)
      && NoDuplicates(r.value.books)
      && Sorted(r.value.books, CompareChars)
  {
    match TranslationIndex(db, abbr)
    case None => None
    case Some(i) =>
      var t := db.translations[i];
      var keep := (v: Verse) => v.translationId == t.id;
      var vs := Filter(db.verses, keep);
      FilterCount(db.verses, t.id);
      assert forall v :: v in vs <==> v in db.verses && keep(v) by {
        forall v ensures v in vs <==> v in db.verses && keep(v) {
          FilterMembers(db.verses, keep, v);
        }
      }
      Some(Stats(t.name, |vs|, SortedBooks(vs)))
  }

  /**
   * `applyProcessingRules(text, abbr)`: the rules of the translation with
   * that abbreviation, in order; an unknown translation leaves the text as it is.
   */
  function ApplyProcessingRules(db: Db, text: string, abbr: string, exec: Engine): (r: string)
    requires SoundEngine(exec)
    ensures TranslationIndex(db, abbr).None? ==> r == text
    ensures TranslationIndex(db, abbr).Some? && db.translations[TranslationIndex(db, abbr).value].processingRules == []
            ==> r == text
    ensures TranslationIndex(db, abbr).Some?
            ==> r == ApplyRules(db.translations[TranslationIndex(db, abbr).value].processingRules, text, exec)
  {
    match TranslationIndex(db, abbr)
    case None => text
    case Some(i) => ApplyRules(db.translations[i].processingRules, text, exec)
  }
}

=== FILE: text.dfy ===
/**
 * The string primitives of JavaScript that the plugin leans on: the regular
 * expression character classes `\s`, `\d`, `\w` and `.`, `trim`, `split`,
 * `join`, `includes`, ASCII case mapping, `parseInt` on a run of decimal
 * digits and the decimal rendering of a number inside a template literal.
 *
 * Strings are sequences of characters; JavaScript's UTF-16 code units and
 * surrogate pairs are not distinguished.
 */
module Text {

  // ---------------------------------------------------------------------------
  // Character classes
  // ---------------------------------------------------------------------------

  /** `\d` */
  predicate IsDigit(c: char) {
    '0' <= c <= '9'
  }

  predicate IsAsciiLetter(c: char) {
    'A' <= c <= 'Z' || 'a' <= c <= 'z'
  }

  /** `\w` in a regular expression without the `u` flag. */
  predicate IsWordChar(c: char) {
    IsAsciiLetter(c) || IsDigit(c) || c == '_'
  }

  /** The characters that `.` refuses and that end a line. */
  predicate IsLineTerminator(c: char) {
    c == '\n' || c == '\r' || c == '\U{2028}' || c == '\U{2029}'
  }

  /** `\s`, which is also the set of characters `String.prototype.trim` removes. */
  predicate IsWhitespace(c: char) {
    || c == '\t' || c == '\U{000B}' || c == '\U{000C}' || c == ' '
    || c == '\U{00A0}' || c == '\U{1680}' || ('\U{2000}' <= c <= '\U{200A}')
    || c == '\U{202F}' || c == '\U{205F}' || c == '\U{3000}' || c == '\U{FEFF}'
    || IsLineTerminator(c)
  }

  predicate AllDigits(s: string) {
    forall i :: 0 <= i < |s| ==> IsDigit(s[i])
  }

  /** A string matched by `\d+`. */
  predicate IsNumeral(s: string) {
    |s| > 0 && AllDigits(s)
  }

  predicate AllWhitespace(s: string) {
    forall i :: 0 <= i < |s| ==> IsWhitespace(s[i])
  }

  predicate NoWhitespace(s: string) {
    forall i :: 0 <= i < |s| ==> !IsWhitespace(s[i])
  }

  predicate NoLineTerminator(s: string) {
    forall i :: 0 <= i < |s| ==> !IsLineTerminator(s[i])
  }

  // ---------------------------------------------------------------------------
  // Case mapping (ASCII letters only)
  // ---------------------------------------------------------------------------

  function LowerChar(c: char): char {
    if 'A' <= c <= 'Z' then (c as int + 32) as char else c
  }

  function UpperChar(c: char): char {
    if 'a' <= c <= 'z' then (c as int - 32) as char else c
  }

  /** `toLowerCase`, restricted to the ASCII letters. */
  function Lower(s: string): (r: string)
    ensures |r| == |s|
    ensures forall i :: 0 <= i < |s| ==> r[i] == LowerChar(s[i])
  {
    if |s| == 0 then "" else [LowerChar(s[0])] + Lower(s[1..])
  }

  /** `toUpperCase`, restricted to the ASCII letters. */
  function Upper(s: string): (r: string)
    ensures |r| == |s|
    ensures forall i :: 0 <= i < |s| ==> r[i] == UpperChar(s[i])
  {
    if |s| == 0 then "" else [UpperChar(s[0])] + Upper(s[1..])
  }

  /** Case-insensitive equality as `a.toLowerCase() === b.toLowerCase()`. */
  predicate EqualsIgnoreCase(a: string, b: string) {
    Lower(a) == Lower(b)
  }

  /** Upper-casing keeps a string equal to itself ignoring case and leaves no lower-case letter. */
  lemma UpperIgnoringCase(s: string)
    ensures EqualsIgnoreCase(Upper(s), s)
    ensures forall i :: 0 <= i < |s| ==> !('a' <= Upper(s)[i] <= 'z')
  {
    forall i | 0 <= i < |s| ensures Lower(Upper(s))[i] == Lower(s)[i] && !('a' <= Upper(s)[i] <= 'z') {
      UpperCharCase(s[i]);
    }
  }

  lemma UpperCharCase(c: char)
    ensures LowerChar(UpperChar(c)) == LowerChar(c)
    ensures !('a' <= UpperChar(c) <= 'z')
  {
    if 'a' <= c <= 'z' {
      assert 'A' <= UpperChar(c) <= 'Z';
    }
  }

  // ---------------------------------------------------------------------------
  // Searching
  // ---------------------------------------------------------------------------

  predicate StartsWith(s: string, prefix: string) {
    prefix <= s
  }

  predicate EndsWith(s: string, suffix: string) {
    |suffix| <= |s| && s[|s| - |suffix|..] == suffix
  }

  /** `needle` occurs in `hay` starting at index `i`. */
  predicate OccursAt(hay: string, needle: string, i: int) {
    0 <= i <= |hay| - |needle| && hay[i..i + |needle|] == needle
  }

  /** `hay.includes(needle)` */
  predicate Includes(hay: string, needle: string) {
    exists i | 0 <= i <= |hay| - |needle| :: OccursAt(hay, needle, i)
  }

  // ---------------------------------------------------------------------------
  // trim
  // ---------------------------------------------------------------------------

  function TrimStart(s: string): (r: string)
    ensures |r| <= |s| && r == s[|s| - |r|..]
    ensures AllWhitespace(s[..|s| - |r|])
    ensures |r| > 0 ==> !IsWhitespace(r[0])
  {
    if |s| > 0 && IsWhitespace(s[0]) then TrimStart(s[1..]) else s
  }

  function TrimEnd(s: string): (r: string)
    ensures |r| <= |s| && r == s[..|r|]
    ensures AllWhitespace(s[|r|..])
    ensures |r| > 0 ==> !IsWhitespace(r[|r| - 1])
  {
    if |s| > 0 && IsWhitespace(s[|s| - 1]) then TrimEnd(s[..|s| - 1]) else s
  }

  /** `String.prototype.trim`: drops the whitespace at both ends and keeps the rest. */
  function Trim(s: string): (r: string)
    ensures |r| > 0 ==> !IsWhitespace(r[0]) && !IsWhitespace(r[|r| - 1])
    ensures exists a, b :: 0 <= a <= b <= |s| && r == s[a..b]
                           && AllWhitespace(s[..a]) && AllWhitespace(s[b..])
  {
    var t := TrimStart(s);
    var r := TrimEnd(t);
    TrimmedWithin(s, t, r);
    r
  }

  /** Trimming a suffix of `s` at its end leaves a slice of `s` between whitespace. */
  lemma TrimmedWithin(s: string, t: string, r: string)
    requires |r| <= |t| <= |s| && t == s[|s| - |t|..] && r == t[..|r|]
    requires AllWhitespace(s[..|s| - |t|]) && AllWhitespace(t[|r|..])
    requires |t| > 0 ==> !IsWhitespace(t[0])
    requires |r| > 0 ==> !IsWhitespace(r[|r| - 1])
    ensures |r| > 0 ==> !IsWhitespace(r[0]) && !IsWhitespace(r[|r| - 1])
    ensures exists a, b :: 0 <= a <= b <= |s| && r == s[a..b]
                           && AllWhitespace(s[..a]) && AllWhitespace(s[b..])
  {
    var a := |s| - |t|;
    assert s[a + |r|..] == t[|r|..];
    assert r == s[a..a + |r|];
  }

  /** A string with no whitespace at either end is its own trim. */
  lemma TrimOfTrimmed(s: string)
    requires |s| > 0 ==> !IsWhitespace(s[0]) && !IsWhitespace(s[|s| - 1])
    ensures Trim(s) == s
  {
  }

  /** Whitespace around a string with non-whitespace ends is what `trim` removes. */
  lemma TrimAround(a: string, b: string, c: string)
    requires AllWhitespace(a) && AllWhitespace(c)
    requires |b| > 0 && !IsWhitespace(b[0]) && !IsWhitespace(b[|b| - 1])
    ensures Trim(a + b + c) == b
  {
    assert a + b + c == a + (b + c);
    TrimStartLeading(a, b + c);
    TrimEndTrailing(b, c);
  }

  lemma {:induction false} TrimStartLeading(a: string, t: string)
    requires AllWhitespace(a) && |t| > 0 && !IsWhitespace(t[0])
    ensures TrimStart(a + t) == t
  {
    if |a| > 0 {
      assert (a + t)[1..] == a[1..] + t;
      TrimStartLeading(a[1..], t);
    } else {
      assert a + t == t;
    }
  }

  lemma {:induction false} TrimEndTrailing(t: string, c: string)
    requires AllWhitespace(c) && |t| > 0 && !IsWhitespace(t[|t| - 1])
    ensures TrimEnd(t + c) == t
  {
    if |c| > 0 {
      assert (t + c)[..|t + c| - 1] == t + c[..|c| - 1];
      TrimEndTrailing(t, c[..|c| - 1]);
    } else {
      assert t + c == t;
    }
  }

  /** Trimming the end of `x + y` stops inside `y` when `x` ends in non-whitespace. */
  lemma {:induction false} TrimEndAfter(x: string, y: string)
    requires |x| > 0 && !IsWhitespace(x[|x| - 1])
    ensures TrimEnd(x + y) == x + TrimEnd(y)
    decreases |y|
  {
    if |y| == 0 {
      assert x + y == x;
    } else if IsWhitespace(y[|y| - 1]) {
      assert (x + y)[..|x + y| - 1] == x + y[..|y| - 1];
      TrimEndAfter(x, y[..|y| - 1]);
    }
  }

  /** Only whitespace trims to the empty string. */
  lemma TrimEmptyIff(s: string)
    ensures Trim(s) == "" <==> AllWhitespace(s)
  {
    if AllWhitespace(s) {
      TrimStartAllWhitespace(s);
    }
  }

  lemma TrimStartAllWhitespace(s: string)
    requires AllWhitespace(s)
    ensures TrimStart(s) == ""
  {
  }

  // ---------------------------------------------------------------------------
  // split / join
  // ---------------------------------------------------------------------------

  predicate Avoids(s: string, seps: set<char>) {
    forall i :: 0 <= i < |s| ==> s[i] !in seps
  }

  /**
   * `s.split(sep)` where the separator is one character out of `seps`
   * (a single-character string, or a character class such as `/[,|]/`).
   */
  function Split(s: string, seps: set<char>): (r: seq<string>)
    ensures |r| >= 1
    ensures forall k :: 0 <= k < |r| ==> Avoids(r[k], seps)
  {
    if |s| == 0 then [""]
    else if s[0] in seps then [""] + Split(s[1..], seps)
    else
      var rest := Split(s[1..], seps);
      [[s[0]] + rest[0]] + rest[1..]
  }

  /** `parts.join(sep)` */
  function Join(parts: seq<string>, sep: string): string {
    if |parts| == 0 then ""
    else if |parts| == 1 then parts[0]
    else parts[0] + sep + Join(parts[1..], sep)
  }

  /** Joining the pieces of a split with the separator gives back the string. */
  lemma {:induction false} JoinSplit(s: string, c: char)
    ensures Join(Split(s, {c}), [c]) == s
  {
    if |s| == 0 {
    } else if s[0] == c {
      var rest := Split(s[1..], {c});
      JoinSplit(s[1..], c);
      assert Split(s, {c}) == [""] + rest;
      assert |Split(s, {c})| >= 2;
      assert Split(s, {c})[1..] == rest;
    } else {
      var rest := Split(s[1..], {c});
      JoinSplit(s[1..], c);
      var r := Split(s, {c});
      assert r[0] == [s[0]] + rest[0];
      assert r[1..] == rest[1..];
      if |rest| == 1 {
        assert s == [s[0]] + s[1..];
      } else {
        assert Join(rest, [c]) == rest[0] + [c] + Join(rest[1..], [c]);
        assert s == [s[0]] + s[1..];
      }
    }
  }

  /** Splitting the join of separator-free pieces gives back the pieces. */
  lemma {:induction false} SplitJoin(parts: seq<string>, c: char, seps: set<char>)
    requires |parts| >= 1 && c in seps
    requires forall k :: 0 <= k < |parts| ==> Avoids(parts[k], seps)
    ensures Split(Join(parts, [c]), seps) == parts
  {
    if |parts| == 1 {
      SplitAvoiding(parts[0], seps);
    } else {
      SplitJoin(parts[1..], c, seps);
      SplitPrefix(parts[0], Join(parts[1..], [c]), c, seps);
    }
  }

  lemma {:induction false} SplitAvoiding(s: string, seps: set<char>)
    requires Avoids(s, seps)
    ensures Split(s, seps) == [s]
  {
    if |s| > 0 {
      SplitAvoiding(s[1..], seps);
      assert s == [s[0]] + s[1..];
    }
  }

  lemma {:induction false} SplitPrefix(p: string, t: string, c: char, seps: set<char>)
    requires Avoids(p, seps) && c in seps
    ensures Split(p + [c] + t, seps) == [p] + Split(t, seps)
  {
    if |p| == 0 {
      assert p + [c] + t == [c] + t;
      assert ([c] + t)[1..] == t;
    } else {
      SplitPrefix(p[1..], t, c, seps);
      assert (p + [c] + t)[1..] == p[1..] + [c] + t;
      assert p == [p[0]] + p[1..];
    }
  }

  /** Joining two non-empty lists is joining their joins. */
  lemma {:induction false} JoinAppend(a: seq<string>, b: seq<string>, sep: string)
    requires |a| > 0 && |b| > 0
    ensures Join(a + b, sep) == Join(a, sep) + sep + Join(b, sep)
  {
    if |a| == 1 {
      assert (a + b)[1..] == b;
    } else {
      assert (a + b)[1..] == a[1..] + b;
      JoinAppend(a[1..], b, sep);
    }
  }

  /** `array.filter(p => p.length > 0)` on strings. */
  function NonEmpty(parts: seq<string>): (r: seq<string>)
    ensures forall k :: 0 <= k < |r| ==> |r[k]| > 0
    ensures forall x :: x in r <==> x in parts && |x| > 0
    ensures |r| <= |parts|
  {
    if |parts| == 0 then []
    else if |parts[0]| > 0 then [parts[0]] + NonEmpty(parts[1..])
    else NonEmpty(parts[1..])
  }

  lemma {:induction false} NonEmptyKeeps(parts: seq<string>)
    requires forall k :: 0 <= k < |parts| ==> |parts[k]| > 0
    ensures NonEmpty(parts) == parts
  {
    if |parts| > 0 {
      var tail := parts[1..];
      forall k | 0 <= k < |tail| ensures |tail[k]| > 0 {
        assert tail[k] == parts[k + 1];
      }
      NonEmptyKeeps(tail);
      NonEmptyCons(parts);
    }
  }

  lemma NonEmptyCons(parts: seq<string>)
    requires |parts| > 0 && |parts[0]| > 0
    ensures NonEmpty(parts) == [parts[0]] + NonEmpty(parts[1..])
    ensures parts == [parts[0]] + parts[1..]
  {
  }

  // ---------------------------------------------------------------------------
  // Decimal numerals
  // ---------------------------------------------------------------------------

  function DigitValue(c: char): nat
    requires IsDigit(c)
  {
    c as int - '0' as int
  }

  function DigitChar(d: nat): (c: char)
    requires d < 10
    ensures IsDigit(c) && DigitValue(c) == d
  {
    ('0' as int + d) as char
  }

  /** `parseInt(s)` for a string of decimal digits (no sign, no prefix). */
  function NumeralValue(s: string): nat
    requires AllDigits(s)
  {
    if |s| == 0 then 0 else 10 * NumeralValue(s[..|s| - 1]) + DigitValue(s[|s| - 1])
  }

  /** The decimal text of a non-negative number, as a template literal renders it. */
  function ShowNat(n: nat): (r: string)
    ensures IsNumeral(r)
    ensures |r| == 1 || r[0] != '0'
  {
    if n < 10 then [DigitChar(n)]
    else
      var p := ShowNat(n / 10);
      p + [DigitChar(n % 10)]
  }

  /** The decimal text of an integer, with a leading `-` when it is negative. */
  function ShowInt(i: int): (r: string)
    ensures i >= 0 ==> r == ShowNat(i)
    ensures i < 0 ==> r == "-" + ShowNat(-i)
  {
    if i < 0 then "-" + ShowNat(-i) else ShowNat(i)
  }

  /** `parseInt` reads back what the decimal rendering wrote. */
  lemma {:induction false} NumeralRoundTrip(n: nat)
    ensures NumeralValue(ShowNat(n)) == n
  {
    if n >= 10 {
      NumeralRoundTrip(n / 10);
      var s := ShowNat(n);
      assert s[..|s| - 1] == ShowNat(n / 10);
    }
  }

  /** Different numbers never render to the same text. */
  lemma ShowNatInjective(m: nat, n: nat)
    requires ShowNat(m) == ShowNat(n)
    ensures m == n
  {
    NumeralRoundTrip(m);
    NumeralRoundTrip(n);
  }

  lemma ShowNatNoWhitespace(n: nat)
    ensures NoWhitespace(ShowNat(n))
  {
    var s := ShowNat(n);
    forall i | 0 <= i < |s| ensures !IsWhitespace(s[i]) {
      assert IsDigit(s[i]);
    }
  }
}

=== FILE: wrappers.dfy ===
/** Failure-carrying datatypes shared by every module of the model. */
module Wrappers {

  /** A value that may be absent: JavaScript's `null` / `undefined`. */
  datatype Option<+T> = None | Some(value: T) {

    /** Returns the value held in Some, or `default` for None. */
    function GetOr(default: T): T {
      match this
      case Some(v) => v
      case None => default
    }
  }

  /** The outcome of an operation that the source ends with `throw` or with a notice. */
  datatype Result<+T, +E> = Ok(value: T) | Err(error: E)
}
